=== FILE: README.md ===
# hdintegrator core in Dafny

hdintegrator integrates a function over a high-dimensional box adaptively. A
master process keeps a grid of cells. For each cell a worker asks a
command-line integrator for a value and a suggested split dimension. A cell
whose value changes too much when more calls are spent is split along that
dimension. This project models the numerical and bookkeeping core of that
pipeline:

- the modified GSL estimators that return a split tally beside the integral:
  - the recursive stratified sampler (MISER) with its pilot schedule, sigma
    estimates, choice of direction, budget split, recursion and combination;
  - the plain Monte Carlo estimator with its half-space split diagnostic;
- the turbulence integrator's own estimate with one pair of half buckets per
  dimension, plus its request loop;
- the request loops of the two Burgers drivers, and their space-time grid
  index helpers with every read they make;
- the adaptive driver's logic: cell-id numbering on a split, the request
  lines a worker writes, the convergence test and the work-item update.

Modelling choices:
- Arithmetic is exact `real`.
- The random generator is a stream `u: nat -> real` of values in (0, 1) read
  at a cursor; GSL's uniform integer draw is an oracle `pick`.
- The integrand is an uninterpreted function `seq<real> -> real`.
- `sqrt` is not modelled, so errors and sigmas are kept squared; `pow` is an
  uninterpreted function assumed non-negative.
- `size_t` arithmetic is written out modulo 2^64 where the source relies on
  it, and a C NaN is a `Dbl` value `NaN`.

Modules, in dependency order:
- `Wrappers` holds `Option` and `Result`.
- `Numeric` holds sums, C truncation and rounding, `size_t` subtraction and
  the tally increment.
- `Moments` is the streaming mean and variance recurrence and the estimate it
  yields.
- `Box` covers boxes, volumes, child boxes and sample points.
- `Halves` has the half buckets and the first-maximum scan.
- `Plain` is `plain2.c`.
- `MiserPilot` and `Miser` are `miser2.c`.
- `Grid` holds the Burgers index helpers.
- `Turbulence` is `integrate` of `turbulence4.cpp`.
- `Requests` is the request line parser and writer.
- `Drivers` covers the request loops.
- `Adaptive` is the worker side of `main_mpi.py`.

Behaviour of the code that the model keeps:
- A MISER sigma is the square root of `fsum2 - fsum^2 / hits`, scaled by the
  side's share of the volume over its hits (integrands/gsl/miser2.c:136-144).
- The turbulence integrator passes `calls` to a `size_t` sample count, which
  truncates it (integrators/turbulence4.cpp:219).
- No explicit check skips a half with no hits. Its average is 0 / 0, a NaN,
  and a NaN diff loses every `max_diff < diff` comparison
  (integrators/turbulence4.cpp:141-148).
- In plain2.c the diff first goes through C's integer `abs`, whose conversion
  of a NaN or an out-of-range double to `int` is undefined. The model lets a
  NaN diff lose every comparison there too (integrands/gsl/plain2.c:121-128).
- The plain estimator's diagnostic shares slots between neighbouring
  dimensions and truncates each diff to an integer (see Findings).

## Model

| member | source | states |
|---|---|---|
| Numeric.Trunc | integrators/turbulence4.cpp:219 | conversion of a double to an integer truncates toward zero: the result is within 1 of x and on the side of 0 |
| Numeric.RoundHalfAway | integrands/burgers.cpp:333 | `std::round` gives the nearest integer, halves away from zero, non-negative for non-negative input |
| Numeric.SizeSub | integrators/turbulence4.cpp:108-113 | `size_t` subtraction is exact when b <= a and wraps to 2^64 + a - b otherwise |
| Numeric.Bump | integrands/gsl/plain2.c:130 | incrementing split_dims[i] raises entry i by one, leaves every other entry alone and raises the sum by one |
| Moments.UpdateKeepsClosedForm | integrands/gsl/plain2.c:100-104 | one step of the mean/variance recurrence keeps m * n equal to the sum and q equal to the sum of squares minus m times the sum |
| Moments.FoldIsMeanAndDeviation | integrands/gsl/miser2.c:104-109 | after n > 0 values m is their arithmetic mean and q is the sum of squared deviations from it, hence non-negative |
| Moments.Stream | integrands/gsl/plain2.c:78-106 | the in-place accumulator loop computes the same m and q as the recurrence, with m times n the sum of the values |
| Moments.CauchySchwarz | integrands/gsl/miser2.c:136 | n times the sum of squares is at least the squared sum, which keeps the sigma root non-negative |
| Moments.Mean | integrands/gsl/plain2.c:100-104 | the running mean of n values times n is their sum, for every n including 0 |
| Moments.EstimateIsMean | integrands/gsl/plain2.c:108 | for any number n of values, the result times n is the volume times their sum |
| Moments.EstimateError | integrands/gsl/plain2.c:110-117 | for any number of values, the error is +infinity exactly when fewer than two are seen; otherwise its square is vol^2 q / (n (n - 1)) with q the squared deviations, and it is non-negative |
| Moments.EstimateOfConstant | integrands/gsl/plain2.c:100-117 | a constant integrand is estimated as vol times the constant, with zero error from two values on |
| Box.VolumePositive | integrands/gsl/plain2.c:65-70 | a box that passes the xl < xu checks has positive volume |
| Box.VolumeSplit | integrands/gsl/miser2.c:371-376 | cutting dimension i at m splits the volume between the two children exactly |
| Box.Cut | integrands/gsl/miser2.c:371-406 | a child's bounds equal the parent's except in the bisected dimension, which takes the cut: xu[i_bisect] for the lower child, xl[i_bisect] for the upper one |
| Box.ChildrenValid | integrands/gsl/miser2.c:371-406 | a cut strictly inside dimension i gives two children that pass the argument checks again |
| Box.CoordInside | integrands/gsl/plain2.c:84 | a draw strictly inside (0, 1) gives a coordinate strictly inside its extent |
| Box.PointInside | integrands/gsl/plain2.c:82-85 | every sample point drawn from a unit stream lies strictly inside the box |
| Box.DrawsIsProduct | integrands/gsl/plain2.c:78-85 | the samples consume samples * dim draws of the stream |
| Box.Points | integrands/gsl/plain2.c:78-85 | sample n uses the dim draws after those of the n earlier samples |
| Halves.LowerIsBelowMidpoint | integrators/turbulence4.cpp:127 | the comparison r - r_min < r_max - r puts a sample in the lower half exactly when it is below the midpoint; ties go up |
| Halves.Classify | integrators/turbulence4.cpp:126-134 | a sample raises exactly one half's count by one and adds its value to that half only |
| Halves.Buckets | integrators/turbulence4.cpp:126-134 | the two halves of a dimension count every sample once and their sums add up to the sum of all values; an empty half has sum 0 |
| Halves.BucketsAppend | integrators/turbulence4.cpp:126-134 | the buckets are built one sample at a time, in sampling order |
| Halves.Avg | integrators/turbulence4.cpp:142-143 | a half's average is NaN when it has no hits and otherwise times its count gives its sum |
| Halves.Gap | integrators/turbulence4.cpp:142-144 | a dimension's diff is present exactly when both halves have hits, and is then the non-negative real distance of the two averages |
| Halves.FirstMaxIsFirstMaximum | integrators/turbulence4.cpp:139-149 | the scan with max_diff = -1 and a strict < returns the first index of the largest present diff, and 0 when none is present |
| Halves.FirstMaxUnique | integrators/turbulence4.cpp:139-149 | the first maximum is unique, so the scan's answer is determined by the diffs alone |
| Halves.SplitDim | integrators/turbulence4.cpp:139-151 | the reported dimension is below the number of dimensions, and 0 when no dimension has hits on both sides |
| Halves.SplitDimIsLargestGap | integrators/turbulence4.cpp:139-151 | when some dimension has hits on both sides, the reported dimension is the first with the largest diff of half averages |
| Plain.SlotCountsShareHalves | integrands/gsl/plain2.c:90-98 | slot k counts dimension k's lower half plus dimension k - 1's upper half, and slots above dim count nothing |
| Plain.SlotSumsShareHalves | integrands/gsl/plain2.c:90-98 | slot k sums dimension k's lower half plus dimension k - 1's upper half, and slots above dim stay zero |
| Plain.FileStep | integrands/gsl/plain2.c:90-98 | filing dimension d adds the value to one slot, d or d + 1, and extends the filing of the first d dimensions to d + 1 |
| Plain.FileSample | integrands/gsl/plain2.c:90-98 | one sample raises each slot by its hits and adds its value once per hit; the counts rise by dim in total |
| Plain.FileSamples | integrands/gsl/plain2.c:72-98 | from zeroed arrays the sampling loop leaves every slot's count and sum as the shared-slot definition says, with calls * dim hits in total |
| Plain.SlotsAreFiled | integrands/gsl/plain2.c:122-123 | a slot with no hits has a zero sum, so its division is 0/0 |
| Plain.DivCount | integrands/gsl/plain2.c:122-123 | a division by a count is NaN for a zero count or a NaN sum, and otherwise times the count gives the sum |
| Plain.CIntAbs | integrands/gsl/plain2.c:124 | C's integer abs of a double is the magnitude truncated to an integer, within 1 below the real magnitude |
| Plain.IntAbsGap | integrands/gsl/plain2.c:124 | the diff is present exactly when both averages are numbers, and is then the integer abs of their difference |
| Plain.GapsAsWritten | integrands/gsl/plain2.c:119-124 | iteration d compares slot d, divided a second time unless d is 0, with slot d + 1, divided once |
| Plain.DiagAsWritten | integrands/gsl/plain2.c:119-129 | the reported dimension is below dim and is the first maximum of the diffs as written |
| Plain.DiagInPlace | integrands/gsl/plain2.c:119-129 | the loop with its in-place divisions and running maximum returns the first maximum of the diffs as written |
| Plain.SplitDimOf | integrands/gsl/plain2.c:119-130 | either diagnostic reports a dimension below dim |
| Plain.Integrate | integrands/gsl/plain2.c:44-61 | GSL_EINVAL exactly for a dimension mismatch or an invalid range; a run reads calls * dim draws |
| Plain.IntegrateIsMean | integrands/gsl/plain2.c:100-108 | a successful run reports the volume times the mean of the calls sampled values (whose product with calls is their sum, by Moments.Mean), and 0 after no calls |
| Plain.IntegrateError | integrands/gsl/plain2.c:110-117 | a successful run's error is +infinity exactly below two calls; otherwise its square is vol^2 q / (calls (calls - 1)) with q the squared deviations of the sampled values from their mean, and non-negative |
| Plain.IntegrateTally | integrands/gsl/plain2.c:119-130 | a run raises by one exactly the tally entry of the dimension its diagnostic reports for the sampled points (`max_diff_d`), below dim, and leaves every other entry |
| Plain.IntegrateTallyDiagnosed | integrands/gsl/plain2.c:119-130 | the raised entry is the first largest shared-slot int-abs gap for the code as written, and the first largest per-dimension gap for the paired halves |
| Plain.WitnessSlots | integrands/gsl/plain2.c:90-98 | three samples of the unit square fill the shared slots with counts [2, 3, 1, 0] and sums [8, 20, 8, 0] |
| Plain.SharedSlotsWitness | integrands/gsl/plain2.c:119-129 | on those slots the diagnostic as written reports dimension 1 |
| Plain.SharedSlotsMisdirect | integrands/gsl/plain2.c:91-96 | for the same samples the shared slots report dimension 1, while per-dimension halves report dimension 0, whose half averages differ most |
| Plain.SubunitGapIsZero | integrands/gsl/plain2.c:124 | any two averages closer than 1 get diff 0 from the integer abs |
| Plain.IntAbsHidesLargerGap | integrands/gsl/plain2.c:124 | with diffs 0.5 and 0.9 the integer abs reports dimension 0, the real distance dimension 1 |
| MiserPilot.EstimateCalls | integrands/gsl/miser2.c:256 | the pilot size is at least min_calls and otherwise at most calls * estimate_frac |
| MiserPilot.EstimateLeavesBudget | integrands/gsl/miser2.c:256-282 | under the configuration assumptions the pilot fits in the calls and leaves at least 2 * min_calls |
| MiserPilot.Coin | integrands/gsl/miser2.c:267 | the dither sign is +dither or -dither |
| MiserPilot.MidInside | integrands/gsl/miser2.c:268 | with abs(dither) < 1/2 the cut lies strictly inside the dimension |
| MiserPilot.MidWithoutDither | integrands/gsl/miser2.c:268 | without dither the cut is the midpoint |
| MiserPilot.XMid | integrands/gsl/miser2.c:265-269 | the cuts use one uniform draw per dimension, in dimension order |
| MiserPilot.XMidInside | integrands/gsl/miser2.c:265-269 | every cut of a valid box lies strictly inside its dimension |
| MiserPilot.Probed | integrands/gsl/miser2.c:78 | the probed dimension is below dim |
| MiserPilot.Side | integrands/gsl/miser2.c:79 | the side is 0 or 1 |
| MiserPilot.ScheduleProbesBothSides | integrands/gsl/miser2.c:78-79 | samples 2d and 2d + 1 probe dimension d on side 0 and side 1 |
| MiserPilot.PilotCoordInside | integrands/gsl/miser2.c:81-100 | a pilot coordinate stays in the box, and a probed one lies above the cut on side 0 and below it on side 1 |
| MiserPilot.PilotPoints | integrands/gsl/miser2.c:74-100 | pilot sample n is drawn from the dim draws after those of the earlier samples |
| MiserPilot.HalvesCount | integrands/gsl/miser2.c:112-126 | every pilot sample is counted on exactly one side: hits_l + hits_r == calls |
| MiserPilot.HalvesSum | integrands/gsl/miser2.c:112-126 | the two sides' value sums add up to the sum of all values |
| MiserPilot.HalfHit | integrands/gsl/miser2.c:114-125 | a side that some sample falls on has a hit |
| MiserPilot.SigmaOf | integrands/gsl/miser2.c:129-146 | a sigma stays the sentinel -1 exactly when its side has no hits |
| MiserPilot.SigmaTrichotomy | integrands/gsl/miser2.c:295-325 | a sigma passes sigma >= 0, or sigma < 0, or neither exactly when it is NaN; never both |
| MiserPilot.SigmaUsable | integrands/gsl/miser2.c:133-145 | a side with hits and a non-negative weight has a sigma >= 0: the root fsum2 - mean^2 / hits is non-negative |
| MiserPilot.FractionInside | integrands/gsl/miser2.c:131 | the fraction below a cut strictly inside the dimension lies strictly between 0 and 1 |
| MiserPilot.SideWeightNonNegative | integrands/gsl/miser2.c:137-144 | the scale of a side's sigma is non-negative |
| MiserPilot.Sigmas | integrands/gsl/miser2.c:129-146 | one sigma per dimension for each side |
| MiserPilot.Corr | integrands/gsl/miser2.c:150-157 | the pilot error is +infinity exactly when calls < 2, and there is one sigma per dimension and side |
| MiserPilot.ProbeSide | integrands/gsl/miser2.c:85-100 | the probed coordinate of sample n lies above the cut on side 0 and below it on side 1 |
| MiserPilot.ProbeHits | integrands/gsl/miser2.c:78-126 | a sample probing dimension i on a side is a hit of that side |
| MiserPilot.PilotHitsSide | integrands/gsl/miser2.c:74-126 | with 2 dim pilot calls or more, both sides of every dimension get a hit |
| MiserPilot.CorrUsable | integrands/gsl/miser2.c:74-146 | with 2 dim pilot calls or more and cuts inside the box, every sigma is >= 0 |
| MiserPilot.Variances | integrands/gsl/miser2.c:298 | the variance of dimension i is pow(sigma_l, beta) + pow(sigma_r, beta) when both sigmas are usable |
| MiserPilot.ChooseFromFails | integrands/gsl/miser2.c:293-326 | the scan fails with GSL_ESANITY exactly when some remaining dimension has a negative sigma |
| MiserPilot.ScanTakes | integrands/gsl/miser2.c:300-313 | a variance no larger than the best so far takes over the choice with its weights |
| MiserPilot.ScanSkips | integrands/gsl/miser2.c:295-314 | a larger or absent variance leaves the choice as it was |
| MiserPilot.ChooseFromScans | integrands/gsl/miser2.c:293-326 | a scan that completes picks the last dimension with the smallest variance, or nothing |
| MiserPilot.ChooseIsLastMinimum | integrands/gsl/miser2.c:286-327 | the choice fails with GSL_ESANITY exactly when some sigma is negative; otherwise it picks the last smallest variance at most DBL_MAX with its weights, or nothing |
| MiserPilot.PickedWeights | integrands/gsl/miser2.c:305-312 | the chosen weights are non-negative and not both zero, since two zeros become 1 and 1 |
| MiserPilot.ShareBounds | integrands/gsl/miser2.c:352-353 | the two shares of the remaining calls are non-negative and add up to them |
| MiserPilot.Budget | integrands/gsl/miser2.c:345-354 | each half gets at least min_calls, and the two budgets use all calls left after the pilot except at most one lost to truncation |
| MiserPilot.Allot | integrands/gsl/miser2.c:338-354 | the plan cuts the chosen dimension at its cut with budgets of at least min_calls that fit in the calls left |
| MiserPilot.Follow | integrands/gsl/miser2.c:329-354 | the plan after the choice, or after a random direction when none was found, is one the recursion can follow |
| MiserPilot.PilotChoice | integrands/gsl/miser2.c:277-327 | the pilot and the choice fail only with GSL_ESANITY, and a success has usable weights and a dimension below dim |
| MiserPilot.Bisect | integrands/gsl/miser2.c:256-354 | a bisection fails only with GSL_ESANITY; otherwise its plan has a cut strictly inside a dimension, budgets that fit, and it advances the stream |
| MiserPilot.PilotChoiceSucceeds | integrands/gsl/miser2.c:317-324 | with 2 dim pilot calls or more and abs(dither) < 1/2 the empty-half errors cannot happen |
| MiserPilot.BisectFailsOnlyWhenShort | integrands/gsl/miser2.c:256-261 | a bisection fails exactly when the pilot size is below 4 dim |
| Miser.Leaf | integrands/gsl/miser2.c:220-254 | a base case fails with GSL_EFAILED exactly when calls < 2; otherwise it leaves the tally alone, spends calls evaluations and reports the estimate of its values |
| Miser.LeafIsEstimate | integrands/gsl/miser2.c:241-251 | a base case reports vol times the mean of its values, with the non-negative squared error of their deviations |
| Miser.Integrate | integrands/gsl/miser2.c:162-423 | a successful run keeps the tally's length and spends at most calls evaluations |
| Miser.IntegrateRejects | integrands/gsl/miser2.c:187-209 | GSL_EINVAL comes exactly from the argument checks of the top call; no child box fails them |
| Miser.IntegrateFails | integrands/gsl/miser2.c:187-261 | with min_calls >= 4 dim a run fails exactly on the argument checks or when calls < 2 |
| Miser.EstimateExact | integrands/gsl/miser2.c:241-251 | the estimate of constant values is exact with zero error |
| Miser.LeafConstant | integrands/gsl/miser2.c:220-254 | a base case of a constant integrand is exact |
| Miser.ExactSplit | integrands/gsl/miser2.c:419-420 | adding the halves' results and squared errors of exact halves gives the exact result of the parent |
| Miser.IntegrateConstant | integrands/gsl/miser2.c:338-420 | a constant integrand is integrated exactly, with zero error, however the box is bisected |
| Miser.IntegrateTally | integrands/gsl/miser2.c:336 | a run never lowers a tally entry and raises the sum by exactly its number of bisections: none for a base case, at least one otherwise; a bisected box's successful run has a successful bisection and raises that bisection's dimension `i_bisect` at least once |
| Grid.IndexBound | integrands/burgers.cpp:76-79 | the periodic index is below nx * nt |
| Grid.IndexPeriodic | integrands/burgers.cpp:76-79 | the periodic index is unchanged by a shift of x by nx or of t by nt |
| Grid.IndexInverse | integrands/burgers.cpp:76-79 | on the grid the index is one-to-one: every slot below nx * nt is the index of exactly the point (k % nx, k / nx) |
| Grid.OpenIndexBound | integrators/burgers.cpp:76-79 | the single-time index is below nx * nt whenever t < nt |
| Grid.OpenIndexShifts | integrators/burgers.cpp:76-79 | the single-time index is periodic in x, while a shift of t by nt moves it by nx * nt, out of the grid |
| Grid.PeriodicVerdict | integrands/burgers.cpp:94-110 | the integrand aborts exactly when a correlation index is at or above dimensions or nx * nt differs from it; it correlates exactly when it does not abort and both indices are non-negative, reading below dimensions |
| Grid.PeriodicReadsInBounds | integrands/burgers.cpp:121-162 | with nx * nt == dimensions every read of the transform factor and of the exponent is in bounds, at t = nt - 1 too |
| Grid.LeftIsPredecessor | integrands/burgers.cpp:153 | (x + nx - 1) % nx is the periodic left neighbour: x - 1 inside, nx - 1 at x = 0 |
| Grid.LeftAsWrittenInside | integrators/burgers.cpp:126 | away from x = 0 the size_t neighbour x - 1 is the periodic one |
| Grid.LeftAsWrittenAtZero | integrators/burgers.cpp:126 | at x = 0 with nx = 3 the size_t neighbour is 0 itself, not 2 |
| Grid.OpenVerdict | integrators/burgers.cpp:88-115 | the integrand aborts exactly when a correlation index is at or above dimensions; it correlates exactly when both are non-negative, reading at t = nt - 1 below dimensions when nx * nt == dimensions |
| Grid.OpenReadsInBounds | integrators/burgers.cpp:116-136 | the time loop stops at nt - 1, so every read of the exponent is in bounds, the size_t neighbour as written too |
| Turbulence.Weight | integrators/turbulence4.cpp:96-105 | the weight is 1 when either index is negative, an abort exactly when both are non-negative and one is out of range, and otherwise the product of the two coordinates |
| Turbulence.WeightReadsTwoCoordinates | integrators/turbulence4.cpp:103 | the weight depends on the two correlated coordinates only |
| Turbulence.ReadsInBoundsIffTwo | integrators/turbulence4.cpp:107-121 | every read of the exponent is in bounds exactly when there are at least two dimensions, which nothing checks |
| Turbulence.SampleValues | integrators/turbulence4.cpp:95-124 | each sample's value is its weight times the integrand factor |
| Turbulence.Tallies | integrators/turbulence4.cpp:126-134 | every dimension's buckets count all samples and sum all values |
| Turbulence.SummaryIsMeanAndFirstMax | integrators/turbulence4.cpp:137-151 | the average times the sample count is the sum of values, NaN after no samples; the reported dimension is the first with the largest diff, and 0 when there are no samples |
| Turbulence.Integrate | integrators/turbulence4.cpp:56-152 | a call aborts exactly on unequal bound sizes or, with valid distributions and samples, an out-of-range correlation index; it is undefined exactly when some extent has min > max or max - min > DBL_MAX (the uniform distributions' precondition, even with no samples); it reads out of range exactly when otherwise there are samples and fewer than two dimensions; otherwise it returns the summary of the default-seeded samples |
| Turbulence.SamplesInside | integrators/turbulence4.cpp:73-93 | every sample lies strictly inside the requested box |
| Requests.Bounds | integrators/turbulence4.cpp:203-210 | the numbers alternate between mins and maxs, and a lone last number is a min without a max |
| Requests.ParseLine | integrands/burgers.cpp:257-276 | a line with no bounds stops the loop, an even count of numbers is unpaired, and otherwise the first number is calls and the rest pair up as (min, max) |
| Requests.FlattenAt | main_mpi.py:243-244 | the extents are written min then max, dimension by dimension |
| Requests.ParseFormat | main_mpi.py:242-245 | a line written by a worker reads back as a request with the same calls and extents, and a box without extents reads as the end of input |
| Requests.FlattenBounds | integrands/burgers.cpp:262-269 | pairing an even number of bounds and writing the pairs again gives the same numbers |
| Requests.FormatParse | integrands/burgers.cpp:257-276 | writing a parsed request back gives the very numbers that were read |
| Drivers.Prepare | integrands/burgers.cpp:288-309 | the scratch state is allocated on the first request, freed and reallocated when the dimension changes, and kept otherwise; exactly one state of the current dimension is live afterwards |
| Drivers.Release | integrands/burgers.cpp:349-357 | after the loop nothing stays allocated |
| Drivers.Zeros | integrands/burgers.cpp:320 | each request gets a fresh tally of zeros, one per dimension |
| Drivers.MaxElementIsFirstLargest | integrands/burgers.cpp:345-346 | std::max_element returns the first largest entry of a non-empty tally |
| Drivers.FirstLargestIsMaxElement | integrands/burgers.cpp:345-346 | conversely, whichever index holds the first largest entry is the one returned |
| Drivers.RoundedBudget | integrands/burgers.cpp:333 | the budget is calls rounded half away from zero, undefined outside the range of size_t |
| Drivers.Refusal | integrands/burgers.cpp:270-313 | a request is refused exactly for unordered bounds (only where the driver checks them) or a dimension count other than nx * nt; no bounds ends normally, unpaired bounds fail |
| Drivers.Step | integrands/burgers.cpp:255-346 | one line (integrators/burgers.cpp:231-316 without the order check) ends the loop exactly when it has no bounds, fails exactly when the request is refused, aborts only after every check passed (a failing GSL routine aborts), prints only after passing every check with the state sized to the request, and keeps the state tracked |
| Drivers.StepReportsFirstLargest | integrands/burgers.cpp:320-346 | an accepted line integrates with a fresh tally and round(calls), and prints the first largest tally entry, below nx * nt |
| Drivers.Run | integrands/burgers.cpp:254-359 | a normal end frees the scratch state; any other end leaves it tracked; every printed line is kept |
| Drivers.Process | integrands/burgers.cpp:215-226 | a grid without points in x or t fails at startup without output; a normal end leaves nothing allocated |
| Drivers.RunReportsDimensions | integrands/burgers.cpp:345-346 | every printed split dimension of a run is below nx * nt |
| Drivers.TruncatedSamples | integrators/turbulence4.cpp:219 | the sample count is calls truncated toward zero, undefined outside the range of size_t |
| Drivers.TurbulenceReply | integrators/turbulence4.cpp:196-221 | no bounds ends the process normally and unpaired bounds fail; a printed line has the literal error -1 and a split dimension below the number of dimensions |
| Drivers.UnorderedBoundsUndefined | integrators/turbulence4.cpp:74-77 | a request whose mins exceed its maxs makes the call, and so the reply, undefined rather than a summary |
| Drivers.MiserKeepsTally | integrands/burgers.cpp:320-346 | the MISER routine, wrapped as the drivers call it, keeps the tally length, so every split dimension a driver prints with it is below nx * nt |
| Drivers.TurbulenceRun | integrators/turbulence4.cpp:195-224 | output stops early only at a line that ends the process, and normally only at a line without bounds |
| Drivers.TurbulenceRepliesIndependent | integrators/turbulence4.cpp:84 | the generator is reseeded on every call, so each printed line is the reply to its own request alone |
| Adaptive.Round | main_mpi.py:45-50 | a splitting round doubles the number of cells |
| Adaptive.RoundAt | main_mpi.py:49-50 | the children of cell k are 2k and 2k + 1, in that order |
| Adaptive.RoundBlock | main_mpi.py:45-50 | a round over consecutive ids gives the consecutive ids of their children |
| Adaptive.RoundsAdd | main_mpi.py:43-52 | a rounds after b rounds are a + b rounds |
| Adaptive.SplitIsRounds | main_mpi.py:39-52 | split runs splits times the number of dimensions rounds, whatever the dimensions are |
| Adaptive.SplitIds | main_mpi.py:39-52 | splitting cell k T times leaves 2^T cells with ids k 2^T to k 2^T + 2^T - 1, in ascending order |
| Adaptive.SecondBudgetIgnoresCallsFactor | main_mpi.py:253 | the second budget as written does not depend on the calls factor, and with the defaults it is 1.01e6 instead of 2e6 |
| Adaptive.SecondBudgetScales | main_mpi.py:141-146 | the corrected second budget is F times the calls and does not depend on O |
| Adaptive.WorkerLinesParse | main_mpi.py:242-256 | both lines a worker writes read back as requests for the cell's box: the base budget, then calls * O as the code writes it |
| Adaptive.WorkerLinesParseCorrected | main_mpi.py:141-146 | with the corrected second budget the second line reads back as a request for F * calls over the same box |
| Adaptive.RatioBelow | main_mpi.py:263 | a ratio of magnitudes with a positive denominator is below O exactly when the values are within the factor O |
| Adaptive.ConvergedAsWrittenMeans | main_mpi.py:262-274 | the test as written passes exactly when the values are within the factor O, within D, the second is below M, or (O > 0) one of them is zero |
| Adaptive.ZeroRatioConverges | main_mpi.py:262-266 | values 0 and 5 pass the test as written but not the corrected test |
| Adaptive.ConvergedMeans | main_mpi.py:270-274 | the corrected test passes exactly when the values are within the factor O, within D, or the second is below M |
| Adaptive.Settle | main_mpi.py:267-284 | a converged item is marked converged and carries the second value and error with the first split dimension; any other item keeps its flag, has value and error cleared and carries the second split dimension; volume and id are always kept |
| Adaptive.WorkNeverConvergesEmpty | main_mpi.py:267-284 | a returned item is converged exactly when the test passes and carries a value exactly then, so the master's check for a converged item without a value never fires |

## Left out

- Integrand values (`exp`, `sqrt`, the `x / (1 - x^2)` transform) are floating-point numerics. The integrand is an uninterpreted function, and only the index and abort logic of the Burgers integrands is modelled.
- `sqrt` is not modelled. Errors and sigmas are kept squared, so the combined error `sqrt(err_l^2 + err_r^2)` is kept as its square.
- `pow(sigma, beta)` is an uninterpreted function of the squared sigma, assumed non-negative for non-negative sigmas.
- Random generators (`gsl_rng_uniform`, `gsl_rng_uniform_pos`, `mt19937` with `uniform_real_distribution`) are a stream of values strictly inside (0, 1). `gsl_rng_uniform` can return 0, and `uniform_real_distribution` can return its lower bound; neither edge is modelled.
- The random fallback direction `gsl_rng_uniform_int` is an oracle `pick` whose value is below dim.
- Floating-point overflow, rounding and infinities of intermediate results are out: all arithmetic is exact. The DBL_MAX range check is kept as a condition on the box.
- Memory handling is out: `malloc`/`calloc`/`free`, the allocation-failure returns, and the leak of the slot arrays in plain2.c. The driver's state log stands in for the allocations.
- The `int` slot counters of plain2.c never overflow in the model.
- Plain.CIntAbs: assumes every diff lies within the range of a 32-bit `int` and takes its exact truncated magnitude. C's conversion of a double to `int` is undefined beyond that range and for a NaN. On common targets such a diff converts to INT_MIN and is never chosen, while the model would choose a huge finite gap. A NaN diff is Plain.IntAbsGap's None, which loses every comparison as INT_MIN does.
- The `int(dimensions)` narrowing in the integrands' abort check is not modelled: dimensions are assumed to fit in an int.
- Plain.Integrate: requires dim >= 1. With dim 0 the source increments `split_dims[0]` of an empty tally; the drivers never call it so, because they check dimensions == nx * nt with nx, nt > 0.
- MiserPilot.Bisect: assumes the configuration under which the `size_t` subtractions `calls - estimate_calls` and `calls - 2 * min_calls` do not wrap (estimate_frac < 1, and min_calls_per_bisection large enough for the pilot and both halves), and abs(dither) < 1/2. It also requires dim >= 1, because `(n/2) % dim` divides by zero for dim 0.
- Miser.Integrate: states only that the tally keeps its length and the evaluations fit in the calls. Its results are described by Miser.LeafIsEstimate, Miser.IntegrateConstant and Miser.IntegrateTally, and the result of a non-constant integrand is not given in closed form.
- Miser.IntegrateFails: covers only the configurations with min_calls >= 4 dim, where the 4 dim pilot guard cannot fail. Otherwise MiserPilot.BisectFailsOnlyWhenShort gives the exact condition for one bisection.
- The estimator's `res_est` and `err_est` of the pilot are computed and discarded, as in the source; only the sigmas are used.
- Turbulence.Integrate: the DBL_MAX bound of a distribution is checked on exact reals, and a valid distribution's draw is rMin + u * (rMax - rMin) computed exactly, as libstdc++ forms it without its rounding.
- Drivers.Step: the integration routine is a parameter. It is assumed to hand back a tally of the length it was given (KeepsTally), which Drivers.MiserKeepsTally proves for the MISER routine; the error it reports goes through an uninterpreted `root` in place of sqrt. The vegas routine the drivers can be built with is not part of this model, and `gsl_monte_*_alloc` is a state log.
- Drivers.Step: every failure of the integration routine ends the process with abort(). The plain and MISER routines report failures through GSL_ERROR, and no file of the program turns off GSL's default handler, which aborts. So the "Integration failed." exit of integrands/burgers.cpp:339-342 is not modelled as reachable. An abort inside the integrand during the call ends the same way and is not told apart.
- Startup and output plumbing are out: boost `program_options` parsing, `--help`, and the `%.15e` / `setprecision(15)` output formatting. A request line is the sequence of numbers read from it; non-numeric tokens are not modelled.
- The master side of main_mpi.py is out: the work trackers, `Iprobe`, `sleep`, `work_left`, MPI messaging, and the `Popen` worker processes. Only the worker's update of a work item is modelled.
- The grid geometry of `ndgrid` is not part of this model. `grid.split` is an abstract split into two cells, so Adaptive.Split tracks only the ids.
- Adaptive.Work: uses the corrected convergence test (see Findings). The test as written is Adaptive.ConvergedAsWritten.
- integrators/turbulence2.cpp, turbulence3.cpp, turbulence1.py and the example integrators are thin wrappers over libraries whose code is not shown.
- integrands/maybe_failing.cpp and maybe_hanging.cpp are fault-injection stubs driven by `rand()` and `time()`.

## Findings

| source | as written | input that shows it | evidently intended | confidence | as-written member | corrected member |
|---|---|---|---|---|---|---|
| integrands/gsl/plain2.c:91-96 | both halves of dimension d go to slots d and d + 1 of one array, so d's upper half shares slot d + 1 with d + 1's lower half | unit square, samples (p, p) -> 0, (q, p) -> 10, (p, q) -> 8 with p lower and q upper: the slots report dimension 1 | one pair of halves per dimension, as turbulence4.cpp keeps it, which reports dimension 0 (half averages 4 and 10 against 5 and 8) | not executed | Plain.SharedSlotsMisdirect | Halves.SplitDimIsLargestGap |
| integrands/gsl/plain2.c:124 | C's integer `abs` on a double truncates the diff to an int | half averages 1.5 and 1.0 in dimension 0, 2.9 and 2.0 in dimension 1: both diffs become 0 and dimension 0 is reported | the real distance `fabs`, which reports dimension 1 | not executed | Plain.IntAbsHidesLargerGap | Halves.Gap |
| integrators/burgers.cpp:126 | the left neighbour `x_i - 1` wraps in size_t at x_i = 0 to 2^64 - 1 before `% nx` | nx = 3, x_i = 0: (2^64 - 1) % 3 == 0, so the neighbour read is x_i itself | the periodic neighbour (x_i + nx - 1) % nx, as integrands/burgers.cpp:153 writes it, here 2 | not executed | Grid.LeftAsWrittenAtZero | Grid.LeftIsPredecessor |
| main_mpi.py:262-266 | a ZeroDivisionError of the ratio sets it to 0.0, which is below any positive O | first value 0, second 5, O = 1.01, D = M = 0.001: converged | a failed division means "not within the factor" | not executed | Adaptive.ZeroRatioConverges | Adaptive.ConvergedMeans |
| main_mpi.py:253 | the second request uses calls * convergence_factor; the calls factor F is never read | defaults calls = 1e6, F = 2, O = 1.01: the check runs 1.01e6 calls instead of 2e6 | F times as many calls, as the option's help text says | not executed | Adaptive.SecondBudgetIgnoresCallsFactor | Adaptive.SecondBudgetScales |

=== FILE: adaptive.dfy ===
/**
 * The adaptive driver's own logic: binary numbering of the cells a split
 * produces, the two request lines a worker writes per cell, the convergence
 * test on the two replies, and the update of the work item.
 */
module Adaptive {
  import opened Numeric
  import opened Wrappers
  import opened Requests

  /** One splitting round over the list of cells: each cell k is replaced by its children 2k and 2k + 1, in that order. */
  function Round(ids: seq<nat>): (r: seq<nat>)
    ensures |r| == 2 * |ids|
  {
    if |ids| == 0 then [] else [2 * ids[0], 2 * ids[0] + 1] + Round(ids[1..])
  }

  lemma {:induction false} RoundAt(ids: seq<nat>, j: nat)
    requires j < |ids|
    ensures Round(ids)[2 * j] == 2 * ids[j] && Round(ids)[2 * j + 1] == 2 * ids[j] + 1
  {
    if j > 0 {
      RoundAt(ids[1..], j - 1);
      assert Round(ids) == [2 * ids[0], 2 * ids[0] + 1] + Round(ids[1..]);
    }
  }

  /** n rounds in a row. */
  function Rounds(ids: seq<nat>, n: nat): seq<nat>
    decreases n
  {
    if n == 0 then ids else Rounds(Round(ids), n - 1)
  }

  /**
   * split(cell, splits, dimensions): for every listed dimension, splits
   * rounds over the whole current list; the dimension only steers the
   * geometric split, which is not part of this model.
   */
  function Split(ids: seq<nat>, splits: nat, dims: seq<nat>): seq<nat>
    decreases |dims|
  {
    if |dims| == 0 then ids else Split(Rounds(ids, splits), splits, dims[1..])
  }

  /** 2^n, the number of ids one id becomes after n splits; never 0. */
  function Pow2(n: nat): (p: nat)
    ensures p >= 1
  {
    if n == 0 then 1 else 2 * Pow2(n - 1)
  }

  /** The consecutive ids base, base + 1, ..., base + count - 1. */
  function Block(base: nat, count: nat): (b: seq<nat>)
    ensures |b| == count && forall j :: 0 <= j < count ==> b[j] == base + j
  {
    seq(count, j requires 0 <= j < count => base + j)
  }

  /** Splitting a block of consecutive ids once gives the block of their children, again consecutive. */
  lemma RoundBlock(base: nat, count: nat)
    ensures Round(Block(base, count)) == Block(2 * base, 2 * count)
  {
    var r := Round(Block(base, count));
    forall i | 0 <= i < 2 * count
      ensures r[i] == 2 * base + i
    {
      var j := i / 2;
      RoundAt(Block(base, count), j);
      if i % 2 == 0 {
        assert i == 2 * j;
      } else {
        assert i == 2 * j + 1;
      }
    }
  }

  lemma Pow2Scaled(x: nat, n: nat)
    requires n > 0
    ensures (2 * x) * Pow2(n - 1) == x * Pow2(n)
  {
    var p := Pow2(n - 1);
    assert Pow2(n) == 2 * p;
    assert (2 * x) * p == x * (2 * p);
  }

  lemma {:induction false} RoundsBlock(base: nat, count: nat, n: nat)
    ensures Rounds(Block(base, count), n) == Block(base * Pow2(n), count * Pow2(n))
    decreases n
  {
    if n > 0 {
      RoundBlock(base, count);
      RoundsBlock(2 * base, 2 * count, n - 1);
      Pow2Scaled(base, n);
      Pow2Scaled(count, n);
    }
  }

  /** Rounds compose: a rounds after b rounds are a + b rounds. */
  lemma {:induction false} RoundsAdd(ids: seq<nat>, a: nat, b: nat)
    ensures Rounds(Rounds(ids, a), b) == Rounds(ids, a + b)
    decreases a
  {
    if a > 0 {
      RoundsAdd(Round(ids), a - 1, b);
    }
  }

  lemma MulSucc(a: nat, n: nat)
    ensures a * (n + 1) == a + a * n
  {
  }

  /** The split runs splits times |dims| rounds, whatever the dimensions are. */
  lemma {:induction false} SplitIsRounds(ids: seq<nat>, splits: nat, dims: seq<nat>)
    ensures Split(ids, splits, dims) == Rounds(ids, splits * |dims|)
    decreases |dims|
  {
    if |dims| > 0 {
      SplitIsRounds(Rounds(ids, splits), splits, dims[1..]);
      var rest := splits * (|dims| - 1);
      RoundsAdd(ids, splits, rest);
      MulSucc(splits, |dims| - 1);
    }
  }

  /**
   * Splitting cell k T = splits * |dims| times leaves 2^T cells whose ids are
   * k 2^T, k 2^T + 1, ..., k 2^T + 2^T - 1, in ascending order.
   */
  lemma SplitIds(k: nat, splits: nat, dims: seq<nat>)
    ensures var t := splits * |dims|;
            var ids := Split([k], splits, dims);
            |ids| == Pow2(t) && forall j :: 0 <= j < Pow2(t) ==> ids[j] == k * Pow2(t) + j
  {
    SplitIsRounds([k], splits, dims);
    assert [k] == Block(k, 1);
    RoundsBlock(k, 1, splits * |dims|);
  }

  /** The two request lines a worker writes for one cell: the base budget, then the second budget, over the same extents. */
  function WorkerLines(calls: real, second: real, volume: seq<(real, real)>): (seq<real>, seq<real>)
  {
    (Format(calls, volume), Format(second, volume))
  }

  /** The second budget as written: calls times the convergence factor O; the calls factor F is never read. */
  function SecondBudgetAsWritten(calls: real, callsFactor: real, convergenceFactor: real): real
  {
    calls * convergenceFactor
  }

  /** With the defaults (calls 1e6, F = 2, O = 1.01) the check asks for 1.01e6 calls instead of 2e6, and F makes no difference. */
  lemma SecondBudgetIgnoresCallsFactor(calls: real, f1: real, f2: real, o: real)
    ensures SecondBudgetAsWritten(calls, f1, o) == SecondBudgetAsWritten(calls, f2, o)
    ensures SecondBudgetAsWritten(1000000.0, 2.0, 1.01) == 1010000.0 != SecondBudget(1000000.0, 2.0, 1.01)
  {
  }

  /** The second budget: F times as many calls, as the option's description promises. */
  function SecondBudget(calls: real, callsFactor: real, convergenceFactor: real): (r: real)
  {
    callsFactor * calls
  }

  /** The corrected second budget scales with F and does not depend on O. */
  lemma SecondBudgetScales(calls: real, f: real, o1: real, o2: real)
    ensures SecondBudget(calls, f, o1) == SecondBudget(calls, f, o2)
    ensures calls != 0.0 ==> SecondBudget(calls, f, o1) / calls == f
  {
  }

  /**
   * Both lines a worker writes read back as requests for the cell's box: the
   * base budget, then the second budget as written, calls times O.
   */
  lemma WorkerLinesParse(calls: real, f: real, o: real, volume: seq<(real, real)>)
    requires |volume| > 0
    ensures var lines := WorkerLines(calls, SecondBudgetAsWritten(calls, f, o), volume);
            && ParseLine(lines.0) == Request(calls, Mins(volume), Maxs(volume))
            && ParseLine(lines.1) == Request(calls * o, Mins(volume), Maxs(volume))
  {
    ParseFormat(calls, volume);
    ParseFormat(SecondBudgetAsWritten(calls, f, o), volume);
  }

  /** With the corrected second budget, the second line asks for F times the calls. */
  lemma WorkerLinesParseCorrected(calls: real, f: real, o: real, volume: seq<(real, real)>)
    requires |volume| > 0
    ensures var lines := WorkerLines(calls, SecondBudget(calls, f, o), volume);
            && ParseLine(lines.0) == Request(calls, Mins(volume), Maxs(volume))
            && ParseLine(lines.1) == Request(f * calls, Mins(volume), Maxs(volume))
  {
    ParseFormat(calls, volume);
    ParseFormat(SecondBudget(calls, f, o), volume);
  }

  /** |v| and |w| are within a factor o of each other, and both are non-zero. */
  predicate WithinFactor(v: real, w: real, o: real)
  {
    Max(Abs(v), Abs(w)) < o * Min(Abs(v), Abs(w))
  }

  /** The ratio of the larger to the smaller magnitude as written: 0.0 when the division by the smaller raises. */
  function RatioAsWritten(v: real, w: real): real
  {
    if Min(Abs(v), Abs(w)) == 0.0 then 0.0 else Max(Abs(v), Abs(w)) / Min(Abs(v), Abs(w))
  }

  /** The convergence test as written: ratio below O, difference below D, or the second value below M in magnitude. */
  predicate ConvergedAsWritten(v: real, w: real, o: real, d: real, m: real)
  {
    RatioAsWritten(v, w) < o || Abs(v - w) < d || Abs(w) < m
  }

  /** A ratio of magnitudes below o, with a positive denominator, is exactly being within the factor o. */
  lemma RatioBelow(big: real, small: real, o: real)
    requires 0.0 <= small <= big
    ensures (small > 0.0 && big / small < o) <==> big < o * small
  {
    if small > 0.0 {
      assert big == (big / small) * small;
      if big / small < o {
        assert (big / small) * small < o * small;
      } else {
        assert (big / small) * small >= o * small;
      }
    } else {
      assert o * small == 0.0;
    }
  }

  /** As written a zero among the two values always converges when O > 0, however far apart they are. */
  lemma ConvergedAsWrittenMeans(v: real, w: real, o: real, d: real, m: real)
    ensures ConvergedAsWritten(v, w, o, d, m)
            <==> WithinFactor(v, w, o) || Abs(v - w) < d || Abs(w) < m || (o > 0.0 && (v == 0.0 || w == 0.0))
  {
    RatioBelow(Max(Abs(v), Abs(w)), Min(Abs(v), Abs(w)), o);
  }

  /** The first run gave 0, the second 5: they are not within any factor, yet the test passes. */
  lemma ZeroRatioConverges()
    ensures ConvergedAsWritten(0.0, 5.0, 1.01, 0.001, 0.001)
    ensures !Converged(0.0, 5.0, 1.01, 0.001, 0.001)
  {
  }

  /** The convergence test with a failed division read as "not within the factor". */
  predicate Converged(v: real, w: real, o: real, d: real, m: real)
  {
    (Min(Abs(v), Abs(w)) > 0.0 && Max(Abs(v), Abs(w)) / Min(Abs(v), Abs(w)) < o) || Abs(v - w) < d || Abs(w) < m
  }

  /** A cell converges exactly when the two values are within the factor O, or within D, or the second is below M. */
  lemma ConvergedMeans(v: real, w: real, o: real, d: real, m: real)
    ensures Converged(v, w, o, d, m) <==> WithinFactor(v, w, o) || Abs(v - w) < d || Abs(w) < m
  {
    RatioBelow(Max(Abs(v), Abs(w)), Min(Abs(v), Abs(w)), o);
  }

  /** A work item as the master sends it and the worker returns it. */
  datatype WorkItem = WorkItem(volume: seq<(real, real)>, cellId: Option<nat>, converged: Option<bool>,
                               value: Option<real>, error: Option<real>, splitDim: Option<int>)

  /**
   * The worker's update after the replies (v, e, s) and (v2, e2, s2): a
   * converged item keeps the second value and error (and the first split
   * dimension); otherwise value and error are cleared and the second split
   * dimension is returned.
   */
  function Settle(item: WorkItem, v: real, e: real, s: int, v2: real, e2: real, s2: int, converged: bool): (r: WorkItem)
    ensures r.volume == item.volume && r.cellId == item.cellId
    ensures converged ==> r.converged == Some(true) && r.value == Some(v2) && r.error == Some(e2) && r.splitDim == Some(s)
    ensures !converged ==> r.converged == item.converged && r.value.None? && r.error.None? && r.splitDim == Some(s2)
  {
    var first := item.(value := Some(v), error := Some(e), splitDim := Some(s));
    var second := first.(value := Some(v2), error := Some(e2));
    if converged then second.(converged := Some(true))
    else second.(value := None, error := None, splitDim := Some(s2))
  }

  /** The worker's handling of one cell, with the convergence test applied to the two replies. */
  function Work(item: WorkItem, v: real, e: real, s: int, v2: real, e2: real, s2: int,
                o: real, d: real, m: real): WorkItem
  {
    Settle(item, v, e, s, v2, e2, s2, Converged(v, v2, o, d, m))
  }

  /**
   * The master rejects a converged item without a value; the worker never
   * returns one, and a value comes back exactly when the item converged.
   */
  lemma WorkNeverConvergesEmpty(item: WorkItem, v: real, e: real, s: int, v2: real, e2: real, s2: int,
                                o: real, d: real, m: real)
    requires item.converged != Some(true)
    ensures var r := Work(item, v, e, s, v2, e2, s2, o, d, m);
            && (r.converged == Some(true) <==> WithinFactor(v, v2, o) || Abs(v - v2) < d || Abs(v2) < m)
            && (r.converged == Some(true) <==> r.value.Some?)
            && (r.value.Some? ==> r.value.value == v2 && r.error == Some(e2))
  {
    ConvergedMeans(v, v2, o, d, m);
  }
}

=== FILE: box.dfy ===
/**
 * Integration boxes: the argument checks both GSL estimators perform,
 * the volume product, uniform points drawn inside a box, and bisection
 * of a box into two children.
 */
module Box {
  import opened Numeric

  /** The checks of the estimators: xl < xu in every dimension and no extent beyond DBL_MAX. */
  predicate Valid(xl: seq<real>, xu: seq<real>)
  {
    |xl| == |xu| && forall i :: 0 <= i < |xl| ==> xl[i] < xu[i] && xu[i] - xl[i] <= DblMax
  }

  /** The product of the extents, multiplied in from dimension 0 upwards. */
  function Volume(xl: seq<real>, xu: seq<real>): real
    requires |xl| == |xu|
  {
    if |xl| == 0 then 1.0
    else Volume(xl[..|xl| - 1], xu[..|xu| - 1]) * (xu[|xu| - 1] - xl[|xl| - 1])
  }

  lemma ProductPositive(a: real, b: real)
    requires a > 0.0 && b > 0.0
    ensures a * b > 0.0
  {
  }

  /** A valid box has positive volume. */
  lemma {:induction false} VolumePositive(xl: seq<real>, xu: seq<real>)
    requires Valid(xl, xu)
    ensures Volume(xl, xu) > 0.0
  {
    if |xl| > 0 {
      var n := |xl| - 1;
      assert Valid(xl[..n], xu[..n]);
      VolumePositive(xl[..n], xu[..n]);
      ProductPositive(Volume(xl[..n], xu[..n]), xu[n] - xl[n]);
    }
  }

  lemma SplitExtent(v: real, lo: real, m: real, hi: real)
    ensures v * (m - lo) + v * (hi - m) == v * (hi - lo)
  {
  }

  lemma SplitFactor(v1: real, v2: real, v: real, e: real)
    requires v1 + v2 == v
    ensures v1 * e + v2 * e == v * e
  {
  }

  /** Cutting dimension i at m splits the volume between the two children exactly. */
  lemma {:induction false} VolumeSplit(xl: seq<real>, xu: seq<real>, i: nat, m: real)
    requires |xl| == |xu| && i < |xl|
    ensures Volume(xl, xu[i := m]) + Volume(xl[i := m], xu) == Volume(xl, xu)
  {
    var n := |xl| - 1;
    var l, r := xu[i := m], xl[i := m];
    if i == n {
      assert l[..n] == xu[..n] && r[..n] == xl[..n];
      SplitExtent(Volume(xl[..n], xu[..n]), xl[n], m, xu[n]);
    } else {
      assert l[..n] == xu[..n][i := m] && r[..n] == xl[..n][i := m];
      VolumeSplit(xl[..n], xu[..n], i, m);
      SplitFactor(Volume(xl[..n], l[..n]), Volume(r[..n], xu[..n]), Volume(xl[..n], xu[..n]), xu[n] - xl[n]);
    }
  }

  /**
   * One bound vector of a child box: the parent's bounds with dimension i set
   * to the cut m. The lower child cuts xu, the upper child cuts xl.
   */
  function Cut(bounds: seq<real>, i: nat, m: real): (r: seq<real>)
    requires i < |bounds|
    ensures |r| == |bounds| && r[i] == m
    ensures forall k :: 0 <= k < |bounds| && k != i ==> r[k] == bounds[k]
  {
    bounds[i := m]
  }

  /** Cutting a valid box strictly inside dimension i gives two valid boxes. */
  lemma ChildrenValid(xl: seq<real>, xu: seq<real>, i: nat, m: real)
    requires Valid(xl, xu) && i < |xl| && xl[i] < m < xu[i]
    ensures Valid(xl, Cut(xu, i, m))
    ensures Valid(Cut(xl, i, m), xu)
  {
  }

  /** The product z * e, named so that its two bounds below are proved once and used by name. */
  function Scale(z: real, e: real): real
  {
    z * e
  }

  lemma ScalePositive(z: real, e: real)
    requires 0.0 < z && e > 0.0
    ensures Scale(z, e) > 0.0
  {
  }

  lemma ScaleBelow(z: real, e: real)
    requires z < 1.0 && e > 0.0
    ensures Scale(z, e) < e
  {
    assert Scale(z, e) == z * e;
    assert z * e < e;
  }

  /** One coordinate drawn from the unit value z over an extent starting at lo: lo + z * extent. */
  function Coord(lo: real, extent: real, z: real): real
  {
    lo + Scale(z, extent)
  }

  /** A draw strictly inside (0,1) gives a coordinate strictly inside (lo, lo + extent). */
  lemma CoordInside(lo: real, extent: real, z: real)
    requires 0.0 < z < 1.0 && extent > 0.0
    ensures lo < Coord(lo, extent, z) < lo + extent
  {
    ScalePositive(z, extent);
    ScaleBelow(z, extent);
  }

  /** A point of the box whose coordinates use the draws u(at), ..., u(at + dim - 1). */
  function Point(xl: seq<real>, xu: seq<real>, u: nat -> real, at: nat): (p: seq<real>)
    requires |xl| == |xu|
    ensures |p| == |xl|
  {
    seq(|xl|, i requires 0 <= i < |xl| => Coord(xl[i], xu[i] - xl[i], u(at + i)))
  }

  /** A point drawn from a unit stream lies strictly inside a valid box. */
  lemma PointInside(xl: seq<real>, xu: seq<real>, u: nat -> real, at: nat)
    requires Valid(xl, xu) && UnitStream(u)
    ensures forall i :: 0 <= i < |xl| ==> xl[i] < Point(xl, xu, u, at)[i] < xu[i]
  {
    forall i | 0 <= i < |xl|
      ensures xl[i] < Point(xl, xu, u, at)[i] < xu[i]
    {
      CoordInside(xl[i], xu[i] - xl[i], u(at + i));
    }
  }

  /**
   * The stream draws used by `samples` points of `dim` coordinates each,
   * counted one point at a time (so that cursor arithmetic stays linear).
   */
  function Draws(samples: nat, dim: nat): nat
  {
    if samples == 0 then 0 else Draws(samples - 1, dim) + dim
  }

  lemma {:induction false} DrawsIsProduct(samples: nat, dim: nat)
    ensures Draws(samples, dim) == samples * dim
  {
    if samples > 0 {
      DrawsIsProduct(samples - 1, dim);
    }
  }

  /** Every point has one coordinate per dimension of the box. */
  predicate Shaped(pts: seq<seq<real>>, dim: nat)
  {
    forall n :: 0 <= n < |pts| ==> |pts[n]| == dim
  }

  /** The sample points of `calls` draws of `dim` coordinates each, starting at `cursor`. */
  function Points(xl: seq<real>, xu: seq<real>, u: nat -> real, cursor: nat, calls: nat): (pts: seq<seq<real>>)
    requires |xl| == |xu|
    ensures |pts| == calls
    ensures forall n :: 0 <= n < calls ==> pts[n] == Point(xl, xu, u, cursor + Draws(n, |xl|))
  {
    seq(calls, n requires 0 <= n < calls => Point(xl, xu, u, cursor + Draws(n, |xl|)))
  }

  /** The integrand evaluated at each point, in sampling order. */
  function Values(f: seq<real> -> real, pts: seq<seq<real>>): (vals: seq<real>)
    ensures |vals| == |pts|
    ensures forall n :: 0 <= n < |pts| ==> vals[n] == f(pts[n])
  {
    seq(|pts|, n requires 0 <= n < |pts| => f(pts[n]))
  }

  /** The values of the integrand at `calls` uniform points of the box drawn from the stream at `cursor` on. */
  function Sampled(f: seq<real> -> real, xl: seq<real>, xu: seq<real>, calls: nat, u: nat -> real, cursor: nat): (vals: seq<real>)
    requires |xl| == |xu|
    ensures |vals| == calls
  {
    Values(f, Points(xl, xu, u, cursor, calls))
  }
}

=== FILE: drivers.dfy ===
/**
 * The request loops of the command-line integrators: read a line, validate
 * it, keep the scratch state of the integration routine sized to the box,
 * integrate, and print the result with the suggested split dimension.
 */
module Drivers {
  import opened Numeric
  import opened Wrappers
  import opened Requests
  import Turbulence
  import MiserPilot
  import Miser

  /** How the process ends: EXIT_SUCCESS, EXIT_FAILURE, abort(), or undefined behaviour (a read or a conversion out of range). */
  datatype Exit = Done | Failed | Aborted | Undefined

  /** One event in the life of the scratch state. */
  datatype Event = Alloc(size: nat) | Free(size: nat)

  /** What a log of events leaves: nothing, one live state of a size, or a free that matched no allocation. */
  datatype Heap = Empty | Live(size: nat) | Corrupt

  function Apply(h: Heap, e: Event): Heap
  {
    match (h, e)
    case (Empty, Alloc(n)) => Live(n)
    case (Live(m), Free(n)) => if m == n then Empty else Corrupt
    case _ => Corrupt
  }

  /** The heap after the events of log, in order. */
  function Replay(log: seq<Event>): Heap
  {
    if |log| == 0 then Empty else Apply(Replay(log[..|log| - 1]), log[|log| - 1])
  }

  lemma ReplayAppend(log: seq<Event>, e: Event)
    ensures Replay(log + [e]) == Apply(Replay(log), e)
  {
    assert (log + [e])[..|log|] == log;
  }

  /** first_integration, dimensions, and the events of the scratch state so far. */
  datatype Scratch = Scratch(first: bool, dims: nat, log: seq<Event>)

  const Start: Scratch := Scratch(true, 0, [])

  /** Before the first request nothing is allocated; after it exactly one state, of the current dimension, is live. */
  predicate Tracks(s: Scratch)
  {
    if s.first then Replay(s.log) == Empty else Replay(s.log) == Live(s.dims)
  }

  /**
   * Readies the scratch state for a box of n dimensions: allocated on the
   * first accepted line, freed and reallocated when the dimension changes,
   * kept as is otherwise.
   */
  function Prepare(s: Scratch, n: nat): (r: Scratch)
    ensures !r.first && r.dims == n
    ensures Tracks(s) ==> Tracks(r)
    ensures !s.first && s.dims == n ==> r.log == s.log
    ensures s.first ==> r.log == s.log + [Alloc(n)]
    ensures !s.first && s.dims != n ==> r.log == s.log + [Free(s.dims), Alloc(n)]
  {
    if s.first then
      ReplayAppend(s.log, Alloc(n));
      Scratch(false, n, s.log + [Alloc(n)])
    else if s.dims != n then
      ReplayAppend(s.log, Free(s.dims));
      ReplayAppend(s.log + [Free(s.dims)], Alloc(n));
      assert s.log + [Free(s.dims), Alloc(n)] == s.log + [Free(s.dims)] + [Alloc(n)];
      Scratch(false, n, s.log + [Free(s.dims), Alloc(n)])
    else s
  }

  /** After the loop the state is freed if one was ever allocated, so nothing stays live. */
  function Release(s: Scratch): (r: Scratch)
    ensures Tracks(s) ==> Replay(r.log) == Empty
    ensures |r.log| <= |s.log| + 1
  {
    if s.first then s
    else
      ReplayAppend(s.log, Free(s.dims));
      s.(log := s.log + [Free(s.dims)])
  }

  /** A zeroed split tally of n dimensions. */
  function Zeros(n: nat): (t: seq<int>)
    ensures |t| == n && forall i :: 0 <= i < n ==> t[i] == 0
  {
    seq(n, _ => 0)
  }

  /** i holds the largest entry of t, and every earlier entry is strictly smaller. */
  predicate IsFirstLargest(t: seq<int>, i: nat)
  {
    i < |t| && (forall k :: 0 <= k < |t| ==> t[k] <= t[i]) && (forall k :: 0 <= k < i ==> t[k] < t[i])
  }

  /** std::max_element from i on, with best the first largest entry before i. */
  function MaxFrom(t: seq<int>, i: nat, best: nat): nat
    requires best < i <= |t|
    decreases |t| - i
  {
    if i == |t| then best
    else if t[best] < t[i] then MaxFrom(t, i + 1, i)
    else MaxFrom(t, i + 1, best)
  }

  /** The position std::max_element returns: the first largest entry, or the end of an empty tally. */
  function MaxElement(t: seq<int>): nat
  {
    if |t| == 0 then 0 else MaxFrom(t, 1, 0)
  }

  lemma {:induction false} MaxFromLeads(t: seq<int>, i: nat, best: nat)
    requires best < i <= |t|
    requires forall k :: 0 <= k < i ==> t[k] <= t[best]
    requires forall k :: 0 <= k < best ==> t[k] < t[best]
    ensures IsFirstLargest(t, MaxFrom(t, i, best))
    decreases |t| - i
  {
    if i < |t| {
      if t[best] < t[i] {
        MaxFromLeads(t, i + 1, i);
      } else {
        MaxFromLeads(t, i + 1, best);
      }
    }
  }

  /** The printed split dimension is the first largest entry of a non-empty tally. */
  lemma MaxElementIsFirstLargest(t: seq<int>)
    requires |t| > 0
    ensures IsFirstLargest(t, MaxElement(t))
  {
    MaxFromLeads(t, 1, 0);
  }

  /** Conversely, whichever index is the first largest entry is the one std::max_element returns. */
  lemma FirstLargestIsMaxElement(t: seq<int>, i: nat)
    requires IsFirstLargest(t, i)
    ensures MaxElement(t) == i
  {
    MaxElementIsFirstLargest(t);
    var m := MaxElement(t);
    assert t[i] <= t[m] && t[m] <= t[i];
  }

  /** What an integration routine returns on success: result, error, split tally, and the stream cursor after it. */
  datatype Estimate = Estimate(result: real, error: real, tally: seq<int>, cursor: nat)

  /**
   * An integration routine called as the drivers call it: the dimension of
   * its scratch state, the box, the budget, a split tally and the stream
   * cursor; a non-zero status on failure.
   */
  type Estimator = (nat, seq<real>, seq<real>, nat, seq<int>, nat) -> Result<Estimate, int>

  /** The routine hands back a tally as long as the one it was given. */
  ghost predicate KeepsTally(est: Estimator)
  {
    forall s, xl, xu, c, t, k :: est(s, xl, xu, c, t, k).Success? ==> |est(s, xl, xu, c, t, k).value.tally| == |t|
  }

  /** GSL's non-zero status codes of the MISER failures: GSL_EINVAL 4, GSL_EFAILED 5, GSL_ESANITY 7. */
  function GslCode(s: MiserPilot.Status): (c: int)
    ensures c > 0
  {
    match s
    case EInval => 4
    case EFailed => 5
    case ESanity => 7
  }

  /**
   * gsl_monte_miser_integrate2 as the drivers call it. `root` stands for sqrt,
   * which is not modelled, and turns the squared error into the error. The
   * drivers always pass bounds of equal, non-zero length and a tally of that
   * length; other inputs are refused with GSL_EINVAL.
   */
  function MiserEstimator(p: MiserPilot.Params, env: MiserPilot.Env, root: real -> real): Estimator
    requires MiserPilot.WellConfigured(p) && MiserPilot.RngOk(env) && MiserPilot.PowOk(env.pw)
  {
    (s: nat, xl: seq<real>, xu: seq<real>, calls: nat, tally: seq<int>, cursor: nat) =>
      if |xl| == |xu| > 0 && |tally| == |xl| then
        match Miser.Integrate(p, env, xl, xu, s, calls, tally, cursor)
        case Failure(e) => Failure(GslCode(e))
        case Success(o) => Success(Estimate(o.result, root(o.errSq), o.tally, o.cursor))
      else Failure(4)
  }

  /**
   * The MISER routine hands back a tally as long as the one it was given, so
   * every split dimension a Burgers driver prints with it is a grid point.
   */
  lemma MiserKeepsTally(p: MiserPilot.Params, env: MiserPilot.Env, root: real -> real, cfg: Config, d: Driver, lines: seq<seq<real>>)
    requires MiserPilot.WellConfigured(p) && MiserPilot.RngOk(env) && MiserPilot.PowOk(env.pw)
    requires Within(d.out, cfg.nx * cfg.nt)
    ensures KeepsTally(MiserEstimator(p, env, root))
    ensures Within(Run(cfg, MiserEstimator(p, env, root), d, lines).1.out, cfg.nx * cfg.nt)
  {
    RunReportsDimensions(cfg, MiserEstimator(p, env, root), d, lines, cfg.nx * cfg.nt);
  }

  /** The size_t budget of a request: calls rounded half away from zero, undefined outside the range of size_t. */
  function RoundedBudget(calls: real): (r: Option<nat>)
    ensures r.Some? <==> 0 <= RoundHalfAway(calls) < SizeModulus
    ensures r.Some? ==> r.value == RoundHalfAway(calls)
  {
    var n := RoundHalfAway(calls);
    if 0 <= n < SizeModulus then Some(n) else None
  }

  /** Grid sizes, correlation indices and whether min < max is checked (the correlation integrand's driver does, the single-time one does not). */
  datatype Config = Config(nx: nat, nt: nat, checksOrder: bool)

  /** One printed line: result, error, and the index of the largest split count. */
  datatype Report = Report(result: real, error: real, splitDim: nat)

  /** The loop state: the scratch state, the random stream cursor, and the lines printed so far. */
  datatype Driver = Driver(scratch: Scratch, cursor: nat, out: seq<Report>)

  datatype Next = Continue(d: Driver) | Halt(exit: Exit, d: Driver)

  /** Whether a line's request is refused before integration, and how the process ends then. */
  function Refusal(cfg: Config, l: Line): (r: Option<Exit>)
    ensures r == Some(Done) <==> l == Stop
    ensures l.Request? ==> (r.Some? <==> (cfg.checksOrder && !Ordered(l.mins, l.maxs)) || |l.mins| != cfg.nx * cfg.nt)
    ensures r.Some? ==> r.value == Done || r.value == Failed
    ensures l == Unpaired ==> r == Some(Failed)
  {
    match l
    case Stop => Some(Done)
    case Unpaired => Some(Failed)
    case Request(_, mins, maxs) =>
      if cfg.checksOrder && !Ordered(mins, maxs) then Some(Failed)
      else if |mins| != cfg.nx * cfg.nt then Some(Failed)
      else None
  }

  /**
   * One line of a Burgers driver: parse, validate, ready the scratch state,
   * check the grid size, integrate with a fresh zeroed tally, print. A failing
   * integration aborts: the GSL routines report their failures through
   * GSL_ERROR, whose default handler calls abort(), so the driver's own
   * "Integration failed." exit is not reached from them.
   */
  function Step(cfg: Config, est: Estimator, d: Driver, ts: seq<real>): (r: Next)
    ensures Tracks(d.scratch) ==> Tracks(r.d.scratch)
    ensures r.Halt? && r.exit == Done <==> ParseLine(ts) == Stop
    ensures r.Continue? ==> ParseLine(ts).Request? && Refusal(cfg, ParseLine(ts)).None?
    ensures r.Continue? ==> !r.d.scratch.first && r.d.scratch.dims == |ParseLine(ts).mins| == cfg.nx * cfg.nt
    ensures r.Continue? ==> |r.d.out| == |d.out| + 1 && r.d.out[..|d.out|] == d.out
    ensures r.Halt? && r.exit == Failed <==> Refusal(cfg, ParseLine(ts)) == Some(Failed)
    ensures r.Halt? && r.exit == Aborted ==>
              && ParseLine(ts).Request? && Refusal(cfg, ParseLine(ts)).None?
              && RoundedBudget(ParseLine(ts).calls).Some?
    ensures Refusal(cfg, ParseLine(ts)) == Some(Failed) ==> r == Halt(Failed, r.d)
    ensures r.Halt? ==> r.d.out == d.out
  {
    match ParseLine(ts)
    case Stop => Halt(Done, d)
    case Unpaired => Halt(Failed, d)
    case Request(calls, mins, maxs) =>
      if cfg.checksOrder && !Ordered(mins, maxs) then Halt(Failed, d)
      else
        var s := Prepare(d.scratch, |mins|);
        var d1 := d.(scratch := s);
        if |mins| != cfg.nx * cfg.nt then Halt(Failed, d1)
        else
          match RoundedBudget(calls)
          case None => Halt(Undefined, d1)
          case Some(n) =>
            match est(s.dims, mins, maxs, n, Zeros(|mins|), d.cursor)
            case Failure(_) => Halt(Aborted, d1)
            case Success(e) => Continue(d1.(cursor := e.cursor, out := d.out + [Report(e.result, e.error, MaxElement(e.tally))]))
  }

  /** The printed split dimension of an accepted line is the first largest split count, below the number of dimensions. */
  lemma StepReportsFirstLargest(cfg: Config, est: Estimator, d: Driver, ts: seq<real>)
    requires KeepsTally(est) && Step(cfg, est, d, ts).Continue?
    ensures var l := ParseLine(ts);
            var e := est(|l.mins|, l.mins, l.maxs, RoundHalfAway(l.calls), Zeros(|l.mins|), d.cursor);
            && 0 <= RoundHalfAway(l.calls) < SizeModulus
            && e.Success?
            && Step(cfg, est, d, ts).d.cursor == e.value.cursor
            && Step(cfg, est, d, ts).d.out[|d.out|] == Report(e.value.result, e.value.error, MaxElement(e.value.tally))
            && IsFirstLargest(e.value.tally, MaxElement(e.value.tally))
            && MaxElement(e.value.tally) < cfg.nx * cfg.nt
    ensures Step(cfg, est, d, ts).d.out[|d.out|].splitDim < cfg.nx * cfg.nt
  {
    var l := ParseLine(ts);
    var e := est(|l.mins|, l.mins, l.maxs, RoundHalfAway(l.calls), Zeros(|l.mins|), d.cursor);
    assert Prepare(d.scratch, |l.mins|).dims == |l.mins|;
    assert e.Success?;
    MaxElementIsFirstLargest(e.value.tally);
  }

  /** Lines are handled until one halts the loop or the input ends; a normal end frees the scratch state. */
  function Run(cfg: Config, est: Estimator, d: Driver, lines: seq<seq<real>>): (r: (Exit, Driver))
    ensures Tracks(d.scratch) && r.0 == Done ==> Replay(r.1.scratch.log) == Empty
    ensures Tracks(d.scratch) && r.0 != Done ==> Tracks(r.1.scratch)
    ensures |d.out| <= |r.1.out| <= |d.out| + |lines| && r.1.out[..|d.out|] == d.out
    decreases |lines|
  {
    if |lines| == 0 then (Done, d.(scratch := Release(d.scratch)))
    else
      match Step(cfg, est, d, lines[0])
      case Continue(d1) =>
        var r := Run(cfg, est, d1, lines[1..]);
        assert r.1.out[..|d.out|] == r.1.out[..|d1.out|][..|d.out|];
        r
      case Halt(x, d1) => if x == Done then (Done, d1.(scratch := Release(d1.scratch))) else (x, d1)
  }

  /** A whole process: a grid without points in x or t fails at startup; otherwise the loop runs from an empty state. */
  function Process(cfg: Config, est: Estimator, cursor: nat, lines: seq<seq<real>>): (r: (Exit, Driver))
    ensures cfg.nx == 0 || cfg.nt == 0 ==> r.0 == Failed && r.1.out == []
    ensures r.0 == Done ==> Replay(r.1.scratch.log) == Empty
    ensures r.0 != Done ==> Tracks(r.1.scratch)
  {
    var d := Driver(Start, cursor, []);
    if cfg.nx == 0 || cfg.nt == 0 then (Failed, d) else Run(cfg, est, d, lines)
  }

  /** Every printed split dimension is below size. */
  predicate Within(out: seq<Report>, size: nat)
  {
    forall k :: 0 <= k < |out| ==> out[k].splitDim < size
  }

  /** Every printed split dimension of a run is a dimension of the grid. */
  lemma {:induction false} RunReportsDimensions(cfg: Config, est: Estimator, d: Driver, lines: seq<seq<real>>, size: nat)
    requires KeepsTally(est) && size == cfg.nx * cfg.nt && Within(d.out, size)
    ensures Within(Run(cfg, est, d, lines).1.out, size)
    decreases |lines|
  {
    if |lines| == 0 {
      assert Run(cfg, est, d, lines).1.out == d.out;
    } else {
      var n := Step(cfg, est, d, lines[0]);
      if n.Continue? {
        StepReportsFirstLargest(cfg, est, d, lines[0]);
        assert n.d.out == d.out + [n.d.out[|d.out|]];
        assert Run(cfg, est, d, lines) == Run(cfg, est, n.d, lines[1..]);
        RunReportsDimensions(cfg, est, n.d, lines[1..], size);
      } else {
        assert Run(cfg, est, d, lines).1.out == d.out;
      }
    }
  }

  /** One printed line of the turbulence integrator: average, the literal error -1, split dimension. */
  datatype TurbulenceReport = TurbulenceReport(average: Dbl, error: int, splitDim: nat)

  /** The size_t sample count of a request: calls truncated toward zero, undefined outside the range of size_t. */
  function TruncatedSamples(calls: real): (r: Option<nat>)
    ensures r.Some? <==> 0 <= Trunc(calls) < SizeModulus
    ensures r.Some? ==> r.value == Trunc(calls)
  {
    var n := Trunc(calls);
    if 0 <= n < SizeModulus then Some(n) else None
  }

  /** The reply of the turbulence integrator to one line: a printed line, or the end of the process. */
  function TurbulenceReply(corr1: int, corr2: int, g: seq<real> -> real, u: nat -> real, ts: seq<real>): (r: Result<TurbulenceReport, Exit>)
    ensures r == Failure(Done) <==> ParseLine(ts) == Stop
    ensures r == Failure(Failed) <==> ParseLine(ts) == Unpaired
    ensures r.Success? ==> r.value.error == -1
    ensures r.Success? ==> ParseLine(ts).Request? && r.value.splitDim < |ParseLine(ts).mins|
  {
    match ParseLine(ts)
    case Stop => Failure(Done)
    case Unpaired => Failure(Failed)
    case Request(calls, mins, maxs) =>
      match TruncatedSamples(calls)
      case None => Failure(Undefined)
      case Some(samples) =>
        match Turbulence.Integrate(mins, maxs, corr1, corr2, samples, g, u)
        case Failure(Abort) => Failure(Aborted)
        case Failure(OutOfRange) => Failure(Undefined)
        case Failure(BadDistribution) => Failure(Undefined)
        case Success(o) => Success(TurbulenceReport(o.average, -1, o.splitDim))
  }

  /**
   * A request with min > max in every dimension builds invalid uniform
   * distributions: undefined behaviour, with or without a correlation.
   */
  lemma UnorderedBoundsUndefined(corr1: int, corr2: int, g: seq<real> -> real, u: nat -> real)
    ensures Turbulence.Integrate([1.0, 1.0], [0.0, 0.0], corr1, corr2, 3, g, u) == Failure(Turbulence.BadDistribution)
    ensures TurbulenceReply(corr1, corr2, g, u, [3.0, 1.0, 0.0, 1.0, 0.0]) == Failure(Undefined)
  {
    var mins, maxs := [1.0, 1.0], [0.0, 0.0];
    assert mins[0] > maxs[0];
    assert !Turbulence.DistributionsOk(mins, maxs);
    assert ParseLine([3.0, 1.0, 0.0, 1.0, 0.0]) == Request(3.0, mins, maxs);
    assert TruncatedSamples(3.0) == Some(3);
  }

  /** The turbulence integrator's loop: a reply per line until one ends the process or the input ends. */
  function TurbulenceRun(corr1: int, corr2: int, g: seq<real> -> real, u: nat -> real, lines: seq<seq<real>>): (r: (Exit, seq<TurbulenceReport>))
    ensures |r.1| <= |lines|
    ensures |r.1| < |lines| ==> r.0 != Done || ParseLine(lines[|r.1|]) == Stop
    decreases |lines|
  {
    if |lines| == 0 then (Done, [])
    else
      match TurbulenceReply(corr1, corr2, g, u, lines[0])
      case Failure(x) => (x, [])
      case Success(rep) =>
        var rest := TurbulenceRun(corr1, corr2, g, u, lines[1..]);
        (rest.0, [rep] + rest.1)
  }

  /**
   * Every call reseeds the generator, so each printed line is the reply to its
   * own request alone: equal requests get equal replies, wherever they stand.
   */
  lemma {:induction false} TurbulenceRepliesIndependent(corr1: int, corr2: int, g: seq<real> -> real, u: nat -> real, lines: seq<seq<real>>)
    ensures var out := TurbulenceRun(corr1, corr2, g, u, lines).1;
            forall k :: 0 <= k < |out| ==> TurbulenceReply(corr1, corr2, g, u, lines[k]) == Success(out[k])
    decreases |lines|
  {
    if |lines| > 0 && TurbulenceReply(corr1, corr2, g, u, lines[0]).Success? {
      TurbulenceRepliesIndependent(corr1, corr2, g, u, lines[1..]);
      var out := TurbulenceRun(corr1, corr2, g, u, lines).1;
      forall k | 0 <= k < |out|
        ensures TurbulenceReply(corr1, corr2, g, u, lines[k]) == Success(out[k])
      {
        if k > 0 {
          assert lines[k] == lines[1..][k - 1];
        }
      }
    }
  }
}

=== FILE: grid.dfy ===
/**
 * The space-time grids of the two Burgers integrands: the flat index of grid
 * point (x, t) among nx * nt dimensions, the abort and correlation logic of
 * the integrands, and the bounds of every read they make.
 */
module Grid {
  import opened Numeric

  lemma MulLeft(a: nat, b: nat, c: nat)
    requires a <= b
    ensures a * c <= b * c
  {
  }

  /** Multiplication by the same number preserves strict order backwards. */
  lemma MulCancel(x: nat, y: nat, n: nat)
    requires x * n < y * n
    ensures x < y
  {
    if y <= x {
      MulLeft(y, x, n);
    }
  }

  /** Quotient and remainder are unique: a = q n + r with r < n fixes both. */
  lemma DivModUnique(a: nat, n: nat, q: nat, r: nat)
    requires n > 0 && r < n && a == q * n + r
    ensures a / n == q && a % n == r
  {
    var q0, r0 := a / n, a % n;
    assert q0 * n <= a < q0 * n + n;
    assert q0 * n + n == (q0 + 1) * n;
    assert q * n + n == (q + 1) * n;
    MulCancel(q0, q + 1, n);
    MulCancel(q, q0 + 1, n);
  }

  /** Adding n leaves the remainder modulo n unchanged. */
  lemma ModShift(a: nat, n: nat)
    requires n > 0
    ensures (a + n) % n == a % n
  {
    var q, r := a / n, a % n;
    assert a == q * n + r;
    assert (q + 1) * n == q * n + n;
    DivModUnique(a + n, n, q + 1, r);
  }

  /** A number below n is its own remainder. */
  lemma ModSmall(a: nat, n: nat)
    requires a < n
    ensures a % n == a
  {
    DivModUnique(a, n, 0, a);
  }

  /** Grid point (x, t) with x < nx occupies x + t nx, below nx * nt when t < nt. */
  lemma SlotBelow(x: nat, t: nat, nx: nat, nt: nat)
    requires x < nx && t < nt
    ensures x + t * nx < nx * nt
  {
    MulLeft(t + 1, nt, nx);
  }

  /** The index of the correlation integrand: periodic in both x and t. */
  function Index(x: nat, t: nat, nx: nat, nt: nat): nat
    requires nx > 0 && nt > 0
  {
    x % nx + (t % nt) * nx
  }

  lemma IndexBound(x: nat, t: nat, nx: nat, nt: nat)
    requires nx > 0 && nt > 0
    ensures Index(x, t, nx, nt) < nx * nt
  {
    SlotBelow(x % nx, t % nt, nx, nt);
  }

  /** Shifting x by nx or t by nt gives the same index. */
  lemma IndexPeriodic(x: nat, t: nat, nx: nat, nt: nat)
    requires nx > 0 && nt > 0
    ensures Index(x + nx, t, nx, nt) == Index(x, t, nx, nt)
    ensures Index(x, t + nt, nx, nt) == Index(x, t, nx, nt)
  {
    ModShift(x, nx);
    ModShift(t, nt);
  }

  /** On the grid itself the index is x + t nx, and every slot below nx * nt is the index of exactly the point (k % nx, k / nx). */
  lemma IndexInverse(k: nat, nx: nat, nt: nat)
    requires nx > 0 && nt > 0 && k < nx * nt
    ensures k / nx < nt && Index(k % nx, k / nx, nx, nt) == k
  {
    var x, t := k % nx, k / nx;
    assert k == t * nx + x;
    assert t * nx < nt * nx;
    MulCancel(t, nt, nx);
    ModSmall(t, nt);
    ModSmall(x, nx);
    assert Index(x, t, nx, nt) == x + t * nx;
  }

  /** The index of the single-time integrand: periodic in x, t taken as is. */
  function OpenIndex(x: nat, t: nat, nx: nat): nat
    requires nx > 0
  {
    x % nx + t * nx
  }

  lemma OpenIndexBound(x: nat, t: nat, nx: nat, nt: nat)
    requires nx > 0 && t < nt
    ensures OpenIndex(x, t, nx) < nx * nt
  {
    SlotBelow(x % nx, t, nx, nt);
  }

  /** Periodic in x; a shift of t by nt moves the index by nx * nt, out of the grid. */
  lemma OpenIndexShifts(x: nat, t: nat, nx: nat, nt: nat)
    requires nx > 0
    ensures OpenIndex(x + nx, t, nx) == OpenIndex(x, t, nx)
    ensures OpenIndex(x, t + nt, nx) == OpenIndex(x, t, nx) + nt * nx
  {
    ModShift(x, nx);
    assert (t + nt) * nx == t * nx + nt * nx;
  }

  /** What the integrand does before evaluating: abort, integrate without correlation, or correlate two grid values. */
  datatype Verdict = Abort | Uncorrelated | Correlated(at1: nat, at2: nat)

  /**
   * The checks of the correlation integrand: a correlation index at or above
   * dimensions aborts, so does nx * nt != dimensions; both indices
   * non-negative correlate the values at (corr, 0).
   */
  function PeriodicVerdict(corr1: int, corr2: int, dims: nat, nx: nat, nt: nat): (v: Verdict)
    requires nx > 0 && nt > 0
    ensures v == Abort <==> corr1 >= dims || corr2 >= dims || nx * nt != dims
    ensures v.Correlated? <==> v != Abort && corr1 >= 0 && corr2 >= 0
    ensures v.Correlated? ==> v.at1 < dims && v.at2 < dims
  {
    if corr1 >= dims || corr2 >= dims then Abort
    else if nx * nt != dims then Abort
    else if corr1 < 0 || corr2 < 0 then Uncorrelated
    else
      IndexBound(corr1, 0, nx, nt);
      IndexBound(corr2, 0, nx, nt);
      Correlated(Index(corr1, 0, nx, nt), Index(corr2, 0, nx, nt))
  }

  /** The reads of the transform factor and of the exponent at (x, t): the point, its successor in t, its two neighbours in x. */
  function PeriodicStencil(x: nat, t: nat, nx: nat, nt: nat): seq<nat>
    requires nx > 0 && nt > 0
  {
    [Index(x, t + 1, nx, nt), Index(x, t, nx, nt), Index(x + 1, t, nx, nt), Index(x + nx - 1, t, nx, nt)]
  }

  /** With nx * nt == dimensions every read of the correlation integrand's loops is in bounds, at t = nt - 1 too. */
  lemma PeriodicReadsInBounds(x: nat, t: nat, nx: nat, nt: nat, dims: nat)
    requires nx > 0 && nt > 0 && nx * nt == dims && x < nx && t < nt
    ensures forall k :: 0 <= k < 4 ==> PeriodicStencil(x, t, nx, nt)[k] < dims
  {
    IndexBound(x, t + 1, nx, nt);
    IndexBound(x, t, nx, nt);
    IndexBound(x + 1, t, nx, nt);
    IndexBound(x + nx - 1, t, nx, nt);
  }

  /** The left neighbour of x as written: the size_t difference x - 1 (2^64 - 1 at x = 0), reduced by index's % nx. */
  function LeftAsWritten(x: nat, nx: nat): nat
    requires nx > 0 && x < SizeModulus
  {
    SizeSub(x, 1) % nx
  }

  /** The periodic left neighbour (x + nx - 1) % nx, as the correlation integrand writes it. */
  function Left(x: nat, nx: nat): (l: nat)
    requires nx > 0
    ensures l < nx
  {
    (x + nx - 1) % nx
  }

  /** Left is the periodic predecessor: its successor is x again. */
  lemma LeftIsPredecessor(x: nat, nx: nat)
    requires x < nx
    ensures (Left(x, nx) + 1) % nx == x
    ensures x > 0 ==> Left(x, nx) == x - 1
    ensures x == 0 ==> Left(x, nx) == nx - 1
  {
    if x > 0 {
      ModShift(x - 1, nx);
      ModSmall(x - 1, nx);
      ModSmall(x, nx);
    } else {
      ModSmall(nx - 1, nx);
      DivModUnique(nx, nx, 1, 0);
    }
  }

  /** Away from the boundary the two agree. */
  lemma LeftAsWrittenInside(x: nat, nx: nat)
    requires 0 < x < nx <= SizeModulus
    ensures LeftAsWritten(x, nx) == Left(x, nx)
  {
    LeftIsPredecessor(x, nx);
    assert SizeSub(x, 1) == x - 1;
    ModSmall(x - 1, nx);
  }

  /** At x = 0 on three points the wrap-around lands on 0 itself, since 2^64 - 1 is a multiple of 3: the neighbour should be 2. */
  lemma LeftAsWrittenAtZero()
    ensures LeftAsWritten(0, 3) == 0 && Left(0, 3) == 2
  {
    assert SizeSub(0, 1) == SizeModulus - 1;
    assert (SizeModulus - 1) == 3 * 6148914691236517205;
  }

  /**
   * The reads of the single-time integrand's exponent at (x, t): t + 1, t, and
   * both neighbours in x, the left one being the corrected periodic Left. The
   * size_t neighbour as written is read by OpenReadsInBounds separately.
   */
  function OpenStencil(x: nat, t: nat, nx: nat): seq<nat>
    requires nx > 0
  {
    [OpenIndex(x, t + 1, nx), OpenIndex(x, t, nx), OpenIndex(x + 1, t, nx), OpenIndex(Left(x, nx), t, nx)]
  }

  /**
   * The checks of the single-time integrand: a correlation index at or above
   * dimensions aborts; both non-negative correlate the values at (corr, nt - 1).
   * nx * nt == dimensions is checked by the driver, not here.
   */
  function OpenVerdict(corr1: int, corr2: int, dims: nat, nx: nat, nt: nat): (v: Verdict)
    requires nx > 0 && nt > 0
    ensures v == Abort <==> corr1 >= dims || corr2 >= dims
    ensures v.Correlated? <==> v != Abort && corr1 >= 0 && corr2 >= 0
    ensures v.Correlated? && nx * nt == dims ==> v.at1 < dims && v.at2 < dims
  {
    if corr1 >= dims || corr2 >= dims then Abort
    else if corr1 < 0 || corr2 < 0 then Uncorrelated
    else
      OpenIndexBound(corr1, nt - 1, nx, nt);
      OpenIndexBound(corr2, nt - 1, nx, nt);
      Correlated(OpenIndex(corr1, nt - 1, nx), OpenIndex(corr2, nt - 1, nx))
  }

  /** The time loop runs t < nt - 1, so with nx * nt == dimensions every read of the exponent is in bounds. */
  lemma OpenReadsInBounds(x: nat, t: nat, nx: nat, nt: nat, dims: nat)
    requires nx > 0 && nt > 0 && nx * nt == dims && dims < SizeModulus && x < nx && t < nt - 1
    ensures forall k :: 0 <= k < 4 ==> OpenStencil(x, t, nx)[k] < dims
    ensures x < SizeModulus && OpenIndex(LeftAsWritten(x, nx), t, nx) < dims
  {
    OpenIndexBound(x, t + 1, nx, nt);
    OpenIndexBound(x, t, nx, nt);
    OpenIndexBound(x + 1, t, nx, nt);
    OpenIndexBound(Left(x, nx), t, nx, nt);
    assert nx <= dims by {
      MulLeft(1, nt, nx);
    }
    OpenIndexBound(LeftAsWritten(x, nx), t, nx, nt);
  }
}

=== FILE: halves.dfy ===
/**
 * The split diagnostic: every sample is classified, per dimension, into the
 * lower or the upper half of the box; the dimension whose two half averages
 * differ most is the suggested split dimension.
 */
module Halves {
  import opened Numeric
  import opened Wrappers

  /** A coordinate is in the lower half iff it is strictly nearer the lower bound; ties go up. */
  predicate Lower(x: real, lo: real, hi: real)
  {
    x - lo < hi - x
  }

  lemma LowerIsBelowMidpoint(x: real, lo: real, hi: real)
    ensures Lower(x, lo, hi) <==> x < (lo + hi) / 2.0
  {
  }

  /** Hit counts and value sums of the lower (0) and upper (1) half of one dimension. */
  datatype Pair = Pair(n0: nat, n1: nat, s0: real, s1: real)

  const NoHits: Pair := Pair(0, 0, 0.0, 0.0)

  /** Adds the value f of a sample whose coordinate is x to the half the coordinate lies in. */
  function Classify(p: Pair, x: real, lo: real, hi: real, f: real): (r: Pair)
    ensures r.n0 + r.n1 == p.n0 + p.n1 + 1
    ensures r.s0 + r.s1 == p.s0 + p.s1 + f
    ensures Lower(x, lo, hi) ==> r.n0 == p.n0 + 1 && r.n1 == p.n1 && r.s1 == p.s1
    ensures !Lower(x, lo, hi) ==> r.n1 == p.n1 + 1 && r.n0 == p.n0 && r.s0 == p.s0
  {
    if Lower(x, lo, hi) then p.(n0 := p.n0 + 1, s0 := p.s0 + f)
    else p.(n1 := p.n1 + 1, s1 := p.s1 + f)
  }

  /** Every sample point has a coordinate d. */
  predicate HasCoord(pts: seq<seq<real>>, d: nat)
  {
    forall n :: 0 <= n < |pts| ==> d < |pts[n]|
  }

  /**
   * The half buckets of dimension d after the samples `pts` with values `vals`:
   * each sample lands in exactly one half, so the counts and sums partition the samples.
   */
  function Buckets(pts: seq<seq<real>>, vals: seq<real>, d: nat, lo: real, hi: real): (r: Pair)
    requires |pts| == |vals| && HasCoord(pts, d)
    ensures r.n0 + r.n1 == |pts|
    ensures r.s0 + r.s1 == Sum(vals)
    ensures r.n0 == 0 ==> r.s0 == 0.0
    ensures r.n1 == 0 ==> r.s1 == 0.0
  {
    if |pts| == 0 then NoHits
    else
      var n := |pts| - 1;
      Classify(Buckets(pts[..n], vals[..n], d, lo, hi), pts[n][d], lo, hi, vals[n])
  }

  /** Buckets are built one sample at a time: appending a sample classifies it. */
  lemma BucketsAppend(pts: seq<seq<real>>, vals: seq<real>, d: nat, lo: real, hi: real, x: seq<real>, f: real)
    requires |pts| == |vals| && HasCoord(pts, d) && d < |x|
    ensures HasCoord(pts + [x], d)
    ensures Buckets(pts + [x], vals + [f], d, lo, hi) == Classify(Buckets(pts, vals, d, lo, hi), x[d], lo, hi, f)
  {
    assert (pts + [x])[..|pts|] == pts;
    assert (vals + [f])[..|vals|] == vals;
  }

  /** The average of a half: NaN (0/0) when the half has no hits. */
  function Avg(s: real, n: nat): (r: Dbl)
    ensures r.Num? <==> n > 0
    ensures r.Num? ==> r.v * (n as real) == s
  {
    if n == 0 then NaN else Num(s / (n as real))
  }

  /**
   * The distance between the two half averages; None stands for NaN, which
   * loses every comparison in the argmax scan.
   */
  function Gap(p: Pair): (r: Option<real>)
    ensures r.Some? <==> p.n0 > 0 && p.n1 > 0
    ensures r.Some? ==> r.value >= 0.0
    ensures r.Some? ==> r.value == Abs(p.s0 / (p.n0 as real) - p.s1 / (p.n1 as real))
  {
    match (Avg(p.s0, p.n0), Avg(p.s1, p.n1))
    case (Num(a), Num(b)) => Some(Abs(a - b))
    case _ => None
  }

  /** Every present score is non-negative. */
  predicate NonNegative(s: seq<Option<real>>)
  {
    forall k :: 0 <= k < |s| && s[k].Some? ==> s[k].value >= 0.0
  }

  /** No score among the first n is present. */
  predicate NoneBefore(s: seq<Option<real>>, n: nat)
  {
    forall k :: 0 <= k < n && k < |s| ==> s[k].None?
  }

  /** Among the first n scores, i holds a maximum and every earlier present score is strictly smaller. */
  predicate Leads(s: seq<Option<real>>, n: nat, i: nat)
  {
    i < n <= |s| && s[i].Some?
    && (forall k :: 0 <= k < n && s[k].Some? ==> s[k].value <= s[i].value)
    && (forall k :: 0 <= k < i && s[k].Some? ==> s[k].value < s[i].value)
  }

  /** i is the first index of a maximum of the present scores. */
  predicate IsFirstMax(s: seq<Option<real>>, i: nat)
  {
    Leads(s, |s|, i)
  }

  /**
   * The argmax scan of the source from index i on: the running maximum `best`
   * starts at -1, and only a strictly larger present score replaces it.
   */
  function FirstMaxFrom(s: seq<Option<real>>, i: nat, best: real, idx: nat): nat
    requires i <= |s|
    decreases |s| - i
  {
    if i == |s| then idx
    else if s[i].Some? && best < s[i].value then FirstMaxFrom(s, i + 1, s[i].value, i)
    else FirstMaxFrom(s, i + 1, best, idx)
  }

  /** The argmax scan from the start; index 0 when no score is present. */
  function FirstMax(s: seq<Option<real>>): nat
  {
    FirstMaxFrom(s, 0, -1.0, 0)
  }

  lemma {:induction false} FirstMaxFromLeads(s: seq<Option<real>>, i: nat, best: real, idx: nat)
    requires NonNegative(s) && i <= |s|
    requires (NoneBefore(s, i) && best == -1.0 && idx == 0) || (Leads(s, i, idx) && best == s[idx].value)
    ensures (NoneBefore(s, |s|) && FirstMaxFrom(s, i, best, idx) == 0) || IsFirstMax(s, FirstMaxFrom(s, i, best, idx))
    decreases |s| - i
  {
    if i < |s| {
      if s[i].Some? && best < s[i].value {
        assert Leads(s, i + 1, i);
        FirstMaxFromLeads(s, i + 1, s[i].value, i);
      } else {
        FirstMaxFromLeads(s, i + 1, best, idx);
      }
    }
  }

  /**
   * The scan returns the first index of the largest present score, and 0 when
   * none is present; either way an index of s when s is not empty.
   */
  lemma FirstMaxIsFirstMaximum(s: seq<Option<real>>)
    requires NonNegative(s)
    ensures (exists k :: 0 <= k < |s| && s[k].Some?) ==> IsFirstMax(s, FirstMax(s))
    ensures NoneBefore(s, |s|) ==> FirstMax(s) == 0
    ensures |s| > 0 ==> FirstMax(s) < |s|
  {
    FirstMaxFromLeads(s, 0, -1.0, 0);
  }

  /** The first maximum is unique, so the scan is fully determined by the scores. */
  lemma FirstMaxUnique(s: seq<Option<real>>, i: nat, j: nat)
    requires IsFirstMax(s, i) && IsFirstMax(s, j)
    ensures i == j
  {
  }

  /** The gap of every dimension, in dimension order. */
  function Gaps(pairs: seq<Pair>): (gaps: seq<Option<real>>)
    ensures |gaps| == |pairs| && NonNegative(gaps)
    ensures forall d :: 0 <= d < |pairs| ==> gaps[d] == Gap(pairs[d])
  {
    seq(|pairs|, d requires 0 <= d < |pairs| => Gap(pairs[d]))
  }

  /** The diagnostic of one request: the first dimension whose half averages differ most. */
  function SplitDim(pairs: seq<Pair>): (r: nat)
    ensures |pairs| > 0 ==> r < |pairs|
    ensures (forall d :: 0 <= d < |pairs| ==> pairs[d].n0 == 0 || pairs[d].n1 == 0) ==> r == 0
  {
    FirstMaxIsFirstMaximum(Gaps(pairs));
    FirstMax(Gaps(pairs))
  }

  /** When some dimension has hits on both sides, the split dimension is the first one with the largest gap. */
  lemma SplitDimIsLargestGap(pairs: seq<Pair>)
    requires exists d :: 0 <= d < |pairs| && pairs[d].n0 > 0 && pairs[d].n1 > 0
    ensures IsFirstMax(Gaps(pairs), SplitDim(pairs))
  {
    var w :| 0 <= w < |pairs| && pairs[w].n0 > 0 && pairs[w].n1 > 0;
    assert Gaps(pairs)[w].Some?;
    FirstMaxIsFirstMaximum(Gaps(pairs));
  }
}

=== FILE: miser.dfy ===
/**
 * gsl_monte_miser_integrate2: the argument checks, plain sampling of boxes
 * below min_calls_per_bisection, and the recursive bisection that tallies
 * the chosen dimensions and adds up the two halves' results and squared errors.
 */
module Miser {
  import opened Numeric
  import opened Wrappers
  import opened Moments
  import opened Box
  import opened MiserPilot

  /**
   * A successful run: the estimate, its squared error, the split tally, the
   * stream cursor after it, the number of integrand evaluations it spent and
   * the number of bisections it made.
   */
  datatype Outcome = Outcome(result: real, errSq: real, tally: seq<int>, cursor: nat, evals: nat, cuts: nat)

  /**
   * A box below min_calls_per_bisection: GSL_EFAILED below two calls,
   * otherwise the plain estimate of `calls` uniform points.
   */
  function Leaf(f: seq<real> -> real, xl: seq<real>, xu: seq<real>, calls: nat, u: nat -> real, cursor: nat, tally: seq<int>): (r: Result<Outcome, Status>)
    requires |xl| == |xu|
    ensures r.Failure? <==> calls < 2
    ensures r.Failure? ==> r.error == EFailed
    ensures r.Success? ==> r.value.tally == tally && r.value.evals == calls && r.value.cuts == 0 && r.value.cursor == cursor + Draws(calls, |xl|)
    ensures r.Success? ==> Estimate(Volume(xl, xu), Sampled(f, xl, xu, calls, u, cursor)) == (r.value.result, Finite(r.value.errSq))
  {
    if calls < 2 then Failure(EFailed)
    else
      var vals := Sampled(f, xl, xu, calls, u, cursor);
      var vol := Volume(xl, xu);
      EstimateError(vol, vals);
      var est := Estimate(vol, vals);
      Success(Outcome(est.0, est.1.sq, tally, cursor + Draws(calls, |xl|), calls, 0))
  }

  /** result is vol times the mean of vals. */
  predicate MeanEstimate(result: real, vol: real, vals: seq<real>)
  {
    result * (|vals| as real) == vol * Sum(vals)
  }

  /** An estimate read back: vol times the mean of the values, and the squared error of their squared deviations. */
  lemma EstimateRead(vol: real, vals: seq<real>, result: real, errSq: real)
    requires |vals| >= 2 && Estimate(vol, vals) == (result, Finite(errSq))
    ensures MeanEstimate(result, vol, vals)
    ensures errSq == ErrorSq(vol, SqDev(vals, Fold(vals).m), |vals| as real) >= 0.0
  {
    EstimateIsMean(vol, vals);
    EstimateError(vol, vals);
  }

  /** A leaf reports vol times the mean of its values, with the squared error of their squared deviations. */
  lemma LeafIsEstimate(f: seq<real> -> real, xl: seq<real>, xu: seq<real>, calls: nat, u: nat -> real, cursor: nat, tally: seq<int>)
    requires |xl| == |xu| && calls >= 2
    ensures var o := Leaf(f, xl, xu, calls, u, cursor, tally).value;
      var vals := Sampled(f, xl, xu, calls, u, cursor);
      && |vals| == calls
      && MeanEstimate(o.result, Volume(xl, xu), vals)
      && o.errSq == ErrorSq(Volume(xl, xu), SqDev(vals, Fold(vals).m), |vals| as real)
      && o.errSq >= 0.0
  {
    var o := Leaf(f, xl, xu, calls, u, cursor, tally).value;
    assert Estimate(Volume(xl, xu), Sampled(f, xl, xu, calls, u, cursor)) == (o.result, Finite(o.errSq));
    EstimateRead(Volume(xl, xu), Sampled(f, xl, xu, calls, u, cursor), o.result, o.errSq);
  }

  /** The checks that answer GSL_EINVAL: dimension mismatch, an empty or too large range, a negative alpha. */
  predicate Rejected(p: Params, xl: seq<real>, xu: seq<real>, stateDim: nat)
  {
    stateDim != |xl| || !Valid(xl, xu) || p.alpha < 0.0
  }

  /** Both halves' results, their squared errors added (the square root is not modelled). */
  function Combine(est: nat, l: Outcome, r: Outcome): Outcome
  {
    Outcome(l.result + r.result, l.errSq + r.errSq, r.tally, r.cursor, est + l.evals + r.evals, 1 + l.cuts + r.cuts)
  }

  /**
   * The recursive integrator on the box [xl, xu] with dim == |xl|, the split
   * tally `tally` and the stream at `cursor`: the left child (xu[i] lowered to
   * the cut) runs first, on the tally already bumped at i, then the right child.
   */
  function Integrate(p: Params, env: Env, xl: seq<real>, xu: seq<real>, stateDim: nat, calls: nat, tally: seq<int>, cursor: nat): (r: Result<Outcome, Status>)
    requires |xl| == |xu| > 0 && |tally| == |xl| && WellConfigured(p)
    requires RngOk(env) && PowOk(env.pw)
    ensures r.Success? ==> |r.value.tally| == |tally| && r.value.evals <= calls
    decreases calls
  {
    if Rejected(p, xl, xu, stateDim) then Failure(EInval)
    else if calls < p.minCallsPerBisection then Leaf(env.f, xl, xu, calls, env.u, cursor, tally)
    else
      var bisect := Bisect(p, env, xl, xu, calls, cursor);
      if bisect.Failure? then Failure(bisect.error)
      else
        var plan := bisect.value;
        var left := Integrate(p, env, xl, Cut(xu, plan.dim, plan.mid), stateDim, plan.callsL, Bump(tally, plan.dim), plan.cursor);
        if left.Failure? then left
        else
          var right := Integrate(p, env, Cut(xl, plan.dim, plan.mid), xu, stateDim, plan.callsR, left.value.tally, left.value.cursor);
          if right.Failure? then right
          else Success(Combine(plan.est, left.value, right.value))
  }

  /** GSL_EINVAL comes from the checks of the top call only: every child box passes them. */
  lemma {:induction false} IntegrateRejects(p: Params, env: Env, xl: seq<real>, xu: seq<real>, stateDim: nat, calls: nat, tally: seq<int>, cursor: nat)
    requires |xl| == |xu| > 0 && |tally| == |xl| && WellConfigured(p)
    requires RngOk(env) && PowOk(env.pw)
    ensures var r := Integrate(p, env, xl, xu, stateDim, calls, tally, cursor);
      r.Failure? && r.error == EInval <==> Rejected(p, xl, xu, stateDim)
    decreases calls
  {
    if !Rejected(p, xl, xu, stateDim) && calls >= p.minCallsPerBisection {
      var bisect := Bisect(p, env, xl, xu, calls, cursor);
      if bisect.Success? {
        var plan := bisect.value;
        ChildrenValid(xl, xu, plan.dim, plan.mid);
        var xuL, xlR := Cut(xu, plan.dim, plan.mid), Cut(xl, plan.dim, plan.mid);
        IntegrateRejects(p, env, xl, xuL, stateDim, plan.callsL, Bump(tally, plan.dim), plan.cursor);
        var left := Integrate(p, env, xl, xuL, stateDim, plan.callsL, Bump(tally, plan.dim), plan.cursor);
        if left.Success? {
          IntegrateRejects(p, env, xlR, xu, stateDim, plan.callsR, left.value.tally, left.value.cursor);
        }
      }
    }
  }

  /**
   * With min_calls at least 4 dim (the library default is 16 dim) and draws
   * in (0,1), a run fails exactly when the top checks reject it or it gets
   * fewer than two calls: no bisection runs short of pilot calls and no child
   * gets fewer than two.
   */
  lemma {:induction false} IntegrateFails(p: Params, env: Env, xl: seq<real>, xu: seq<real>, stateDim: nat, calls: nat, tally: seq<int>, cursor: nat)
    requires |xl| == |xu| > 0 && |tally| == |xl| && WellConfigured(p)
    requires RngOk(env) && PowOk(env.pw) && p.minCalls >= 4 * |xl|
    ensures Integrate(p, env, xl, xu, stateDim, calls, tally, cursor).Failure? <==> Rejected(p, xl, xu, stateDim) || calls < 2
    decreases calls
  {
    if !Rejected(p, xl, xu, stateDim) && calls >= p.minCallsPerBisection {
      BisectFailsOnlyWhenShort(p, env, xl, xu, calls, cursor);
      var plan := Bisect(p, env, xl, xu, calls, cursor).value;
      ChildrenValid(xl, xu, plan.dim, plan.mid);
      var xuL, xlR := Cut(xu, plan.dim, plan.mid), Cut(xl, plan.dim, plan.mid);
      IntegrateFails(p, env, xl, xuL, stateDim, plan.callsL, Bump(tally, plan.dim), plan.cursor);
      var left := Integrate(p, env, xl, xuL, stateDim, plan.callsL, Bump(tally, plan.dim), plan.cursor);
      IntegrateFails(p, env, xlR, xu, stateDim, plan.callsR, left.value.tally, left.value.cursor);
    }
  }

  /** result is vol times the constant c and the squared error is zero. */
  predicate ExactFor(o: Outcome, vol: real, c: real)
  {
    o.result == vol * c && o.errSq == 0.0
  }

  /** The values of a constant integrand are that constant. */
  lemma ConstantValues(f: seq<real> -> real, xl: seq<real>, xu: seq<real>, calls: nat, u: nat -> real, cursor: nat, c: real)
    requires |xl| == |xu|
    requires forall x :: f(x) == c
    ensures forall k :: 0 <= k < calls ==> Sampled(f, xl, xu, calls, u, cursor)[k] == c
  {
  }

  /** The estimate of constant values is exact. */
  lemma EstimateExact(vol: real, vals: seq<real>, c: real, o: Outcome)
    requires |vals| >= 2 && Estimate(vol, vals) == (o.result, Finite(o.errSq))
    requires forall k :: 0 <= k < |vals| ==> vals[k] == c
    ensures ExactFor(o, vol, c)
  {
    EstimateOfConstant(vol, vals, c);
  }

  /** A leaf of a constant integrand is exact. */
  lemma LeafConstant(f: seq<real> -> real, xl: seq<real>, xu: seq<real>, calls: nat, u: nat -> real, cursor: nat, tally: seq<int>, c: real)
    requires |xl| == |xu| && calls >= 2
    requires forall x :: f(x) == c
    ensures ExactFor(Leaf(f, xl, xu, calls, u, cursor, tally).value, Volume(xl, xu), c)
  {
    var o := Leaf(f, xl, xu, calls, u, cursor, tally).value;
    var vals := Sampled(f, xl, xu, calls, u, cursor);
    assert Estimate(Volume(xl, xu), vals) == (o.result, Finite(o.errSq));
    ConstantValues(f, xl, xu, calls, u, cursor, c);
    EstimateExact(Volume(xl, xu), vals, c, o);
  }

  /** The two halves of an exact split add up to the exact result of the whole box. */
  lemma ExactSplit(est: nat, l: Outcome, r: Outcome, vl: real, vr: real, vol: real, c: real)
    requires ExactFor(l, vl, c) && ExactFor(r, vr, c) && vl + vr == vol
    ensures ExactFor(Combine(est, l, r), vol, c)
  {
    SplitFactor(vl, vr, vol, c);
  }

  /** A constant integrand is integrated exactly, with zero error, however the box is bisected. */
  lemma {:induction false} IntegrateConstant(p: Params, env: Env, xl: seq<real>, xu: seq<real>, stateDim: nat, calls: nat, tally: seq<int>, cursor: nat, c: real)
    requires |xl| == |xu| > 0 && |tally| == |xl| && WellConfigured(p)
    requires RngOk(env) && PowOk(env.pw)
    requires forall x :: env.f(x) == c
    ensures Integrate(p, env, xl, xu, stateDim, calls, tally, cursor).Success? ==>
      ExactFor(Integrate(p, env, xl, xu, stateDim, calls, tally, cursor).value, Volume(xl, xu), c)
    decreases calls
  {
    if !Rejected(p, xl, xu, stateDim) {
      if calls < p.minCallsPerBisection {
        if calls >= 2 {
          LeafConstant(env.f, xl, xu, calls, env.u, cursor, tally, c);
        }
      } else {
        var bisect := Bisect(p, env, xl, xu, calls, cursor);
        if bisect.Success? {
          var plan := bisect.value;
          var xuL, xlR := Cut(xu, plan.dim, plan.mid), Cut(xl, plan.dim, plan.mid);
          IntegrateConstant(p, env, xl, xuL, stateDim, plan.callsL, Bump(tally, plan.dim), plan.cursor, c);
          var left := Integrate(p, env, xl, xuL, stateDim, plan.callsL, Bump(tally, plan.dim), plan.cursor);
          if left.Success? {
            IntegrateConstant(p, env, xlR, xu, stateDim, plan.callsR, left.value.tally, left.value.cursor, c);
            var right := Integrate(p, env, xlR, xu, stateDim, plan.callsR, left.value.tally, left.value.cursor);
            if right.Success? {
              VolumeSplit(xl, xu, plan.dim, plan.mid);
              ExactSplit(plan.est, left.value, right.value, Volume(xl, xuL), Volume(xlR, xu), Volume(xl, xu), c);
            }
          }
        }
      }
    }
  }

  /** Every tally entry is at least what it was. */
  predicate Grown(before: seq<int>, after: seq<int>)
  {
    |after| == |before| && forall k :: 0 <= k < |before| ==> before[k] <= after[k]
  }

  lemma GrownTransitive(a: seq<int>, b: seq<int>, c: seq<int>)
    requires Grown(a, b) && Grown(b, c)
    ensures Grown(a, c)
  {
    forall k | 0 <= k < |a|
      ensures a[k] <= c[k]
    {
      assert a[k] <= b[k] <= c[k];
    }
  }

  /** What has grown from a bumped tally has grown from the tally. */
  lemma GrownFromBump(tally: seq<int>, i: nat, after: seq<int>)
    requires i < |tally| && Grown(Bump(tally, i), after)
    ensures Grown(tally, after)
  {
    forall k | 0 <= k < |tally|
      ensures tally[k] <= after[k]
    {
      assert tally[k] <= Bump(tally, i)[k] <= after[k];
    }
  }

  /**
   * A run never lowers a tally entry and raises their sum by exactly its
   * number of bisections, one entry per bisection: none for a leaf, at least
   * one for a bisected box, and there at least once the dimension its own
   * bisection chose.
   */
  lemma {:induction false} IntegrateTally(p: Params, env: Env, xl: seq<real>, xu: seq<real>, stateDim: nat, calls: nat, tally: seq<int>, cursor: nat)
    requires |xl| == |xu| > 0 && |tally| == |xl| && WellConfigured(p)
    requires RngOk(env) && PowOk(env.pw)
    ensures var r := Integrate(p, env, xl, xu, stateDim, calls, tally, cursor);
      r.Success? ==>
        && Grown(tally, r.value.tally)
        && SumInt(r.value.tally) == SumInt(tally) + r.value.cuts
        && (calls < p.minCallsPerBisection ==> r.value.tally == tally && r.value.cuts == 0)
        && (calls >= p.minCallsPerBisection ==> r.value.cuts >= 1)
        && (calls >= p.minCallsPerBisection && !Rejected(p, xl, xu, stateDim) ==>
              var b := Bisect(p, env, xl, xu, calls, cursor);
              b.Success? && b.value.dim < |tally| && r.value.tally[b.value.dim] >= tally[b.value.dim] + 1)
    decreases calls
  {
    if !Rejected(p, xl, xu, stateDim) && calls >= p.minCallsPerBisection {
      var bisect := Bisect(p, env, xl, xu, calls, cursor);
      if bisect.Success? {
        var plan := bisect.value;
        var bumped := Bump(tally, plan.dim);
        var xuL, xlR := Cut(xu, plan.dim, plan.mid), Cut(xl, plan.dim, plan.mid);
        IntegrateTally(p, env, xl, xuL, stateDim, plan.callsL, bumped, plan.cursor);
        var left := Integrate(p, env, xl, xuL, stateDim, plan.callsL, bumped, plan.cursor);
        if left.Success? {
          IntegrateTally(p, env, xlR, xu, stateDim, plan.callsR, left.value.tally, left.value.cursor);
          var right := Integrate(p, env, xlR, xu, stateDim, plan.callsR, left.value.tally, left.value.cursor);
          if right.Success? {
            assert Integrate(p, env, xl, xu, stateDim, calls, tally, cursor) == Success(Combine(plan.est, left.value, right.value));
            GrownTransitive(bumped, left.value.tally, right.value.tally);
            GrownFromBump(tally, plan.dim, right.value.tally);
          }
        }
      }
    }
  }
}

=== FILE: miser_pilot.dfy ===
/**
 * One bisection step of the MISER recursive stratified sampler (Press and
 * Farrar): the dithered cut, the pilot pass that probes both halves of every
 * dimension, the per-half sigmas, the choice of the bisection dimension and
 * the split of the remaining call budget.
 */
module MiserPilot {
  import opened Numeric
  import opened Wrappers
  import opened Moments
  import opened Box
  import Halves

  /** The tunable part of gsl_monte_miser_state. */
  datatype Params = Params(estimateFrac: real, minCalls: nat, minCallsPerBisection: nat, alpha: real, dither: real)

  datatype Status = EInval | EFailed | ESanity

  /**
   * Parameters under which the unsigned budget arithmetic never wraps and
   * every cut lies strictly inside its box. The library defaults
   * (estimate_frac 0.1, min_calls 16 dim, min_calls_per_bisection
   * 32 min_calls, dither 0) satisfy it.
   */
  predicate WellConfigured(p: Params)
  {
    && 0.0 <= p.estimateFrac < 1.0
    && p.minCallsPerBisection >= 3 * p.minCalls
    && (p.minCallsPerBisection as real) * (1.0 - p.estimateFrac) >= 2.0 * (p.minCalls as real)
    && -0.5 < p.dither < 0.5
  }

  /** The integrand, the stream of uniform draws, the gsl_rng_uniform_int oracle and pow. */
  datatype Env = Env(f: seq<real> -> real, u: nat -> real, pick: (nat, nat) -> nat, pw: (real, real) -> real)

  /** pow of a non-negative sigma is non-negative (pw takes sigma squared, as the square root is not modelled). */
  ghost predicate PowOk(pw: (real, real) -> real)
  {
    forall x: real, b: real :: x >= 0.0 ==> pw(x, b) >= 0.0
  }

  /** The oracle draws below its bound, and the uniform draws lie in (0,1). */
  ghost predicate RngOk(env: Env)
  {
    UnitStream(env.u) && forall k: nat, n: nat :: n > 0 ==> env.pick(k, n) < n
  }

  /** The pilot size: GSL_MAX(min_calls, calls * estimate_frac), truncated to size_t. */
  function EstimateCalls(p: Params, calls: nat): (est: nat)
    requires 0.0 <= p.estimateFrac
    ensures est >= p.minCalls
    ensures est as real <= (calls as real) * p.estimateFrac || est == p.minCalls
  {
    Trunc(Max(p.minCalls as real, (calls as real) * p.estimateFrac))
  }

  lemma MulMonotone(a: real, b: real, c: real)
    requires a >= b && c >= 0.0
    ensures a * c >= b * c
  {
  }

  lemma Complement(a: real, f: real)
    ensures a - a * f == a * (1.0 - f)
  {
  }

  lemma BudgetArithmetic(c: real, m: real, fr: real, e: real, mc: real)
    requires 0.0 <= fr < 1.0 && c >= m && m * (1.0 - fr) >= 2.0 * mc && e <= c * fr
    ensures c - e >= 2.0 * mc
  {
    MulMonotone(c, m, 1.0 - fr);
    Complement(c, fr);
  }

  /**
   * Above min_calls_per_bisection the pilot never takes more than the budget,
   * and what remains covers min_calls for each half.
   */
  lemma EstimateLeavesBudget(p: Params, calls: nat)
    requires WellConfigured(p) && calls >= p.minCallsPerBisection
    ensures EstimateCalls(p, calls) <= calls
    ensures calls - EstimateCalls(p, calls) >= 2 * p.minCalls
  {
    var est := EstimateCalls(p, calls);
    if est != p.minCalls {
      BudgetArithmetic(calls as real, p.minCallsPerBisection as real, p.estimateFrac, est as real, p.minCalls as real);
    }
  }

  /** The coin of one dimension: +dither when the uniform draw is at least 1/2, -dither otherwise. */
  function Coin(dither: real, z: real): (s: real)
    ensures s == dither || s == -dither
  {
    if z - 0.5 >= 0.0 then dither else -dither
  }

  /** The dithered cut (0.5 + s) lo + (0.5 - s) hi. */
  function Mid(lo: real, hi: real, s: real): real
  {
    (0.5 + s) * lo + (0.5 - s) * hi
  }

  /** With |s| < 1/2 the cut lies strictly inside (lo, hi). */
  lemma MidInside(lo: real, hi: real, s: real)
    requires lo < hi && -0.5 < s < 0.5
    ensures lo < Mid(lo, hi, s) < hi
  {
    assert Mid(lo, hi, s) == Coord(lo, hi - lo, 0.5 - s);
    CoordInside(lo, hi - lo, 0.5 - s);
  }

  /** Without dither the cut is the midpoint. */
  lemma MidWithoutDither(lo: real, hi: real)
    ensures Mid(lo, hi, 0.0) == (lo + hi) / 2.0
  {
  }

  /** The cuts of all dimensions, one uniform draw each from `at` on. */
  function XMid(p: Params, xl: seq<real>, xu: seq<real>, u: nat -> real, at: nat): (xmid: seq<real>)
    requires |xl| == |xu|
    ensures |xmid| == |xl|
    ensures forall i :: 0 <= i < |xl| ==> xmid[i] == Mid(xl[i], xu[i], Coin(p.dither, u(at + i)))
  {
    seq(|xl|, i requires 0 <= i < |xl| => Mid(xl[i], xu[i], Coin(p.dither, u(at + i))))
  }

  /** Every cut of a valid box lies strictly inside its dimension. */
  lemma XMidInside(p: Params, xl: seq<real>, xu: seq<real>, u: nat -> real, at: nat)
    requires Valid(xl, xu) && -0.5 < p.dither < 0.5
    ensures forall i :: 0 <= i < |xl| ==> xl[i] < XMid(p, xl, xu, u, at)[i] < xu[i]
  {
    forall i | 0 <= i < |xl|
      ensures xl[i] < XMid(p, xl, xu, u, at)[i] < xu[i]
    {
      MidInside(xl[i], xu[i], Coin(p.dither, u(at + i)));
    }
  }

  /** The dimension pilot sample n probes. */
  function Probed(n: nat, dim: nat): (j: nat)
    requires dim > 0
    ensures j < dim
  {
    (n / 2) % dim
  }

  /** The side pilot sample n probes: 0 draws the probed coordinate above the cut, 1 below it. */
  function Side(n: nat): (side: nat)
    ensures side < 2
  {
    n % 2
  }

  /** Samples 2d and 2d + 1 probe dimension d above and below the cut. */
  lemma ScheduleProbesBothSides(d: nat, dim: nat)
    requires d < dim
    ensures Probed(2 * d, dim) == d && Side(2 * d) == 0
    ensures Probed(2 * d + 1, dim) == d && Side(2 * d + 1) == 1
  {
    assert (2 * d) / 2 == d && (2 * d + 1) / 2 == d;
  }

  /** One pilot coordinate: the whole extent, or for the probed dimension the half of the given side. */
  function PilotCoord(lo: real, mid: real, hi: real, z: real, probed: bool, side: nat): real
  {
    if !probed then Coord(lo, hi - lo, z)
    else if side == 0 then Coord(mid, hi - mid, z)
    else Coord(lo, mid - lo, z)
  }

  /** A pilot coordinate stays in the box, and a probed one on its side of the cut. */
  lemma PilotCoordInside(lo: real, mid: real, hi: real, z: real, probed: bool, side: nat)
    requires lo < mid < hi && 0.0 < z < 1.0
    ensures lo < PilotCoord(lo, mid, hi, z, probed, side) < hi
    ensures probed && side == 0 ==> mid < PilotCoord(lo, mid, hi, z, probed, side)
    ensures probed && side != 0 ==> PilotCoord(lo, mid, hi, z, probed, side) < mid
  {
    if !probed {
      CoordInside(lo, hi - lo, z);
    } else if side == 0 {
      CoordInside(mid, hi - mid, z);
    } else {
      CoordInside(lo, mid - lo, z);
    }
  }

  /** Pilot sample n of a pilot run starting at `at`: its coordinates use the draws from at + n * dim on. */
  function PilotPoint(xl: seq<real>, xu: seq<real>, xmid: seq<real>, u: nat -> real, at: nat, n: nat): (x: seq<real>)
    requires |xl| == |xu| == |xmid| > 0
    ensures |x| == |xl|
  {
    seq(|xl|, i requires 0 <= i < |xl| => PilotCoord(xl[i], xmid[i], xu[i], u(at + Draws(n, |xl|) + i), i == Probed(n, |xl|), Side(n)))
  }

  /** The `calls` pilot samples, dim draws each, from `at` on. */
  function PilotPoints(xl: seq<real>, xu: seq<real>, xmid: seq<real>, u: nat -> real, at: nat, calls: nat): (pts: seq<seq<real>>)
    requires |xl| == |xu| == |xmid| > 0
    ensures |pts| == calls
    ensures forall n :: 0 <= n < calls ==> pts[n] == PilotPoint(xl, xu, xmid, u, at, n)
  {
    seq(calls, n requires 0 <= n < calls => PilotPoint(xl, xu, xmid, u, at, n))
  }

  /**
   * The values of the samples counted on one side of the cut `mid` in
   * dimension d, in sampling order: left when x[d] <= mid, right otherwise.
   */
  function HalfValues(pts: seq<seq<real>>, vals: seq<real>, d: nat, mid: real, left: bool): (r: seq<real>)
    requires |pts| == |vals| && Halves.HasCoord(pts, d)
    ensures |r| <= |pts|
  {
    if |pts| == 0 then []
    else
      var n := |pts| - 1;
      var rest := HalfValues(pts[..n], vals[..n], d, mid, left);
      if (pts[n][d] <= mid) == left then rest + [vals[n]] else rest
  }

  lemma SumAppend(s: seq<real>, v: real)
    ensures Sum(s + [v]) == Sum(s) + v
  {
    assert (s + [v])[..|s|] == s;
  }

  /** Every sample is counted on exactly one side: hits_l + hits_r == calls. */
  lemma {:induction false} HalvesCount(pts: seq<seq<real>>, vals: seq<real>, d: nat, mid: real)
    requires |pts| == |vals| && Halves.HasCoord(pts, d)
    ensures |HalfValues(pts, vals, d, mid, true)| + |HalfValues(pts, vals, d, mid, false)| == |pts|
  {
    if |pts| > 0 {
      var n := |pts| - 1;
      HalvesCount(pts[..n], vals[..n], d, mid);
    }
  }

  /** The two sides' sums add up to the sum of all values: fsum_l + fsum_r == the total. */
  lemma {:induction false} HalvesSum(pts: seq<seq<real>>, vals: seq<real>, d: nat, mid: real)
    requires |pts| == |vals| && Halves.HasCoord(pts, d)
    ensures Sum(HalfValues(pts, vals, d, mid, true)) + Sum(HalfValues(pts, vals, d, mid, false)) == Sum(vals)
  {
    if |pts| > 0 {
      var n := |pts| - 1;
      var l, r := HalfValues(pts[..n], vals[..n], d, mid, true), HalfValues(pts[..n], vals[..n], d, mid, false);
      HalvesSum(pts[..n], vals[..n], d, mid);
      SumAppend(l, vals[n]);
      SumAppend(r, vals[n]);
    }
  }

  /** A side that some sample falls on has a hit. */
  lemma {:induction false} HalfHit(pts: seq<seq<real>>, vals: seq<real>, d: nat, mid: real, left: bool, n: nat)
    requires |pts| == |vals| && Halves.HasCoord(pts, d) && n < |pts|
    requires (pts[n][d] <= mid) == left
    ensures |HalfValues(pts, vals, d, mid, left)| > 0
  {
    var last := |pts| - 1;
    if n < last {
      HalfHit(pts[..last], vals[..last], d, mid, left, n);
    }
  }

  /** A pilot sigma sqrt(root) * scale, kept without the square root; Sentinel is the initial -1. */
  datatype Sigma = Sentinel | Sig(root: real, scale: real)

  /**
   * The sigma of one side with hit values vs and weight w (fraction * vol):
   * fsum is divided by hits first, so the root is fsum2 - mean^2 / hits.
   */
  function SigmaOf(vs: seq<real>, w: real): (s: Sigma)
    ensures s.Sentinel? <==> |vs| == 0
  {
    if |vs| == 0 then Sentinel
    else
      var h := |vs| as real;
      var mean := Sum(vs) / h;
      Sig(SumSq(vs) - mean * mean / h, w / h)
  }

  /** The test sigma >= 0: false for the sentinel and for the NaN of the square root of a negative root. */
  predicate Usable(s: Sigma)
  {
    s.Sig? && s.root >= 0.0 && (s.root == 0.0 || s.scale >= 0.0)
  }

  /** The test sigma < 0: true for the sentinel -1 and for a positive root times a negative weight, false for NaN. */
  predicate Negative(s: Sigma)
  {
    s.Sentinel? || (s.root > 0.0 && s.scale < 0.0)
  }

  /** A sigma is usable, negative, or NaN (a negative root), and never two of these. */
  lemma SigmaTrichotomy(s: Sigma)
    ensures Usable(s) ==> !Negative(s)
    ensures !Usable(s) && !Negative(s) <==> s.Sig? && s.root < 0.0
  {
  }

  /** sigma squared. */
  function SigmaSq(s: Sigma): real
    requires s.Sig?
  {
    s.root * s.scale * s.scale
  }

  lemma UsableSquare(s: Sigma)
    requires Usable(s)
    ensures SigmaSq(s) >= 0.0
  {
    SquareIsNonNegative(s.scale);
    assert SigmaSq(s) == s.root * (s.scale * s.scale);
  }

  lemma DivideBound(h: real, sq: real, s: real)
    requires h > 0.0 && h * sq >= s * s
    ensures sq >= s * s / h
  {
  }

  lemma ShrinkSquare(h: real, m: real)
    requires h >= 1.0
    ensures m * m / h <= m * m * h
  {
    SquareIsNonNegative(m);
    var t := m * m;
    assert t / h <= t;
    assert t <= t * h;
  }

  lemma MeanSquare(h: real, s: real, m: real)
    requires h > 0.0 && m == s / h
    ensures m * m * h == s * s / h
  {
    assert m * h == s;
  }

  /** The root fsum2 - mean^2 / hits is non-negative whenever hits * fsum2 >= fsum^2. */
  lemma RootNonNegative(h: real, sq: real, s: real)
    requires h >= 1.0 && h * sq >= s * s
    ensures sq - (s / h) * (s / h) / h >= 0.0
  {
    var m := s / h;
    DivideBound(h, sq, s);
    ShrinkSquare(h, m);
    MeanSquare(h, s, m);
  }

  /** A side with hits and a non-negative weight has a usable sigma (no NaN from the square root). */
  lemma SigmaUsable(vs: seq<real>, w: real)
    requires |vs| > 0 && w >= 0.0
    ensures Usable(SigmaOf(vs, w))
  {
    var h := |vs| as real;
    CauchySchwarz(vs);
    RootNonNegative(h, SumSq(vs), Sum(vs));
  }

  /** The share of the box below the cut in one dimension, (mid - lo) / (hi - lo). */
  function Fraction(lo: real, mid: real, hi: real): real
    requires lo < hi
  {
    (mid - lo) / (hi - lo)
  }

  lemma RatioInside(a: real, b: real)
    requires 0.0 < a < b
    ensures 0.0 < a / b < 1.0
  {
    var r := a / b;
    assert r * b == a;
    if r >= 1.0 {
      MulMonotone(r, 1.0, b);
      assert false;
    }
  }

  lemma FractionInside(lo: real, mid: real, hi: real)
    requires lo < mid < hi
    ensures 0.0 < Fraction(lo, mid, hi) < 1.0
  {
    RatioInside(mid - lo, hi - lo);
  }

  /** The weight of one side's sigma: fraction * vol below the cut, (1 - fraction) * vol above it. */
  function SideWeight(lo: real, mid: real, hi: real, vol: real, left: bool): real
    requires lo < hi
  {
    (if left then Fraction(lo, mid, hi) else 1.0 - Fraction(lo, mid, hi)) * vol
  }

  lemma SideWeightNonNegative(lo: real, mid: real, hi: real, vol: real, left: bool)
    requires lo < mid < hi && vol > 0.0
    ensures SideWeight(lo, mid, hi, vol, left) >= 0.0
  {
    FractionInside(lo, mid, hi);
    if left {
      ProductPositive(Fraction(lo, mid, hi), vol);
    } else {
      ProductPositive(1.0 - Fraction(lo, mid, hi), vol);
    }
  }

  lemma ShapedHasCoord(pts: seq<seq<real>>, dim: nat, d: nat)
    requires Shaped(pts, dim) && d < dim
    ensures Halves.HasCoord(pts, d)
  {
  }

  /** The sigma of one side of the cut of dimension i. */
  function SigmaAt(pts: seq<seq<real>>, vals: seq<real>, xl: seq<real>, xu: seq<real>, xmid: seq<real>, vol: real, left: bool, i: nat): Sigma
    requires Valid(xl, xu) && |xmid| == |xl| && Shaped(pts, |xl|) && |vals| == |pts| && i < |xl|
  {
    ShapedHasCoord(pts, |xl|, i);
    SigmaOf(HalfValues(pts, vals, i, xmid[i], left), SideWeight(xl[i], xmid[i], xu[i], vol, left))
  }

  /** The sigmas of one side of every cut. */
  function Sigmas(pts: seq<seq<real>>, vals: seq<real>, xl: seq<real>, xu: seq<real>, xmid: seq<real>, vol: real, left: bool): (s: seq<Sigma>)
    requires Valid(xl, xu) && |xmid| == |xl| && Shaped(pts, |xl|) && |vals| == |pts|
    ensures |s| == |xl|
    ensures forall i :: 0 <= i < |xl| ==> s[i] == SigmaAt(pts, vals, xl, xu, xmid, vol, left, i)
  {
    seq(|xl|, i requires 0 <= i < |xl| => SigmaAt(pts, vals, xl, xu, xmid, vol, left, i))
  }

  /** What estimate_corrmc reports: the pilot estimate and its error, and the sigmas of both sides of every cut. */
  datatype Pilot = Pilot(result: real, err: ErrBound, sigL: seq<Sigma>, sigR: seq<Sigma>)

  lemma PilotShaped(xl: seq<real>, xu: seq<real>, xmid: seq<real>, u: nat -> real, at: nat, calls: nat)
    requires |xl| == |xu| == |xmid| > 0
    ensures Shaped(PilotPoints(xl, xu, xmid, u, at, calls), |xl|)
  {
  }

  /**
   * estimate_corrmc on `calls` pilot samples drawn from `at` on: the
   * estimate of the pilot values (vol times their mean, Moments.EstimateIsMean),
   * whose error is infinite exactly below two calls, and the sigmas of both
   * sides of every cut.
   */
  function Corr(f: seq<real> -> real, xl: seq<real>, xu: seq<real>, xmid: seq<real>, u: nat -> real, at: nat, calls: nat): (r: Pilot)
    requires Valid(xl, xu) && |xmid| == |xl| > 0
    ensures |r.sigL| == |xl| && |r.sigR| == |xl|
    ensures r.err.PosInf? <==> calls < 2
  {
    var pts := PilotPoints(xl, xu, xmid, u, at, calls);
    PilotShaped(xl, xu, xmid, u, at, calls);
    var vals := Values(f, pts);
    var vol := Volume(xl, xu);
    var est := Estimate(vol, vals);
    Pilot(est.0, est.1, Sigmas(pts, vals, xl, xu, xmid, vol, true), Sigmas(pts, vals, xl, xu, xmid, vol, false))
  }

  /** The probed coordinate of pilot sample n lies above the cut on side 0 and below it on side 1. */
  lemma ProbeSide(xl: seq<real>, xu: seq<real>, xmid: seq<real>, u: nat -> real, at: nat, n: nat)
    requires Valid(xl, xu) && |xmid| == |xl| > 0 && UnitStream(u)
    requires forall i :: 0 <= i < |xl| ==> xl[i] < xmid[i] < xu[i]
    ensures var j := Probed(n, |xl|);
      Side(n) == 0 ==> PilotPoint(xl, xu, xmid, u, at, n)[j] > xmid[j]
    ensures var j := Probed(n, |xl|);
      Side(n) == 1 ==> PilotPoint(xl, xu, xmid, u, at, n)[j] < xmid[j]
  {
    var j := Probed(n, |xl|);
    PilotCoordInside(xl[j], xmid[j], xu[j], u(at + Draws(n, |xl|) + j), true, Side(n));
  }

  /** A pilot sample that probes dimension i on the side `left` is a hit of that side. */
  lemma ProbeHits(pts: seq<seq<real>>, vals: seq<real>, xl: seq<real>, xu: seq<real>, xmid: seq<real>, u: nat -> real, at: nat, i: nat, left: bool, n: nat)
    requires Valid(xl, xu) && |xmid| == |xl| > 0 && UnitStream(u)
    requires forall i :: 0 <= i < |xl| ==> xl[i] < xmid[i] < xu[i]
    requires |pts| == |vals| && n < |pts| && Halves.HasCoord(pts, i) && i < |xl|
    requires pts[n] == PilotPoint(xl, xu, xmid, u, at, n)
    requires Probed(n, |xl|) == i && Side(n) == (if left then 1 else 0)
    ensures |HalfValues(pts, vals, i, xmid[i], left)| > 0
  {
    ProbeSide(xl, xu, xmid, u, at, n);
    HalfHit(pts, vals, i, xmid[i], left, n);
  }

  /** Dimension i's side `left` has a hit among 2 dim or more pilot samples. */
  lemma PilotHitsSide(f: seq<real> -> real, xl: seq<real>, xu: seq<real>, xmid: seq<real>, u: nat -> real, at: nat, calls: nat, i: nat, left: bool)
    requires Valid(xl, xu) && |xmid| == |xl| > 0 && UnitStream(u)
    requires forall i :: 0 <= i < |xl| ==> xl[i] < xmid[i] < xu[i]
    requires calls >= 2 * |xl| && i < |xl|
    ensures Halves.HasCoord(PilotPoints(xl, xu, xmid, u, at, calls), i)
    ensures |HalfValues(PilotPoints(xl, xu, xmid, u, at, calls), Values(f, PilotPoints(xl, xu, xmid, u, at, calls)), i, xmid[i], left)| > 0
  {
    var dim := |xl|;
    var pts := PilotPoints(xl, xu, xmid, u, at, calls);
    PilotShaped(xl, xu, xmid, u, at, calls);
    ShapedHasCoord(pts, dim, i);
    ScheduleProbesBothSides(i, dim);
    var vals := Values(f, pts);
    if left {
      var n := 2 * i + 1;
      ProbeHits(pts, vals, xl, xu, xmid, u, at, i, left, n);
    } else {
      var n := 2 * i;
      ProbeHits(pts, vals, xl, xu, xmid, u, at, i, left, n);
    }
  }

  /** With a cut strictly inside every dimension and 2 dim pilot calls, every sigma is usable. */
  lemma CorrUsable(f: seq<real> -> real, xl: seq<real>, xu: seq<real>, xmid: seq<real>, u: nat -> real, at: nat, calls: nat)
    requires Valid(xl, xu) && |xmid| == |xl| > 0 && UnitStream(u)
    requires forall i :: 0 <= i < |xl| ==> xl[i] < xmid[i] < xu[i]
    requires calls >= 2 * |xl|
    ensures forall i :: 0 <= i < |xl| ==>
      Usable(Corr(f, xl, xu, xmid, u, at, calls).sigL[i]) && Usable(Corr(f, xl, xu, xmid, u, at, calls).sigR[i])
  {
    var pts := PilotPoints(xl, xu, xmid, u, at, calls);
    var vals := Values(f, pts);
    var vol := Volume(xl, xu);
    PilotShaped(xl, xu, xmid, u, at, calls);
    VolumePositive(xl, xu);
    var r := Corr(f, xl, xu, xmid, u, at, calls);
    assert r.sigL == Sigmas(pts, vals, xl, xu, xmid, vol, true);
    assert r.sigR == Sigmas(pts, vals, xl, xu, xmid, vol, false);
    forall i | 0 <= i < |xl|
      ensures Usable(r.sigL[i]) && Usable(r.sigR[i])
    {
      PilotHitsSide(f, xl, xu, xmid, u, at, calls, i, true);
      PilotHitsSide(f, xl, xu, xmid, u, at, calls, i, false);
      SideWeightNonNegative(xl[i], xmid[i], xu[i], vol, true);
      SideWeightNonNegative(xl[i], xmid[i], xu[i], vol, false);
      SigmaUsable(HalfValues(pts, vals, i, xmid[i], true), SideWeight(xl[i], xmid[i], xu[i], vol, true));
      SigmaUsable(HalfValues(pts, vals, i, xmid[i], false), SideWeight(xl[i], xmid[i], xu[i], vol, false));
    }
  }

  /** The direction chosen so far: found_best, i_bisect, weight_l and weight_r. */
  datatype Choice = Choice(found: bool, dim: nat, wl: real, wr: real)

  /** The state before the scan: nothing found, dimension 0, both weights 1. */
  const NoChoice: Choice := Choice(false, 0, 1.0, 1.0)

  /** beta = 2 / (1 + alpha). */
  function Beta(alpha: real): real
    requires alpha >= 0.0
  {
    2.0 / (1.0 + alpha)
  }

  /** pow(sigma, beta). */
  function Weight(pw: (real, real) -> real, s: Sigma, beta: real): real
    requires s.Sig?
  {
    pw(SigmaSq(s), beta)
  }

  /** The variance of cutting dimension i, when both of its sigmas are usable. */
  function Variance(pw: (real, real) -> real, l: Sigma, r: Sigma, beta: real): Option<real>
  {
    if Usable(l) && Usable(r) then Some(Weight(pw, l, beta) + Weight(pw, r, beta)) else None
  }

  function Variances(pw: (real, real) -> real, sl: seq<Sigma>, sr: seq<Sigma>, beta: real): (vs: seq<Option<real>>)
    requires |sl| == |sr|
    ensures |vs| == |sl|
    ensures forall i :: 0 <= i < |sl| ==> vs[i] == Variance(pw, sl[i], sr[i], beta)
  {
    seq(|sl|, i requires 0 <= i < |sl| => Variance(pw, sl[i], sr[i], beta))
  }

  /** Dimension i chosen with its two weights, both zero weights reset to one each. */
  function ChosenAt(pw: (real, real) -> real, sl: seq<Sigma>, sr: seq<Sigma>, beta: real, i: nat): Choice
    requires i < |sl| == |sr| && Usable(sl[i]) && Usable(sr[i])
  {
    var wl, wr := Weight(pw, sl[i], beta), Weight(pw, sr[i], beta);
    if wl == 0.0 && wr == 0.0 then Choice(true, i, 1.0, 1.0) else Choice(true, i, wl, wr)
  }

  /**
   * The scan for the smallest variance from dimension i on, with running
   * minimum `best`: a variance no larger than best replaces the choice, and a
   * negative sigma stops the scan with GSL_ESANITY.
   */
  function ChooseFrom(pw: (real, real) -> real, sl: seq<Sigma>, sr: seq<Sigma>, beta: real, i: nat, best: real, acc: Choice): Result<Choice, Status>
    requires i <= |sl| == |sr|
    decreases |sl| - i
  {
    if i == |sl| then Success(acc)
    else if Usable(sl[i]) && Usable(sr[i]) then
      var v := Weight(pw, sl[i], beta) + Weight(pw, sr[i], beta);
      if v <= best then ChooseFrom(pw, sl, sr, beta, i + 1, v, ChosenAt(pw, sl, sr, beta, i))
      else ChooseFrom(pw, sl, sr, beta, i + 1, best, acc)
    else if Negative(sl[i]) || Negative(sr[i]) then Failure(ESanity)
    else ChooseFrom(pw, sl, sr, beta, i + 1, best, acc)
  }

  /** The scan from dimension 0 with best_var = DBL_MAX. */
  function Choose(pw: (real, real) -> real, sl: seq<Sigma>, sr: seq<Sigma>, alpha: real): (r: Result<Choice, Status>)
    requires |sl| == |sr| && alpha >= 0.0
  {
    ChooseFrom(pw, sl, sr, Beta(alpha), 0, DblMax, NoChoice)
  }

  /** No variance among the first n is present and at most DBL_MAX. */
  predicate NoneWithin(vs: seq<Option<real>>, n: nat)
  {
    forall k :: 0 <= k < n && k < |vs| && vs[k].Some? ==> vs[k].value > DblMax
  }

  /** Among the first n variances, i holds the smallest, at most DBL_MAX, and every later present one is strictly larger. */
  predicate Trails(vs: seq<Option<real>>, n: nat, i: nat)
  {
    i < n <= |vs| && vs[i].Some? && vs[i].value <= DblMax
    && (forall k :: 0 <= k < n && vs[k].Some? ==> vs[i].value <= vs[k].value)
    && (forall k :: i < k < n && vs[k].Some? ==> vs[i].value < vs[k].value)
  }

  /** i is the last index of the smallest present variance, and that variance is at most DBL_MAX. */
  predicate IsLastMin(vs: seq<Option<real>>, i: nat)
  {
    Trails(vs, |vs|, i)
  }

  /** A negative sigma among dimensions i.. is exactly what makes the scan fail. */
  lemma {:induction false} ChooseFromFails(pw: (real, real) -> real, sl: seq<Sigma>, sr: seq<Sigma>, beta: real, i: nat, best: real, acc: Choice)
    requires i <= |sl| == |sr|
    ensures ChooseFrom(pw, sl, sr, beta, i, best, acc).Failure? <==>
      exists k :: i <= k < |sl| && (Negative(sl[k]) || Negative(sr[k]))
    ensures ChooseFrom(pw, sl, sr, beta, i, best, acc).Failure? ==>
      ChooseFrom(pw, sl, sr, beta, i, best, acc).error == ESanity
    decreases |sl| - i
  {
    if i < |sl| {
      SigmaTrichotomy(sl[i]);
      SigmaTrichotomy(sr[i]);
      if Usable(sl[i]) && Usable(sr[i]) {
        var v := Weight(pw, sl[i], beta) + Weight(pw, sr[i], beta);
        ChooseFromFails(pw, sl, sr, beta, i + 1, v, ChosenAt(pw, sl, sr, beta, i));
        ChooseFromFails(pw, sl, sr, beta, i + 1, best, acc);
      } else if !(Negative(sl[i]) || Negative(sr[i])) {
        ChooseFromFails(pw, sl, sr, beta, i + 1, best, acc);
      }
    }
  }

  /** What the scan keeps between steps: nothing found yet, or the last smallest variance so far with its weights. */
  predicate Scanned(pw: (real, real) -> real, sl: seq<Sigma>, sr: seq<Sigma>, beta: real, n: nat, best: real, acc: Choice)
    requires |sl| == |sr|
  {
    var vs := Variances(pw, sl, sr, beta);
    (acc == NoChoice && best == DblMax && NoneWithin(vs, n))
    || (Trails(vs, n, acc.dim) && best == vs[acc.dim].value && acc == ChosenAt(pw, sl, sr, beta, acc.dim))
  }

  /** The outcome of a complete scan: nothing found, or the last smallest variance with its weights. */
  predicate Picked(pw: (real, real) -> real, sl: seq<Sigma>, sr: seq<Sigma>, beta: real, c: Choice)
    requires |sl| == |sr|
  {
    var vs := Variances(pw, sl, sr, beta);
    (c == NoChoice && NoneWithin(vs, |vs|))
    || (IsLastMin(vs, c.dim) && c == ChosenAt(pw, sl, sr, beta, c.dim))
  }

  /** A variance no larger than the running minimum takes over the scan. */
  lemma ScanTakes(pw: (real, real) -> real, sl: seq<Sigma>, sr: seq<Sigma>, beta: real, i: nat, best: real, acc: Choice)
    requires i < |sl| == |sr| && Usable(sl[i]) && Usable(sr[i])
    requires Scanned(pw, sl, sr, beta, i, best, acc)
    requires Weight(pw, sl[i], beta) + Weight(pw, sr[i], beta) <= best
    ensures Scanned(pw, sl, sr, beta, i + 1, Weight(pw, sl[i], beta) + Weight(pw, sr[i], beta), ChosenAt(pw, sl, sr, beta, i))
  {
    var vs := Variances(pw, sl, sr, beta);
    assert vs[i].value == Weight(pw, sl[i], beta) + Weight(pw, sr[i], beta);
    assert Trails(vs, i + 1, i);
  }

  /** A larger variance, or an absent one, leaves the scan as it was. */
  lemma ScanSkips(pw: (real, real) -> real, sl: seq<Sigma>, sr: seq<Sigma>, beta: real, i: nat, best: real, acc: Choice)
    requires i < |sl| == |sr|
    requires Scanned(pw, sl, sr, beta, i, best, acc)
    requires Variance(pw, sl[i], sr[i], beta).Some? ==> Variance(pw, sl[i], sr[i], beta).value > best
    ensures Scanned(pw, sl, sr, beta, i + 1, best, acc)
  {
    var vs := Variances(pw, sl, sr, beta);
    assert vs[i] == Variance(pw, sl[i], sr[i], beta);
  }

  lemma {:induction false} ChooseFromScans(pw: (real, real) -> real, sl: seq<Sigma>, sr: seq<Sigma>, beta: real, i: nat, best: real, acc: Choice)
    requires i <= |sl| == |sr|
    requires Scanned(pw, sl, sr, beta, i, best, acc)
    ensures ChooseFrom(pw, sl, sr, beta, i, best, acc).Success? ==>
      Picked(pw, sl, sr, beta, ChooseFrom(pw, sl, sr, beta, i, best, acc).value)
    decreases |sl| - i
  {
    if i < |sl| {
      if Usable(sl[i]) && Usable(sr[i]) {
        var v := Weight(pw, sl[i], beta) + Weight(pw, sr[i], beta);
        if v <= best {
          ScanTakes(pw, sl, sr, beta, i, best, acc);
          assert ChooseFrom(pw, sl, sr, beta, i, best, acc) == ChooseFrom(pw, sl, sr, beta, i + 1, v, ChosenAt(pw, sl, sr, beta, i));
          ChooseFromScans(pw, sl, sr, beta, i + 1, v, ChosenAt(pw, sl, sr, beta, i));
        } else {
          ScanSkips(pw, sl, sr, beta, i, best, acc);
          assert ChooseFrom(pw, sl, sr, beta, i, best, acc) == ChooseFrom(pw, sl, sr, beta, i + 1, best, acc);
          ChooseFromScans(pw, sl, sr, beta, i + 1, best, acc);
        }
      } else if !(Negative(sl[i]) || Negative(sr[i])) {
        ScanSkips(pw, sl, sr, beta, i, best, acc);
        assert ChooseFrom(pw, sl, sr, beta, i, best, acc) == ChooseFrom(pw, sl, sr, beta, i + 1, best, acc);
        ChooseFromScans(pw, sl, sr, beta, i + 1, best, acc);
      }
    }
  }

  /**
   * The choice of the bisection dimension fails with GSL_ESANITY exactly when
   * some dimension has a negative sigma; otherwise it is the last dimension of
   * smallest variance not above DBL_MAX with its weights, or nothing when no
   * variance is that small.
   */
  lemma ChooseIsLastMinimum(pw: (real, real) -> real, sl: seq<Sigma>, sr: seq<Sigma>, alpha: real)
    requires |sl| == |sr| && alpha >= 0.0
    ensures Choose(pw, sl, sr, alpha).Failure? <==> exists k :: 0 <= k < |sl| && (Negative(sl[k]) || Negative(sr[k]))
    ensures Choose(pw, sl, sr, alpha).Failure? ==> Choose(pw, sl, sr, alpha).error == ESanity
    ensures Choose(pw, sl, sr, alpha).Success? ==> Picked(pw, sl, sr, Beta(alpha), Choose(pw, sl, sr, alpha).value)
  {
    ChooseFromFails(pw, sl, sr, Beta(alpha), 0, DblMax, NoChoice);
    ChooseFromScans(pw, sl, sr, Beta(alpha), 0, DblMax, NoChoice);
  }

  /** With pow non-negative, the chosen weights are non-negative and not both zero. */
  lemma PickedWeights(pw: (real, real) -> real, sl: seq<Sigma>, sr: seq<Sigma>, beta: real, c: Choice)
    requires |sl| == |sr| && PowOk(pw) && Picked(pw, sl, sr, beta, c)
    ensures c.found ==> c.dim < |sl|
    ensures c.wl >= 0.0 && c.wr >= 0.0 && c.wl + c.wr > 0.0
  {
    if c != NoChoice {
      UsableSquare(sl[c.dim]);
      UsableSquare(sr[c.dim]);
    }
  }

  /** One half's share rest * a / (a + b) of the calls left after the pilot. */
  function Share(rest: real, a: real, b: real): real
    requires a + b > 0.0
  {
    rest * a / (a + b)
  }

  lemma ShareBounds(rest: real, a: real, b: real)
    requires a >= 0.0 && b >= 0.0 && a + b > 0.0 && rest >= 0.0
    ensures Share(rest, a, b) >= 0.0 && Share(rest, b, a) >= 0.0
    ensures Share(rest, a, b) + Share(rest, b, a) == rest
  {
    var t := a + b;
    var x, y := rest * a / t, rest * b / t;
    assert x * t == rest * a && y * t == rest * b;
    assert (x + y) * t == rest * t;
  }

  /**
   * calls_l and calls_r: min_calls each plus the shares a : b of what is left
   * above 2 min_calls, truncated to size_t.
   */
  function Budget(minCalls: nat, calls: nat, a: real, b: real): (r: (nat, nat))
    requires a >= 0.0 && b >= 0.0 && a + b > 0.0 && calls >= 2 * minCalls
    ensures r.0 >= minCalls && r.1 >= minCalls
    ensures r.0 + r.1 <= calls && r.0 + r.1 + 1 >= calls
  {
    var rest := (calls - 2 * minCalls) as real;
    ShareBounds(rest, a, b);
    (Trunc(minCalls as real + Share(rest, a, b)), Trunc(minCalls as real + Share(rest, b, a)))
  }

  lemma SharesPositive(f: real, g: real, wl: real, wr: real)
    requires f > 0.0 && g > 0.0 && wl >= 0.0 && wr >= 0.0 && wl + wr > 0.0
    ensures f * wl >= 0.0 && g * wr >= 0.0 && f * wl + g * wr > 0.0
  {
    if wl > 0.0 {
      ProductPositive(f, wl);
    } else {
      ProductPositive(g, wr);
    }
  }

  /** What one bisection hands on: the cut dimension and position, the pilot size, both budgets, the cursor. */
  datatype Plan = Plan(dim: nat, mid: real, est: nat, callsL: nat, callsR: nat, cursor: nat)

  /**
   * The split of the calls left after the pilot for a cut at mid in (lo, hi):
   * fraction_l = |(mid - lo) / (hi - lo)|, a = fraction_l weight_l and
   * b = (1 - fraction_l) weight_r.
   */
  function Allot(minCalls: nat, lo: real, mid: real, hi: real, wl: real, wr: real, i: nat, est: nat, rest: nat, cursor: nat): (plan: Plan)
    requires lo < mid < hi && wl >= 0.0 && wr >= 0.0 && wl + wr > 0.0 && rest >= 2 * minCalls
    ensures plan.dim == i && plan.mid == mid && plan.est == est && plan.cursor == cursor
    ensures plan.callsL >= minCalls && plan.callsR >= minCalls
    ensures plan.callsL + plan.callsR <= rest && plan.callsL + plan.callsR + 1 >= rest
  {
    var fl := Abs(Fraction(lo, mid, hi));
    FractionInside(lo, mid, hi);
    SharesPositive(fl, 1.0 - fl, wl, wr);
    var budget := Budget(minCalls, rest, fl * wl, (1.0 - fl) * wr);
    Plan(i, mid, est, budget.0, budget.1, cursor)
  }

  /** A plan the recursion can follow: a cut strictly inside a dimension and budgets that fit the calls. */
  predicate Planned(p: Params, xl: seq<real>, xu: seq<real>, calls: nat, plan: Plan)
    requires |xl| == |xu| && WellConfigured(p)
  {
    && plan.dim < |xl| && xl[plan.dim] < plan.mid < xu[plan.dim]
    && plan.est == EstimateCalls(p, calls) && plan.est >= 4 * |xl|
    && plan.callsL >= p.minCalls && plan.callsR >= p.minCalls
    && plan.est + plan.callsL + plan.callsR <= calls
    && plan.est + plan.callsL + plan.callsR + 1 >= calls
  }

  /**
   * The rest of a bisection once the pilot has run and a choice stands: the
   * dimension drawn with gsl_rng_uniform_int at `next` when none was found, and
   * the split of the calls left after the pilot.
   */
  function Follow(p: Params, env: Env, xl: seq<real>, xu: seq<real>, xmid: seq<real>, calls: nat, est: nat, next: nat, c: Choice): (plan: Plan)
    requires Valid(xl, xu) && |xl| > 0 && |xmid| == |xl| && WellConfigured(p) && RngOk(env)
    requires forall i :: 0 <= i < |xl| ==> xl[i] < xmid[i] < xu[i]
    requires c.wl >= 0.0 && c.wr >= 0.0 && c.wl + c.wr > 0.0 && (c.found ==> c.dim < |xl|)
    requires calls >= p.minCallsPerBisection && est == EstimateCalls(p, calls) && est >= 4 * |xl|
    ensures Planned(p, xl, xu, calls, plan) && plan.cursor >= next
  {
    EstimateLeavesBudget(p, calls);
    var i := if c.found then c.dim else env.pick(next, |xl|);
    Allot(p.minCalls, xl[i], xmid[i], xu[i], c.wl, c.wr, i, est, calls - est, if c.found then next else next + 1)
  }

  /**
   * The dithered cuts drawn from `cursor` on, the pilot of est samples drawn
   * after them, and the choice of the dimension made from its sigmas.
   */
  function PilotChoice(p: Params, env: Env, xl: seq<real>, xu: seq<real>, est: nat, cursor: nat): (r: Result<Choice, Status>)
    requires Valid(xl, xu) && |xl| > 0 && p.alpha >= 0.0 && PowOk(env.pw)
    ensures r.Failure? ==> r.error == ESanity
    ensures r.Success? ==>
      && r.value.wl >= 0.0 && r.value.wr >= 0.0 && r.value.wl + r.value.wr > 0.0
      && (r.value.found ==> r.value.dim < |xl|)
  {
    var xmid := XMid(p, xl, xu, env.u, cursor);
    var pilot := Corr(env.f, xl, xu, xmid, env.u, cursor + |xl|, est);
    ChooseIsLastMinimum(env.pw, pilot.sigL, pilot.sigR, p.alpha);
    var r := Choose(env.pw, pilot.sigL, pilot.sigR, p.alpha);
    if r.Success? then
      PickedWeights(env.pw, pilot.sigL, pilot.sigR, Beta(p.alpha), r.value);
      r
    else r
  }

  /**
   * One bisection of a box holding at least min_calls_per_bisection calls:
   * the pilot size (GSL_ESANITY below 4 dim), the dithered cuts from `cursor`
   * on, the pilot from the next draw on, the choice of the dimension (drawn
   * with gsl_rng_uniform_int when none is found) and the split of the budget.
   */
  function Bisect(p: Params, env: Env, xl: seq<real>, xu: seq<real>, calls: nat, cursor: nat): (r: Result<Plan, Status>)
    requires Valid(xl, xu) && |xl| > 0 && WellConfigured(p) && p.alpha >= 0.0
    requires RngOk(env) && PowOk(env.pw) && calls >= p.minCallsPerBisection
    ensures r.Failure? ==> r.error == ESanity
    ensures r.Success? ==> Planned(p, xl, xu, calls, r.value) && r.value.cursor > cursor
  {
    var dim := |xl|;
    var est := EstimateCalls(p, calls);
    if est < 4 * dim then Failure(ESanity)
    else
      var choice := PilotChoice(p, env, xl, xu, est, cursor);
      if choice.Failure? then Failure(choice.error)
      else
        XMidInside(p, xl, xu, env.u, cursor);
        Success(Follow(p, env, xl, xu, XMid(p, xl, xu, env.u, cursor), calls, est, cursor + dim + Draws(est, dim), choice.value))
  }

  /** A pilot of 2 dim or more samples around cuts strictly inside the box leaves the choice nothing to fail on. */
  lemma PilotChoiceSucceeds(p: Params, env: Env, xl: seq<real>, xu: seq<real>, est: nat, cursor: nat)
    requires Valid(xl, xu) && |xl| > 0 && p.alpha >= 0.0 && -0.5 < p.dither < 0.5
    requires UnitStream(env.u) && PowOk(env.pw) && est >= 2 * |xl|
    ensures PilotChoice(p, env, xl, xu, est, cursor).Success?
  {
    var xmid := XMid(p, xl, xu, env.u, cursor);
    XMidInside(p, xl, xu, env.u, cursor);
    var pilot := Corr(env.f, xl, xu, xmid, env.u, cursor + |xl|, est);
    CorrUsable(env.f, xl, xu, xmid, env.u, cursor + |xl|, est);
    forall k | 0 <= k < |xl|
      ensures !Negative(pilot.sigL[k]) && !Negative(pilot.sigR[k])
    {
      SigmaTrichotomy(pilot.sigL[k]);
      SigmaTrichotomy(pilot.sigR[k]);
    }
    ChooseIsLastMinimum(env.pw, pilot.sigL, pilot.sigR, p.alpha);
  }

  /** With draws in (0,1) the pilot probes both halves of every cut, so a bisection fails exactly when the pilot is below 4 dim. */
  lemma BisectFailsOnlyWhenShort(p: Params, env: Env, xl: seq<real>, xu: seq<real>, calls: nat, cursor: nat)
    requires Valid(xl, xu) && |xl| > 0 && WellConfigured(p) && p.alpha >= 0.0
    requires RngOk(env) && PowOk(env.pw) && calls >= p.minCallsPerBisection
    ensures Bisect(p, env, xl, xu, calls, cursor).Failure? <==> EstimateCalls(p, calls) < 4 * |xl|
  {
    var est := EstimateCalls(p, calls);
    if est >= 4 * |xl| {
      PilotChoiceSucceeds(p, env, xl, xu, est, cursor);
    }
  }
}

=== FILE: moments.dfy ===
/**
 * The streaming mean/variance recurrence shared by the plain estimator,
 * the stratified sampler's leaves and its pilot pass: on the (n+1)-th value f,
 * d = f - m; m += d/(n+1); q += d*d*(n/(n+1)).
 */
module Moments {
  import opened Numeric

  /** Running mean `m` and running sum of squared deviations `q`. */
  datatype Acc = Acc(m: real, q: real)

  /** The accumulator before any value has been seen. */
  const Empty: Acc := Acc(0.0, 0.0)

  /** Folds the observation `f`, the (n+1)-th one, into `acc`. */
  function Update(acc: Acc, n: nat, f: real): Acc
  {
    var d := f - acc.m;
    Acc(acc.m + d / (n as real + 1.0), acc.q + d * d * ((n as real) / (n as real + 1.0)))
  }

  /**
   * The closed form the accumulator keeps after n values with sum `s` and
   * sum of squares `sq`: m * n == s, and q == sq - m * s (that is, sq - s^2/n).
   */
  ghost predicate Holds(acc: Acc, n: nat, s: real, sq: real)
  {
    if n == 0 then acc == Empty && s == 0.0 && sq == 0.0
    else acc.m * (n as real) == s && acc.q == sq - acc.m * s
  }

  lemma HoldsUnfolded(m: real, q: real, n: nat, s: real, sq: real)
    requires Holds(Acc(m, q), n, s, sq)
    ensures m * (n as real) == s && q == sq - m * s
    ensures n == 0 ==> m == 0.0 && q == 0.0
  {
  }

  /** One step of the recurrence preserves the closed form. */
  lemma UpdateKeepsClosedForm(acc: Acc, n: nat, s: real, sq: real, f: real)
    requires Holds(acc, n, s, sq)
    ensures Holds(Update(acc, n, f), n + 1, s + f, sq + f * f)
  {
    var r := Update(acc, n, f);
    var k := (n + 1) as real;
    HoldsUnfolded(acc.m, acc.q, n, s, sq);
    StepMean(n as real, k, acc.m, s, f, r.m);
    StepDeviation(n as real, k, acc.m, acc.q, s, sq, f, r.m, r.q);
  }

  /** The mean half of one step, on plain reals. */
  lemma StepMean(n: real, k: real, m: real, s: real, f: real, m': real)
    requires n >= 0.0 && k == n + 1.0 && m * n == s
    requires m' == m + (f - m) / (n + 1.0)
    ensures m' * k == s + f
  {
    assert (f - m) / (n + 1.0) * (n + 1.0) == f - m;
  }

  /** The deviation half of one step, on plain reals. */
  lemma StepDeviation(n: real, k: real, m: real, q: real, s: real, sq: real, f: real, m': real, q': real)
    requires n >= 0.0 && k == n + 1.0 && m * n == s && q == sq - m * s
    requires m' * k == s + f
    requires q' == q + (f - m) * (f - m) * (n / (n + 1.0))
    ensures q' == sq + f * f - m' * (s + f)
  {
    var d := f - m;
    assert m' == (s + f) / k;
    assert n / k * k == n;
    assert (q' - (sq + f * f - m' * (s + f))) * k == (q - sq - f * f) * k + d * d * n + (s + f) * (s + f);
    assert (q - sq - f * f) * k + d * d * n + (s + f) * (s + f) == 0.0;
  }

  /** The recurrence run over fs[i..], starting from `acc` after i values. */
  function FoldFrom(fs: seq<real>, i: nat, acc: Acc): Acc
    requires i <= |fs|
    decreases |fs| - i
  {
    if i == |fs| then acc else FoldFrom(fs, i + 1, Update(acc, i, fs[i]))
  }

  /** The recurrence run over all of `fs`, one observation at a time from the front. */
  function Fold(fs: seq<real>): Acc
  {
    FoldFrom(fs, 0, Empty)
  }

  lemma {:induction false} FoldFromHolds(fs: seq<real>, i: nat, acc: Acc)
    requires i <= |fs|
    requires Holds(acc, i, Sum(fs[..i]), SumSq(fs[..i]))
    ensures Holds(FoldFrom(fs, i, acc), |fs|, Sum(fs), SumSq(fs))
    decreases |fs| - i
  {
    if i == |fs| {
      assert fs[..i] == fs;
    } else {
      var x := fs[i];
      assert Sum(fs[..i + 1]) == Sum(fs[..i]) + x && SumSq(fs[..i + 1]) == SumSq(fs[..i]) + x * x by {
        assert fs[..i + 1][..i] == fs[..i];
      }
      assert Holds(Update(acc, i, x), i + 1, Sum(fs[..i + 1]), SumSq(fs[..i + 1])) by {
        UpdateKeepsClosedForm(acc, i, Sum(fs[..i]), SumSq(fs[..i]), x);
      }
      FoldFromHolds(fs, i + 1, Update(acc, i, x));
    }
  }

  /** The folded accumulator keeps the closed form of `fs`. */
  lemma FoldHolds(fs: seq<real>)
    ensures Holds(Fold(fs), |fs|, Sum(fs), SumSq(fs))
  {
    assert fs[..0] == [];
    FoldFromHolds(fs, 0, Empty);
  }

  /** After n > 0 values, `m` is their arithmetic mean and `q` the sum of squared deviations from it. */
  lemma FoldIsMeanAndDeviation(fs: seq<real>)
    requires |fs| > 0
    ensures Fold(fs).m * (|fs| as real) == Sum(fs)
    ensures Fold(fs).q == SqDev(fs, Fold(fs).m) >= 0.0
  {
    FoldHolds(fs);
    HoldsUnfolded(Fold(fs).m, Fold(fs).q, |fs|, Sum(fs), SumSq(fs));
    ClosedFormIsDeviation(fs, Fold(fs).m, Fold(fs).q);
  }

  lemma ClosedFormIsDeviation(fs: seq<real>, m: real, q: real)
    requires m * (|fs| as real) == Sum(fs) && q == SumSq(fs) - m * Sum(fs)
    ensures q == SqDev(fs, m) >= 0.0
  {
    SqDevExpansion(fs, m);
    SqDevIsNonNegative(fs, m);
    CentredArithmetic(|fs| as real, m, q, Sum(fs), SumSq(fs), SqDev(fs, m));
  }

  lemma CentredArithmetic(n: real, m: real, q: real, s: real, sq: real, sd: real)
    requires m * n == s && q == sq - m * s
    requires sd == sq - 2.0 * m * s + n * m * m
    ensures q == sd
  {
  }

  /** Sums of squares dominate squared sums: n * SumSq >= Sum^2. */
  lemma CauchySchwarz(fs: seq<real>)
    ensures (|fs| as real) * SumSq(fs) >= Sum(fs) * Sum(fs)
  {
    if |fs| > 0 {
      var n := |fs| as real;
      var c := Sum(fs) / n;
      DeviationBound(fs, c);
      ScaledNonNegative(n, c, Sum(fs), SumSq(fs));
    }
  }

  /** The expansion of the squared deviation about any centre c is non-negative. */
  lemma DeviationBound(fs: seq<real>, c: real)
    ensures SumSq(fs) - 2.0 * c * Sum(fs) + (|fs| as real) * c * c >= 0.0
  {
    SqDevExpansion(fs, c);
    SqDevIsNonNegative(fs, c);
  }

  lemma ScaledNonNegative(n: real, c: real, s: real, sq: real)
    requires n > 0.0 && c == s / n && sq - 2.0 * c * s + n * c * c >= 0.0
    ensures n * sq >= s * s
  {
    var sd := sq - 2.0 * c * s + n * c * c;
    assert c * n == s;
    assert n * sd >= 0.0;
    assert n * sd == n * sq - s * s;
  }

  /** A constant stream has mean equal to the constant and no deviation. */
  lemma FoldOfConstant(fs: seq<real>, c: real)
    requires |fs| > 0
    requires forall k :: 0 <= k < |fs| ==> fs[k] == c
    ensures Fold(fs) == Acc(c, 0.0)
  {
    var acc := Fold(fs);
    assert Holds(acc, |fs|, Sum(fs), SumSq(fs)) by { FoldHolds(fs); }
    HoldsUnfolded(acc.m, acc.q, |fs|, Sum(fs), SumSq(fs));
    SumOfConstant(fs, c);
    ConstantArithmetic(|fs| as real, acc.m, acc.q, c, Sum(fs), SumSq(fs));
  }

  lemma ConstantArithmetic(n: real, m: real, q: real, c: real, s: real, sq: real)
    requires n > 0.0 && m * n == s && q == sq - m * s
    requires s == n * c && sq == n * c * c
    ensures m == c && q == 0.0
  {
    assert (m - c) * n == 0.0;
  }

  /** The accumulator loop as the source writes it, one observation per iteration. */
  method Stream(fs: seq<real>) returns (m: real, q: real)
    ensures Acc(m, q) == Fold(fs)
    ensures m * (|fs| as real) == Sum(fs)
    ensures q == SumSq(fs) - m * Sum(fs)
  {
    m, q := 0.0, 0.0;
    var n := 0;
    while n < |fs|
      invariant n <= |fs|
      invariant FoldFrom(fs, n, Acc(m, q)) == Fold(fs)
    {
      var next := Update(Acc(m, q), n, fs[n]);
      m, q, n := next.m, next.q, n + 1;
    }
    FoldHolds(fs);
    HoldsUnfolded(m, q, |fs|, Sum(fs), SumSq(fs));
  }

  /**
   * The estimate of a box of volume vol from the values fs: vol times their
   * mean, and the squared absolute error vol^2 q / (n (n - 1)), infinite below two values.
   */
  function Estimate(vol: real, fs: seq<real>): (real, ErrBound)
  {
    (vol * Mean(fs), if |fs| < 2 then PosInf else Finite(ErrorSq(vol, Fold(fs).q, |fs| as real)))
  }

  /** The squared error vol^2 q / (n (n - 1)) of n values with squared deviation sum q. */
  function ErrorSq(vol: real, q: real, n: real): real
    requires n >= 2.0
  {
    vol * vol * q / (n * (n - 1.0))
  }

  /** Unfolds the result half of Estimate, a proof step for callers in other modules; not a property. */
  lemma EstimateResult(vol: real, fs: seq<real>)
    ensures Estimate(vol, fs).0 == vol * Mean(fs)
  {
  }

  /** The estimate is vol times the sample mean. */
  lemma EstimateIsMean(vol: real, fs: seq<real>)
    ensures Estimate(vol, fs).0 * (|fs| as real) == vol * Sum(fs)
  {
    FoldMean(fs);
    ScaledMean(vol, Fold(fs).m, |fs| as real, Sum(fs));
  }

  /** The error is infinite below two values; otherwise its square is the scaled sum of squared deviations. */
  lemma EstimateError(vol: real, fs: seq<real>)
    ensures Estimate(vol, fs).1.PosInf? <==> |fs| < 2
    ensures Estimate(vol, fs).1.Finite? ==>
      Estimate(vol, fs).1.sq == ErrorSq(vol, SqDev(fs, Fold(fs).m), |fs| as real) >= 0.0
  {
    var acc := Fold(fs);
    if |fs| >= 2 {
      FoldIsMeanAndDeviation(fs);
      ErrorNonNegative(vol, acc.q, |fs| as real);
    }
  }

  /** The arithmetic mean of `fs`, read off the folded accumulator (0 for no values). */
  function Mean(fs: seq<real>): (r: real)
    ensures r * (|fs| as real) == Sum(fs)
    ensures |fs| == 0 ==> r == 0.0
  {
    FoldMean(fs);
    Fold(fs).m
  }

  lemma FoldMean(fs: seq<real>)
    ensures Fold(fs).m * (|fs| as real) == Sum(fs)
  {
    FoldHolds(fs);
    HoldsUnfolded(Fold(fs).m, Fold(fs).q, |fs|, Sum(fs), SumSq(fs));
  }

  lemma ScaledMean(vol: real, m: real, n: real, s: real)
    requires m * n == s
    ensures vol * m * n == vol * s
  {
  }

  lemma ErrorNonNegative(vol: real, q: real, n: real)
    requires q >= 0.0 && n >= 2.0
    ensures ErrorSq(vol, q, n) >= 0.0
  {
    var k := n - 1.0;
    assert n * k > 0.0;
    SquareIsNonNegative(vol);
    assert vol * vol * q >= 0.0;
  }

  /** A constant integrand is estimated exactly, with zero error from two values on. */
  lemma EstimateOfConstant(vol: real, fs: seq<real>, c: real)
    requires |fs| > 0
    requires forall k :: 0 <= k < |fs| ==> fs[k] == c
    ensures Estimate(vol, fs).0 == vol * c
    ensures |fs| >= 2 ==> Estimate(vol, fs).1 == Finite(0.0)
  {
    FoldOfConstant(fs, c);
  }
}

=== FILE: numeric.dfy ===
/**
 * Exact-arithmetic stand-ins for the machine numbers of the integrator:
 * IEEE infinity and NaN, C truncation and rounding, size_t wrap-around,
 * and the finite sums the estimators accumulate.
 */
module Numeric {

  /** The largest finite IEEE double, (2^53 - 1) * 2^971, written out exactly. */
  const DblMax: real := 179769313486231570814527423731704356798070567525844996598917476803157260780028538760589558632766878171540458953514382464234321326889464182768467546703537516986049910576551282076245490090389328944075868508455133942304583236903222948165808559332123348274797826204144723168738177180919299881250404026184124858368.0

  /** 2^64: size_t arithmetic wraps modulo this value. */
  const SizeModulus: int := 0x1_0000_0000_0000_0000

  /** A double that is either a number or NaN (the quotient 0.0/0.0). */
  datatype Dbl = Num(v: real) | NaN

  /** An absolute error kept as its square (sqrt is not modelled), or +infinity. */
  datatype ErrBound = Finite(sq: real) | PosInf

  /** Every draw of the stream lies strictly inside (0,1). */
  ghost predicate UnitStream(u: nat -> real)
  {
    forall k: nat :: 0.0 < u(k) < 1.0
  }

  function Abs(x: real): (r: real)
    ensures r >= 0.0
    ensures r == x || r == -x
  {
    if x < 0.0 then -x else x
  }

  function Max(a: real, b: real): (r: real)
    ensures r >= a && r >= b
    ensures r == a || r == b
  {
    if a < b then b else a
  }

  function Min(a: real, b: real): (r: real)
    ensures r <= a && r <= b
    ensures r == a || r == b
  {
    if a < b then a else b
  }

  /** C's conversion of a double to an integer type: truncation toward zero. */
  function Trunc(x: real): (r: int)
    ensures x >= 0.0 ==> 0 <= r && r as real <= x < r as real + 1.0
    ensures x < 0.0 ==> r <= 0 && r as real - 1.0 < x <= r as real
  {
    if x >= 0.0 then x.Floor else -((-x).Floor)
  }

  /** C's std::round: to the nearest integer, halves away from zero. */
  function RoundHalfAway(x: real): (r: int)
    ensures x >= 0.0 ==> r >= 0
    ensures Abs(x - r as real) <= 0.5
    ensures Abs(x - r as real) == 0.5 ==> Abs(r as real) > Abs(x)
  {
    if x >= 0.0 then (x + 0.5).Floor else -((-x + 0.5).Floor)
  }

  /** size_t subtraction a - b, which wraps to 2^64 + a - b when b > a. */
  function SizeSub(a: nat, b: nat): (r: nat)
    requires a < SizeModulus && b < SizeModulus
    ensures r < SizeModulus
    ensures b <= a ==> r == a - b
    ensures b > a ==> r == SizeModulus + a - b
  {
    (a - b) % SizeModulus
  }

  /** Sum of a sequence, accumulated from the front as the source's loops do. */
  function Sum(s: seq<real>): real
  {
    if |s| == 0 then 0.0 else Sum(s[..|s| - 1]) + s[|s| - 1]
  }

  /** Sum of squares of a sequence. */
  function SumSq(s: seq<real>): real
  {
    if |s| == 0 then 0.0 else SumSq(s[..|s| - 1]) + s[|s| - 1] * s[|s| - 1]
  }

  /** Sum of squared deviations from c. */
  function SqDev(s: seq<real>, c: real): real
  {
    if |s| == 0 then 0.0 else SqDev(s[..|s| - 1], c) + (s[|s| - 1] - c) * (s[|s| - 1] - c)
  }

  /** Sum of a sequence of integers. */
  function SumInt(s: seq<int>): int
  {
    if |s| == 0 then 0 else SumInt(s[..|s| - 1]) + s[|s| - 1]
  }

  lemma {:induction false} SqDevIsNonNegative(s: seq<real>, c: real)
    ensures SqDev(s, c) >= 0.0
  {
    if |s| > 0 {
      SqDevIsNonNegative(s[..|s| - 1], c);
      SquareIsNonNegative(s[|s| - 1] - c);
    }
  }

  lemma SquareIsNonNegative(d: real)
    ensures d * d >= 0.0
  {
    if d < 0.0 {
      assert d * d == (-d) * (-d);
    }
  }

  /** The squared deviation expands as SumSq - 2 c Sum + n c^2. */
  lemma {:induction false} SqDevExpansion(s: seq<real>, c: real)
    ensures SqDev(s, c) == SumSq(s) - 2.0 * c * Sum(s) + (|s| as real) * c * c
  {
    if |s| > 0 {
      var p := s[..|s| - 1];
      var x := s[|s| - 1];
      SqDevExpansion(p, c);
      assert (|s| as real) * c * c == (|p| as real) * c * c + c * c;
    }
  }

  /** A constant sequence sums to its length times the constant. */
  lemma {:induction false} SumOfConstant(s: seq<real>, c: real)
    requires forall k :: 0 <= k < |s| ==> s[k] == c
    ensures Sum(s) == (|s| as real) * c
    ensures SumSq(s) == (|s| as real) * c * c
  {
    if |s| > 0 {
      SumOfConstant(s[..|s| - 1], c);
    }
  }

  /** Incrementing one entry raises the integer sum by one. */
  lemma {:induction false} SumIntIncrement(s: seq<int>, i: nat)
    requires i < |s|
    ensures SumInt(s[i := s[i] + 1]) == SumInt(s) + 1
  {
    var t := s[i := s[i] + 1];
    if i == |s| - 1 {
      assert t[..|t| - 1] == s[..|s| - 1];
    } else {
      assert t[..|t| - 1] == s[..|s| - 1][i := s[i] + 1];
      SumIntIncrement(s[..|s| - 1], i);
    }
  }

  /** A sequence of zeros sums to zero. */
  lemma {:induction false} SumIntOfZeros(s: seq<int>)
    requires forall k :: 0 <= k < |s| ==> s[k] == 0
    ensures SumInt(s) == 0
  {
    if |s| > 0 {
      SumIntOfZeros(s[..|s| - 1]);
    }
  }

  /** The tally after `(*(split_dims + i))++`: entry i goes up by one and nothing else changes. */
  function Bump(tally: seq<int>, i: nat): (r: seq<int>)
    requires i < |tally|
    ensures |r| == |tally| && r[i] == tally[i] + 1
    ensures forall k :: 0 <= k < |tally| && k != i ==> r[k] == tally[k]
    ensures SumInt(r) == SumInt(tally) + 1
  {
    SumIntIncrement(tally, i);
    tally[i := tally[i] + 1]
  }
}

=== FILE: plain.dfy ===
/**
 * The plain Monte Carlo estimator with the split diagnostic, as the source
 * writes it: both halves of dimension d are filed in slots d and d + 1 of one
 * array of 2 * dim slots, so dimension d's upper half shares slot d + 1 with
 * dimension d + 1's lower half, and the diagnostic takes C's integer `abs` of
 * a double.
 */
module Plain {
  import opened Numeric
  import opened Wrappers
  import opened Moments
  import opened Box
  import opened Halves

  /**
   * How often one sample x is filed into slot k: once if x is in dimension k's
   * lower half, once more if x is in dimension k - 1's upper half.
   */
  function SlotHits(x: seq<real>, xl: seq<real>, xu: seq<real>, k: nat): nat
    requires |x| == |xl| == |xu|
  {
    (if k < |x| && Lower(x[k], xl[k], xu[k]) then 1 else 0)
    + (if 1 <= k <= |x| && !Lower(x[k - 1], xl[k - 1], xu[k - 1]) then 1 else 0)
  }

  /** f added h times: the contribution of h hits of one sample of value f. */
  function Repeat(h: nat, f: real): real
  {
    if h == 0 then 0.0 else Repeat(h - 1, f) + f
  }

  lemma RepeatSmall(f: real)
    ensures Repeat(0, f) == 0.0 && Repeat(1, f) == f && Repeat(2, f) == f + f
  {
    assert Repeat(1, f) == f;
  }

  /** The hits of slot k after the samples pts. */
  function SlotCount(pts: seq<seq<real>>, xl: seq<real>, xu: seq<real>, k: nat): nat
    requires |xl| == |xu| && Shaped(pts, |xl|)
  {
    if |pts| == 0 then 0
    else SlotCount(pts[..|pts| - 1], xl, xu, k) + SlotHits(pts[|pts| - 1], xl, xu, k)
  }

  /** The value sum of slot k after the samples pts with values vals. */
  function SlotSum(pts: seq<seq<real>>, vals: seq<real>, xl: seq<real>, xu: seq<real>, k: nat): real
    requires |xl| == |xu| && Shaped(pts, |xl|) && |vals| == |pts|
  {
    if |pts| == 0 then 0.0
    else
      var n := |pts| - 1;
      SlotSum(pts[..n], vals[..n], xl, xu, k) + Repeat(SlotHits(pts[n], xl, xu, k), vals[n])
  }

  /** Slot k counts dimension k's lower half plus dimension k - 1's upper half; slots beyond dim count nothing. */
  lemma {:induction false} SlotCountsShareHalves(pts: seq<seq<real>>, vals: seq<real>, xl: seq<real>, xu: seq<real>, k: nat)
    requires |xl| == |xu| && Shaped(pts, |xl|) && |vals| == |pts|
    ensures SlotCount(pts, xl, xu, k) ==
      (if k < |xl| then Buckets(pts, vals, k, xl[k], xu[k]).n0 else 0)
      + (if 1 <= k <= |xl| then Buckets(pts, vals, k - 1, xl[k - 1], xu[k - 1]).n1 else 0)
  {
    if |pts| > 0 {
      var n := |pts| - 1;
      SlotCountsShareHalves(pts[..n], vals[..n], xl, xu, k);
    }
  }

  /** Slot k sums dimension k's lower half plus dimension k - 1's upper half; slots beyond dim stay zero. */
  lemma {:induction false} SlotSumsShareHalves(pts: seq<seq<real>>, vals: seq<real>, xl: seq<real>, xu: seq<real>, k: nat)
    requires |xl| == |xu| && Shaped(pts, |xl|) && |vals| == |pts|
    ensures SlotSum(pts, vals, xl, xu, k) ==
      (if k < |xl| then Buckets(pts, vals, k, xl[k], xu[k]).s0 else 0.0)
      + (if 1 <= k <= |xl| then Buckets(pts, vals, k - 1, xl[k - 1], xu[k - 1]).s1 else 0.0)
  {
    if |pts| > 0 {
      var n := |pts| - 1;
      SlotSumsShareHalves(pts[..n], vals[..n], xl, xu, k);
      RepeatSmall(vals[n]);
    }
  }

  /** The hits filed into slots 0..k-1 for dimensions below d, in one sample. */
  function PartialHits(x: seq<real>, xl: seq<real>, xu: seq<real>, k: nat, d: nat): nat
    requires |x| == |xl| == |xu|
  {
    (if k < d && k < |x| && Lower(x[k], xl[k], xu[k]) then 1 else 0)
    + (if 1 <= k <= d && k <= |x| && !Lower(x[k - 1], xl[k - 1], xu[k - 1]) then 1 else 0)
  }

  /** The slot dimension d of the sample x is filed into. */
  function SlotOf(x: seq<real>, xl: seq<real>, xu: seq<real>, d: nat): nat
    requires |x| == |xl| == |xu| && d < |x|
  {
    if Lower(x[d], xl[d], xu[d]) then d else d + 1
  }

  lemma PartialHitsStep(x: seq<real>, xl: seq<real>, xu: seq<real>, d: nat)
    requires |x| == |xl| == |xu| && d < |x|
    ensures forall k :: PartialHits(x, xl, xu, k, d + 1) == PartialHits(x, xl, xu, k, d) + (if k == SlotOf(x, xl, xu, d) then 1 else 0)
  {
  }

  /** s and n are sums and nr after dimensions 0..d-1 of the sample x with value f were filed. */
  predicate FiledThrough(x: seq<real>, f: real, xl: seq<real>, xu: seq<real>, sums: seq<real>, nr: seq<int>,
                         s: seq<real>, n: seq<int>, d: nat)
    requires |x| == |xl| == |xu|
  {
    && |s| == |sums| == 2 * |x| && |n| == |nr| == 2 * |x|
    && (forall k :: 0 <= k < 2 * |x| ==> n[k] == nr[k] + PartialHits(x, xl, xu, k, d))
    && (forall k :: 0 <= k < 2 * |x| ==> s[k] == sums[k] + Repeat(PartialHits(x, xl, xu, k, d), f))
  }

  /** Filing dimension d into its slot extends the filing from d to d + 1 dimensions. */
  lemma FileStep(x: seq<real>, f: real, xl: seq<real>, xu: seq<real>, sums: seq<real>, nr: seq<int>,
                 s: seq<real>, n: seq<int>, d: nat)
    requires |x| == |xl| == |xu| && d < |x|
    requires FiledThrough(x, f, xl, xu, sums, nr, s, n, d)
    ensures SlotOf(x, xl, xu, d) < |n|
    ensures FiledThrough(x, f, xl, xu, sums, nr, s[SlotOf(x, xl, xu, d) := s[SlotOf(x, xl, xu, d)] + f],
                         Bump(n, SlotOf(x, xl, xu, d)), d + 1)
  {
    PartialHitsStep(x, xl, xu, d);
  }

  /**
   * Files one sample x with value f into the 2 * dim slots, one dimension at a
   * time: each dimension adds f to exactly one slot and raises its count by one.
   */
  method FileSample(x: seq<real>, f: real, xl: seq<real>, xu: seq<real>, sums: seq<real>, nr: seq<int>)
    returns (sums': seq<real>, nr': seq<int>)
    requires |x| == |xl| == |xu| && |sums| == 2 * |x| && |nr| == 2 * |x|
    ensures |sums'| == 2 * |x| && |nr'| == 2 * |x|
    ensures forall k :: 0 <= k < 2 * |x| ==> nr'[k] == nr[k] + SlotHits(x, xl, xu, k)
    ensures forall k :: 0 <= k < 2 * |x| ==> sums'[k] == sums[k] + Repeat(SlotHits(x, xl, xu, k), f)
    ensures SumInt(nr') == SumInt(nr) + |x|
  {
    sums', nr' := sums, nr;
    var d := 0;
    while d < |x|
      invariant d <= |x|
      invariant FiledThrough(x, f, xl, xu, sums, nr, sums', nr', d)
      invariant SumInt(nr') == SumInt(nr) + d
    {
      var slot := SlotOf(x, xl, xu, d);
      FileStep(x, f, xl, xu, sums, nr, sums', nr', d);
      sums' := sums'[slot := sums'[slot] + f];
      nr' := Bump(nr', slot);
      d := d + 1;
    }
    assert forall k :: PartialHits(x, xl, xu, k, |x|) == SlotHits(x, xl, xu, k);
  }

  /**
   * The sampling loop's bookkeeping: the samples filed one after another into
   * zeroed slots; every sample adds one hit per dimension.
   */
  method FileSamples(pts: seq<seq<real>>, vals: seq<real>, xl: seq<real>, xu: seq<real>)
    returns (sums: seq<real>, nr: seq<int>)
    requires |xl| == |xu| && Shaped(pts, |xl|) && |vals| == |pts|
    ensures |sums| == 2 * |xl| && |nr| == 2 * |xl|
    ensures forall k :: 0 <= k < 2 * |xl| ==> nr[k] == SlotCount(pts, xl, xu, k)
    ensures forall k :: 0 <= k < 2 * |xl| ==> sums[k] == SlotSum(pts, vals, xl, xu, k)
    ensures SumInt(nr) == |pts| * |xl|
  {
    sums := seq(2 * |xl|, k => 0.0);
    nr := seq(2 * |xl|, k => 0);
    SumIntOfZeros(nr);
    var n := 0;
    while n < |pts|
      invariant n <= |pts| && |sums| == 2 * |xl| && |nr| == 2 * |xl|
      invariant forall k :: 0 <= k < 2 * |xl| ==> nr[k] == SlotCount(pts[..n], xl, xu, k)
      invariant forall k :: 0 <= k < 2 * |xl| ==> sums[k] == SlotSum(pts[..n], vals[..n], xl, xu, k)
      invariant SumInt(nr) == Draws(n, |xl|)
    {
      SlotCountStep(pts, xl, xu, n);
      SlotSumStep(pts, vals, xl, xu, n);
      sums, nr := FileSample(pts[n], vals[n], xl, xu, sums, nr);
      n := n + 1;
    }
    assert pts[..n] == pts && vals[..n] == vals;
    DrawsIsProduct(n, |xl|);
  }

  /** The slot counts after n + 1 samples: those after n, plus the hits of sample n. */
  lemma SlotCountStep(pts: seq<seq<real>>, xl: seq<real>, xu: seq<real>, n: nat)
    requires |xl| == |xu| && Shaped(pts, |xl|) && n < |pts|
    ensures Shaped(pts[..n], |xl|) && Shaped(pts[..n + 1], |xl|)
    ensures forall k :: SlotCount(pts[..n + 1], xl, xu, k) == SlotCount(pts[..n], xl, xu, k) + SlotHits(pts[n], xl, xu, k)
  {
    assert pts[..n + 1][..n] == pts[..n];
  }

  /** The slot sums after n + 1 samples: those after n, plus the value of sample n once per hit. */
  lemma SlotSumStep(pts: seq<seq<real>>, vals: seq<real>, xl: seq<real>, xu: seq<real>, n: nat)
    requires |xl| == |xu| && Shaped(pts, |xl|) && |vals| == |pts| && n < |pts|
    ensures Shaped(pts[..n], |xl|) && Shaped(pts[..n + 1], |xl|)
    ensures forall k :: SlotSum(pts[..n + 1], vals[..n + 1], xl, xu, k) == SlotSum(pts[..n], vals[..n], xl, xu, k) + Repeat(SlotHits(pts[n], xl, xu, k), vals[n])
  {
    assert pts[..n + 1][..n] == pts[..n] && vals[..n + 1][..n] == vals[..n];
  }

  /** A slot with no hits has a zero sum: slots filed by the sampling loop. */
  predicate Filed(sums: seq<real>, nr: seq<int>)
  {
    |sums| == |nr| && forall k :: 0 <= k < |nr| ==> nr[k] >= 0 && (nr[k] == 0 ==> sums[k] == 0.0)
  }

  lemma {:induction false} EmptySlotIsZero(pts: seq<seq<real>>, vals: seq<real>, xl: seq<real>, xu: seq<real>, k: nat)
    requires |xl| == |xu| && Shaped(pts, |xl|) && |vals| == |pts|
    ensures SlotCount(pts, xl, xu, k) == 0 ==> SlotSum(pts, vals, xl, xu, k) == 0.0
  {
    if |pts| > 0 {
      EmptySlotIsZero(pts[..|pts| - 1], vals[..|pts| - 1], xl, xu, k);
    }
  }

  /**
   * `quad_avgs[k] /= quad_nr[k]` on a double and an int count. A zero count
   * only ever meets a zero sum or a NaN here, and both give NaN.
   */
  function DivCount(x: Dbl, n: int): (r: Dbl)
    ensures r.Num? <==> x.Num? && n != 0
    ensures r.Num? ==> r.v * (n as real) == x.v
  {
    if n == 0 || x.NaN? then NaN else Num(x.v / (n as real))
  }

  /** x divided t times by n. */
  function DivTimes(x: Dbl, n: int, t: nat): Dbl
  {
    if t == 0 then x else DivCount(DivTimes(x, n, t - 1), n)
  }

  /**
   * How often the diagnostic loop has divided slot k after its first d
   * iterations: once as the left slot of iteration k, once as the right slot
   * of iteration k - 1. Every slot 1..dim-1 is divided twice.
   */
  function Divisions(k: nat, d: nat): nat
  {
    (if k < d then 1 else 0) + (if 1 <= k <= d then 1 else 0)
  }

  /**
   * C's `abs` from <stdlib.h> applied to a double: the argument is converted
   * to int (truncated toward zero) before its magnitude is taken.
   */
  function CIntAbs(x: real): (r: nat)
    ensures r as real <= Abs(x) < r as real + 1.0
  {
    var t := Trunc(x);
    if t < 0 then -t else t
  }

  /**
   * The diff the diagnostic compares. None stands for a NaN operand: its
   * conversion to int is undefined in C, and the model lets it lose every
   * comparison, as INT_MIN does on common targets.
   */
  function IntAbsGap(a: Dbl, b: Dbl): (r: Option<real>)
    ensures r.Some? <==> a.Num? && b.Num?
    ensures r.Some? ==> r.value >= 0.0 && r.value == CIntAbs(a.v - b.v) as real
  {
    if a.Num? && b.Num? then Some(CIntAbs(a.v - b.v) as real) else None
  }

  /** The diff of iteration d: slot d, divided for the second time unless d is 0, against slot d + 1, divided once. */
  function GapAsWritten(sums: seq<real>, nr: seq<int>, d: nat): Option<real>
    requires d + 1 < |sums| == |nr|
  {
    IntAbsGap(DivTimes(Num(sums[d]), nr[d], if d == 0 then 1 else 2), DivTimes(Num(sums[d + 1]), nr[d + 1], 1))
  }

  function GapsAsWritten(sums: seq<real>, nr: seq<int>, dim: nat): (gaps: seq<Option<real>>)
    requires |sums| == |nr| == 2 * dim
    ensures |gaps| == dim && NonNegative(gaps)
    ensures forall d :: 0 <= d < dim ==> gaps[d] == GapAsWritten(sums, nr, d)
  {
    seq(dim, d requires 0 <= d < dim => GapAsWritten(sums, nr, d))
  }

  /** The split dimension the source reports: the first maximum of its diffs, an index below dim. */
  function DiagAsWritten(sums: seq<real>, nr: seq<int>, dim: nat): (r: nat)
    requires |sums| == |nr| == 2 * dim && dim >= 1
    ensures r < dim
    ensures (exists d :: 0 <= d < dim && GapAsWritten(sums, nr, d).Some?) ==> IsFirstMax(GapsAsWritten(sums, nr, dim), r)
  {
    FirstMaxIsFirstMaximum(GapsAsWritten(sums, nr, dim));
    FirstMax(GapsAsWritten(sums, nr, dim))
  }

  /**
   * The diagnostic loop with its in-place divisions and running maximum
   * (max_diff starting at -1, replaced only by a strictly larger diff).
   */
  method DiagInPlace(sums: seq<real>, nr: seq<int>, dim: nat) returns (idx: nat)
    requires |sums| == |nr| == 2 * dim && dim >= 1
    ensures idx == DiagAsWritten(sums, nr, dim) && idx < dim
  {
    var avgs := seq(2 * dim, k requires 0 <= k < 2 * dim => Num(sums[k]));
    var best := -1.0;
    idx := 0;
    ghost var gaps := GapsAsWritten(sums, nr, dim);
    var d := 0;
    while d < dim
      invariant d <= dim && |avgs| == 2 * dim
      invariant forall k :: 0 <= k < 2 * dim ==> avgs[k] == DivTimes(Num(sums[k]), nr[k], Divisions(k, d))
      invariant FirstMaxFrom(gaps, d, best, idx) == FirstMax(gaps)
    {
      avgs := avgs[d := DivCount(avgs[d], nr[d])];
      avgs := avgs[d + 1 := DivCount(avgs[d + 1], nr[d + 1])];
      var gap := IntAbsGap(avgs[d], avgs[d + 1]);
      assert gap == gaps[d];
      if gap.Some? && best < gap.value {
        best, idx := gap.value, d;
      }
      d := d + 1;
    }
  }

  /** The slot sums of the sampling loop, slot by slot. */
  function SlotSums(pts: seq<seq<real>>, vals: seq<real>, xl: seq<real>, xu: seq<real>): (sums: seq<real>)
    requires |xl| == |xu| && Shaped(pts, |xl|) && |vals| == |pts|
    ensures |sums| == 2 * |xl|
  {
    seq(2 * |xl|, k requires 0 <= k < 2 * |xl| => SlotSum(pts, vals, xl, xu, k))
  }

  /** The slot counts of the sampling loop, slot by slot. */
  function SlotCounts(pts: seq<seq<real>>, xl: seq<real>, xu: seq<real>): (nr: seq<int>)
    requires |xl| == |xu| && Shaped(pts, |xl|)
    ensures |nr| == 2 * |xl|
  {
    seq(2 * |xl|, k requires 0 <= k < 2 * |xl| => SlotCount(pts, xl, xu, k))
  }

  /** The slots the sampling loop fills are Filed: an empty slot holds a zero sum, so its division is 0/0. */
  lemma SlotsAreFiled(pts: seq<seq<real>>, vals: seq<real>, xl: seq<real>, xu: seq<real>)
    requires |xl| == |xu| && Shaped(pts, |xl|) && |vals| == |pts|
    ensures Filed(SlotSums(pts, vals, xl, xu), SlotCounts(pts, xl, xu))
  {
    forall k | 0 <= k < 2 * |xl|
      ensures SlotCount(pts, xl, xu, k) == 0 ==> SlotSum(pts, vals, xl, xu, k) == 0.0
    {
      EmptySlotIsZero(pts, vals, xl, xu, k);
    }
  }

  /** The per-dimension half buckets of all samples, as the paired layout keeps them. */
  function PairsOf(pts: seq<seq<real>>, vals: seq<real>, xl: seq<real>, xu: seq<real>): (pairs: seq<Pair>)
    requires |xl| == |xu| && Shaped(pts, |xl|) && |vals| == |pts|
    ensures |pairs| == |xl|
    ensures forall d :: 0 <= d < |xl| ==> pairs[d] == Buckets(pts, vals, d, xl[d], xu[d])
  {
    seq(|xl|, d requires 0 <= d < |xl| => Buckets(pts, vals, d, xl[d], xu[d]))
  }

  lemma PointsShaped(xl: seq<real>, xu: seq<real>, u: nat -> real, cursor: nat, calls: nat)
    requires |xl| == |xu|
    ensures Shaped(Points(xl, xu, u, cursor, calls), |xl|)
  {
  }

  /** The two diagnostics: the source's shared slots with integer abs, or one pair of halves per dimension with real abs. */
  datatype Diagnostic = SharedSlots | PairedHalves

  /** The split dimension a diagnostic reports for the samples pts with values vals. */
  function SplitDimOf(diag: Diagnostic, pts: seq<seq<real>>, vals: seq<real>, xl: seq<real>, xu: seq<real>): (r: nat)
    requires |xl| == |xu| >= 1 && Shaped(pts, |xl|) && |vals| == |pts|
    ensures r < |xl|
  {
    match diag
    case SharedSlots => DiagAsWritten(SlotSums(pts, vals, xl, xu), SlotCounts(pts, xl, xu), |xl|)
    case PairedHalves => SplitDim(PairsOf(pts, vals, xl, xu))
  }

  /** The split dimension a diagnostic reports for `calls` points drawn from the stream at `cursor`. */
  function Diagnose(diag: Diagnostic, f: seq<real> -> real, xl: seq<real>, xu: seq<real>,
                    calls: nat, u: nat -> real, cursor: nat): (r: nat)
    requires |xl| == |xu| >= 1
    ensures r < |xl|
  {
    var pts := Points(xl, xu, u, cursor, calls);
    PointsShaped(xl, xu, u, cursor, calls);
    SplitDimOf(diag, pts, Values(f, pts), xl, xu)
  }

  datatype Status = EInval

  /** A successful run: the estimate, its squared error, the updated split tally and the stream cursor after it. */
  datatype Outcome = Outcome(result: real, err: ErrBound, tally: seq<int>, cursor: nat)

  /**
   * gsl_monte_plain_integrate2 with dim == |xl|: argument checks, `calls`
   * uniform points, the running mean and variance, and one increment of the
   * split tally at the dimension the diagnostic reports.
   */
  function Integrate(diag: Diagnostic, f: seq<real> -> real, xl: seq<real>, xu: seq<real>, stateDim: nat,
                     calls: nat, u: nat -> real, cursor: nat, tally: seq<int>): (r: Result<Outcome, Status>)
    requires |xl| == |xu| >= 1 && |tally| == |xl|
    ensures r.Failure? <==> |xl| != stateDim || !Valid(xl, xu)
    ensures r.Success? ==> r.value.cursor == cursor + Draws(calls, |xl|)
  {
    if |xl| != stateDim || !Valid(xl, xu) then Failure(EInval)
    else
      var est := Estimate(Volume(xl, xu), Sampled(f, xl, xu, calls, u, cursor));
      var i := Diagnose(diag, f, xl, xu, calls, u, cursor);
      Success(Outcome(est.0, est.1, Bump(tally, i), cursor + Draws(calls, |xl|)))
  }

  /**
   * A successful run reports the volume times the mean m of the sampled
   * values: m times calls is their sum, and the result is 0 after no calls.
   */
  lemma IntegrateIsMean(diag: Diagnostic, f: seq<real> -> real, xl: seq<real>, xu: seq<real>, stateDim: nat,
                        calls: nat, u: nat -> real, cursor: nat, tally: seq<int>, o: Outcome)
    requires |xl| == |xu| >= 1 && |tally| == |xl|
    requires Integrate(diag, f, xl, xu, stateDim, calls, u, cursor, tally) == Success(o)
    ensures o.result == Volume(xl, xu) * Mean(Sampled(f, xl, xu, calls, u, cursor))
    ensures calls == 0 ==> o.result == 0.0
  {
    IntegrateReads(diag, f, xl, xu, stateDim, calls, u, cursor, tally);
    var vals := Sampled(f, xl, xu, calls, u, cursor);
    EstimateResult(Volume(xl, xu), vals);
    if calls == 0 {
      assert Mean(vals) == 0.0;
    }
  }

  /**
   * The error of a successful run is +infinity exactly below two calls, and
   * otherwise the scaled sum of squared deviations of the sampled values.
   */
  lemma IntegrateError(diag: Diagnostic, f: seq<real> -> real, xl: seq<real>, xu: seq<real>, stateDim: nat,
                       calls: nat, u: nat -> real, cursor: nat, tally: seq<int>, o: Outcome)
    requires |xl| == |xu| >= 1 && |tally| == |xl|
    requires Integrate(diag, f, xl, xu, stateDim, calls, u, cursor, tally) == Success(o)
    ensures o.err.PosInf? <==> calls < 2
    ensures var vals := Sampled(f, xl, xu, calls, u, cursor);
            calls >= 2 ==> o.err.Finite? && o.err.sq == ErrorSq(Volume(xl, xu), SqDev(vals, Fold(vals).m), calls as real) >= 0.0
  {
    IntegrateReads(diag, f, xl, xu, stateDim, calls, u, cursor, tally);
    EstimateError(Volume(xl, xu), Sampled(f, xl, xu, calls, u, cursor));
  }

  /** Unfolds a successful run into the estimate of the sampled values, a proof step for the lemmas above; not a property. */
  lemma IntegrateReads(diag: Diagnostic, f: seq<real> -> real, xl: seq<real>, xu: seq<real>, stateDim: nat,
                       calls: nat, u: nat -> real, cursor: nat, tally: seq<int>)
    requires |xl| == |xu| >= 1 && |tally| == |xl|
    requires Integrate(diag, f, xl, xu, stateDim, calls, u, cursor, tally).Success?
    ensures var o := Integrate(diag, f, xl, xu, stateDim, calls, u, cursor, tally).value;
      (o.result, o.err) == Estimate(Volume(xl, xu), Sampled(f, xl, xu, calls, u, cursor))
  {
  }

  /**
   * A successful run raises exactly one tally entry by one: the dimension its
   * diagnostic reports for the sampled points. Every other entry is unchanged.
   */
  lemma IntegrateTally(diag: Diagnostic, f: seq<real> -> real, xl: seq<real>, xu: seq<real>, stateDim: nat,
                       calls: nat, u: nat -> real, cursor: nat, tally: seq<int>)
    requires |xl| == |xu| >= 1 && |tally| == |xl|
    requires Integrate(diag, f, xl, xu, stateDim, calls, u, cursor, tally).Success?
    ensures var t := Integrate(diag, f, xl, xu, stateDim, calls, u, cursor, tally).value.tally;
            var i := Diagnose(diag, f, xl, xu, calls, u, cursor);
      && |t| == |tally| && SumInt(t) == SumInt(tally) + 1
      && i < |tally| && t[i] == tally[i] + 1
      && forall k :: 0 <= k < |tally| && k != i ==> t[k] == tally[k]
  {
    var i := Diagnose(diag, f, xl, xu, calls, u, cursor);
    assert Integrate(diag, f, xl, xu, stateDim, calls, u, cursor, tally).value.tally == Bump(tally, i);
  }

  /** The dimension a run raises, spelled out: the first largest gap of the diagnostic it was built with. */
  lemma IntegrateTallyDiagnosed(diag: Diagnostic, f: seq<real> -> real, xl: seq<real>, xu: seq<real>, stateDim: nat,
                                calls: nat, u: nat -> real, cursor: nat, tally: seq<int>)
    requires |xl| == |xu| >= 1 && |tally| == |xl|
    requires Integrate(diag, f, xl, xu, stateDim, calls, u, cursor, tally).Success?
    ensures var pts := Points(xl, xu, u, cursor, calls);
            var t := Integrate(diag, f, xl, xu, stateDim, calls, u, cursor, tally).value.tally;
      && Shaped(pts, |xl|)
      && (diag == SharedSlots ==>
            t == Bump(tally, DiagAsWritten(SlotSums(pts, Values(f, pts), xl, xu), SlotCounts(pts, xl, xu), |xl|)))
      && (diag == PairedHalves ==> t == Bump(tally, SplitDim(PairsOf(pts, Values(f, pts), xl, xu))))
  {
    PointsShaped(xl, xu, u, cursor, calls);
  }

  /*
   * A witness for the shared slots: on the unit square, three samples with
   * coordinates p in the lower and q in the upper half, (p, p) -> 0,
   * (q, p) -> 10 and (p, q) -> 8. Per dimension, the half averages are 4 | 10
   * in dimension 0 and 5 | 8 in dimension 1, so dimension 0 differs most; the
   * shared slots report dimension 1.
   */
  const WitnessLower: seq<real> := [0.0, 0.0]
  const WitnessUpper: seq<real> := [1.0, 1.0]
  const WitnessValues: seq<real> := [0.0, 10.0, 8.0]

  function WitnessPoints(p: real, q: real): seq<seq<real>>
  {
    [[p, p], [q, p], [p, q]]
  }

  /** A lower-half coordinate p and an upper-half coordinate q of the unit interval. */
  predicate Halved(p: real, q: real)
  {
    Lower(p, 0.0, 1.0) && !Lower(q, 0.0, 1.0)
  }

  lemma WitnessSlots(p: real, q: real)
    requires Halved(p, q)
    ensures Shaped(WitnessPoints(p, q), 2)
    ensures SlotCounts(WitnessPoints(p, q), WitnessLower, WitnessUpper) == [2, 3, 1, 0]
    ensures SlotSums(WitnessPoints(p, q), WitnessValues, WitnessLower, WitnessUpper) == [8.0, 20.0, 8.0, 0.0]
  {
    var pts, vals, xl, xu := WitnessPoints(p, q), WitnessValues, WitnessLower, WitnessUpper;
    assert pts[..2][..1] == pts[..1] && pts[..1][..0] == [] && pts[..3] == pts;
    assert vals[..2][..1] == vals[..1] && vals[..1][..0] == [] && vals[..3] == vals;
    forall k | 0 <= k < 4
      ensures SlotCount(pts, xl, xu, k) == [2, 3, 1, 0][k]
      ensures SlotSum(pts, vals, xl, xu, k) == [8.0, 20.0, 8.0, 0.0][k]
    {
      assert SlotCount(pts[..1], xl, xu, k) == SlotHits(pts[0], xl, xu, k);
      assert SlotCount(pts[..2], xl, xu, k) == SlotHits(pts[0], xl, xu, k) + SlotHits(pts[1], xl, xu, k);
      assert SlotSum(pts[..1], vals[..1], xl, xu, k) == Repeat(SlotHits(pts[0], xl, xu, k), vals[0]);
      assert SlotSum(pts[..2], vals[..2], xl, xu, k) == Repeat(SlotHits(pts[0], xl, xu, k), vals[0]) + Repeat(SlotHits(pts[1], xl, xu, k), vals[1]);
      RepeatSmall(vals[0]);
      RepeatSmall(vals[1]);
      RepeatSmall(vals[2]);
    }
  }

  /** The shared slots of the witness report dimension 1: iteration 0 compares 4 with 20/3, iteration 1 compares 20/9 with 8. */
  lemma SharedSlotsWitness()
    ensures DiagAsWritten([8.0, 20.0, 8.0, 0.0], [2, 3, 1, 0], 2) == 1
  {
    var sums, nr := [8.0, 20.0, 8.0, 0.0], [2, 3, 1, 0];
    assert DivTimes(Num(8.0), 2, 1) == Num(4.0);
    assert DivTimes(Num(20.0), 3, 1) == Num(20.0 / 3.0);
    assert DivTimes(Num(20.0), 3, 2) == Num(20.0 / 9.0);
    assert DivTimes(Num(8.0), 1, 1) == Num(8.0);
    assert Trunc(4.0 - 20.0 / 3.0) == -2;
    assert Trunc(20.0 / 9.0 - 8.0) == -5;
    var gaps := GapsAsWritten(sums, nr, 2);
    assert gaps == [Some(2.0), Some(5.0)];
  }

  /** The buckets of three samples classify them in order. */
  lemma BucketsOfThree(a: seq<real>, b: seq<real>, c: seq<real>, fa: real, fb: real, fc: real, d: nat, lo: real, hi: real)
    requires d < |a| && d < |b| && d < |c|
    ensures HasCoord([a, b, c], d)
    ensures Buckets([a, b, c], [fa, fb, fc], d, lo, hi)
      == Classify(Classify(Classify(NoHits, a[d], lo, hi, fa), b[d], lo, hi, fb), c[d], lo, hi, fc)
  {
    var e: seq<seq<real>>, ev: seq<real> := [], [];
    assert e + [a] == [a] && ev + [fa] == [fa];
    assert [a] + [b] == [a, b] && [fa] + [fb] == [fa, fb];
    assert [a, b] + [c] == [a, b, c] && [fa, fb] + [fc] == [fa, fb, fc];
    BucketsAppend(e, ev, d, lo, hi, a, fa);
    BucketsAppend([a], [fa], d, lo, hi, b, fb);
    BucketsAppend([a, b], [fa, fb], d, lo, hi, c, fc);
  }

  lemma WitnessPairs(p: real, q: real)
    requires Halved(p, q)
    ensures Shaped(WitnessPoints(p, q), 2)
    ensures PairsOf(WitnessPoints(p, q), WitnessValues, WitnessLower, WitnessUpper) == [Pair(2, 1, 8.0, 10.0), Pair(2, 1, 10.0, 8.0)]
  {
    var a, b, c := [p, p], [q, p], [p, q];
    BucketsOfThree(a, b, c, 0.0, 10.0, 8.0, 0, 0.0, 1.0);
    BucketsOfThree(a, b, c, 0.0, 10.0, 8.0, 1, 0.0, 1.0);
  }

  /** Per-dimension halves pick dimension 0 for the witness (gaps 6 and 3). */
  lemma PairedHalvesWitness()
    ensures SplitDim([Pair(2, 1, 8.0, 10.0), Pair(2, 1, 10.0, 8.0)]) == 0
  {
    var pairs := [Pair(2, 1, 8.0, 10.0), Pair(2, 1, 10.0, 8.0)];
    assert Gaps(pairs) == [Some(6.0), Some(3.0)];
  }

  /**
   * The same samples give different split dimensions: the shared slots report
   * dimension 1, the per-dimension halves dimension 0, whose half averages
   * differ most.
   */
  lemma SharedSlotsMisdirect(p: real, q: real)
    requires Halved(p, q)
    ensures Shaped(WitnessPoints(p, q), 2)
    ensures SplitDimOf(SharedSlots, WitnessPoints(p, q), WitnessValues, WitnessLower, WitnessUpper) == 1
    ensures SplitDimOf(PairedHalves, WitnessPoints(p, q), WitnessValues, WitnessLower, WitnessUpper) == 0
  {
    WitnessSlots(p, q);
    SharedSlotsWitness();
    WitnessPairs(p, q);
    PairedHalvesWitness();
  }

  /** Averages closer than 1 look equal to the integer `abs`: their diff is 0 whatever they are. */
  lemma SubunitGapIsZero(a: real, b: real)
    requires -1.0 < a - b < 1.0
    ensures IntAbsGap(Num(a), Num(b)) == Some(0.0)
  {
  }

  /**
   * Dimension 1's averages differ by 0.9 and dimension 0's by 0.5, but the
   * integer `abs` turns both into 0 and the first one wins; the real
   * distances pick dimension 1.
   */
  lemma IntAbsHidesLargerGap()
    ensures FirstMax([IntAbsGap(Num(1.5), Num(1.0)), IntAbsGap(Num(2.9), Num(2.0))]) == 0
    ensures FirstMax([Gap(Pair(1, 1, 1.5, 1.0)), Gap(Pair(1, 1, 2.9, 2.0))]) == 1
  {
    SubunitGapIsZero(1.5, 1.0);
    SubunitGapIsZero(2.9, 2.0);
    assert Gap(Pair(1, 1, 1.5, 1.0)) == Some(0.5);
    assert Gap(Pair(1, 1, 2.9, 2.0)) == Some(0.9);
  }
}

=== FILE: requests.dfy ===
/**
 * The request line shared by every driver: `calls min0 max0 min1 max1 ...`.
 * A line is seen as the sequence of numbers read from it before the first
 * token that is not a number (the stream stops there).
 */
module Requests {
  /** What one line asks for: stop the loop, fail on an unpaired bound, or integrate a box. */
  datatype Line = Stop | Unpaired | Request(calls: real, mins: seq<real>, maxs: seq<real>)

  /** The bound loop: numbers alternate between mins and maxs; a last lone number is a min without a max. */
  function Bounds(ts: seq<real>): (r: (seq<real>, seq<real>))
    ensures |r.0| == (|ts| + 1) / 2 && |r.1| == |ts| / 2
    ensures forall i :: 0 <= i < |r.0| ==> r.0[i] == ts[2 * i]
    ensures forall i :: 0 <= i < |r.1| ==> r.1[i] == ts[2 * i + 1]
  {
    if |ts| == 0 then ([], [])
    else if |ts| == 1 then ([ts[0]], [])
    else
      var rest := Bounds(ts[2..]);
      ([ts[0]] + rest.0, [ts[1]] + rest.1)
  }

  /**
   * One line: the first number is calls (0 when there is none); no bounds at
   * all ends the loop, more mins than maxs fails, anything else is a request.
   */
  function ParseLine(ts: seq<real>): (l: Line)
    ensures l == Stop <==> |ts| <= 1
    ensures l == Unpaired <==> |ts| >= 2 && |ts| % 2 == 0
    ensures l.Request? ==> l.calls == ts[0] && |l.mins| == |l.maxs| == (|ts| - 1) / 2 > 0
    ensures l.Request? ==> forall i :: 0 <= i < |l.mins| ==> l.mins[i] == ts[2 * i + 1] && l.maxs[i] == ts[2 * i + 2]
  {
    var calls := if |ts| == 0 then 0.0 else ts[0];
    var b := Bounds(if |ts| == 0 then [] else ts[1..]);
    if |b.0| == 0 then Stop
    else if |b.0| != |b.1| then Unpaired
    else Request(calls, b.0, b.1)
  }

  /** The extents of a box as (min, max) pairs, one per dimension. */
  function Mins(ext: seq<(real, real)>): (r: seq<real>)
    ensures |r| == |ext| && forall i :: 0 <= i < |ext| ==> r[i] == ext[i].0
  {
    seq(|ext|, i requires 0 <= i < |ext| => ext[i].0)
  }

  function Maxs(ext: seq<(real, real)>): (r: seq<real>)
    ensures |r| == |ext| && forall i :: 0 <= i < |ext| ==> r[i] == ext[i].1
  {
    seq(|ext|, i requires 0 <= i < |ext| => ext[i].1)
  }

  /** The numbers of the extents in writing order: min then max of each dimension. */
  function Flatten(ext: seq<(real, real)>): (ts: seq<real>)
    ensures |ts| == 2 * |ext|
  {
    if |ext| == 0 then [] else [ext[0].0, ext[0].1] + Flatten(ext[1..])
  }

  lemma {:induction false} FlattenAt(ext: seq<(real, real)>, i: nat)
    requires i < |ext|
    ensures Flatten(ext)[2 * i] == ext[i].0 && Flatten(ext)[2 * i + 1] == ext[i].1
  {
    if i > 0 {
      FlattenAt(ext[1..], i - 1);
      assert Flatten(ext) == [ext[0].0, ext[0].1] + Flatten(ext[1..]);
    }
  }

  /** A request line as the adaptive driver writes it: the budget, then min and max of every extent. */
  function Format(calls: real, ext: seq<(real, real)>): (ts: seq<real>)
    ensures |ts| == 1 + 2 * |ext|
  {
    [calls] + Flatten(ext)
  }

  /** Reading a written request gives back the budget and the extents; a box without extents reads as the end of input. */
  lemma ParseFormat(calls: real, ext: seq<(real, real)>)
    ensures |ext| == 0 ==> ParseLine(Format(calls, ext)) == Stop
    ensures |ext| > 0 ==> ParseLine(Format(calls, ext)) == Request(calls, Mins(ext), Maxs(ext))
  {
    var ts := Format(calls, ext);
    if |ext| > 0 {
      var l := ParseLine(ts);
      forall i | 0 <= i < |ext|
        ensures l.mins[i] == ext[i].0 && l.maxs[i] == ext[i].1
      {
        FlattenAt(ext, i);
        assert ts[2 * i + 1] == Flatten(ext)[2 * i];
        assert ts[2 * i + 2] == Flatten(ext)[2 * i + 1];
      }
    }
  }

  /** The extents of a parsed request, paired again. */
  function Extents(mins: seq<real>, maxs: seq<real>): (ext: seq<(real, real)>)
    requires |mins| == |maxs|
    ensures Mins(ext) == mins && Maxs(ext) == maxs
  {
    seq(|mins|, i requires 0 <= i < |mins| => (mins[i], maxs[i]))
  }

  /** Pairing an even number of bounds and flattening the pairs again gives the same numbers. */
  lemma {:induction false} FlattenBounds(ts: seq<real>)
    requires |ts| % 2 == 0
    ensures |Bounds(ts).0| == |Bounds(ts).1|
    ensures Flatten(Extents(Bounds(ts).0, Bounds(ts).1)) == ts
  {
    if |ts| > 0 {
      var b, r := Bounds(ts), Bounds(ts[2..]);
      FlattenBounds(ts[2..]);
      assert Extents(b.0, b.1) == [(ts[0], ts[1])] + Extents(r.0, r.1);
      assert ts == [ts[0], ts[1]] + ts[2..];
    }
  }

  /** Conversely, writing a parsed request back gives the very numbers that were read. */
  lemma FormatParse(ts: seq<real>)
    requires ParseLine(ts).Request?
    ensures Format(ParseLine(ts).calls, Extents(ParseLine(ts).mins, ParseLine(ts).maxs)) == ts
  {
    FlattenBounds(ts[1..]);
    assert ts == [ts[0]] + ts[1..];
  }

  /** Every dimension's lower bound lies below its upper bound. */
  predicate Ordered(mins: seq<real>, maxs: seq<real>)
  {
    |mins| == |maxs| && forall i :: 0 <= i < |mins| ==> mins[i] < maxs[i]
  }
}

=== FILE: turbulence.dfy ===
/**
 * The turbulence integrator's own plain Monte Carlo estimate: a mean over
 * freshly seeded uniform samples of a weighted integrand, with one pair of
 * half buckets per dimension for the split diagnostic.
 */
module Turbulence {
  import opened Numeric
  import opened Wrappers
  import opened Box
  import opened Halves

  /**
   * How a call dies instead of returning: abort() on mismatched bounds or a
   * correlation index out of range, an unchecked read past the sample vector
   * when there are fewer than two dimensions, or a uniform distribution built
   * outside its precondition (both undefined behaviour).
   */
  datatype Fault = Abort | OutOfRange | BadDistribution

  /**
   * std::uniform_real_distribution(a, b) requires a <= b and b - a <= DBL_MAX;
   * one is built per dimension before any sample is drawn, and nothing checks
   * the bounds first.
   */
  predicate DistributionsOk(rMin: seq<real>, rMax: seq<real>)
    requires |rMin| == |rMax|
  {
    forall i :: 0 <= i < |rMin| ==> rMin[i] <= rMax[i] && rMax[i] - rMin[i] <= DblMax
  }

  /** What a call returns: the average (NaN after no samples) and the suggested split dimension. */
  datatype Outcome = Outcome(average: Dbl, splitDim: nat)

  /** Both correlation indices are non-negative and one of them is not a dimension. */
  predicate CorrOutOfRange(corr1: int, corr2: int, ndims: nat)
  {
    corr1 >= 0 && corr2 >= 0 && (corr1 >= ndims || corr2 >= ndims)
  }

  /**
   * The weight of a sample r: 1 when either correlation index is negative,
   * an abort when one is out of range, and otherwise the product of the two
   * correlated coordinates.
   */
  function Weight(corr1: int, corr2: int, r: seq<real>): (w: Result<real, Fault>)
    ensures w.Failure? <==> CorrOutOfRange(corr1, corr2, |r|)
    ensures w.Failure? ==> w.error == Abort
    ensures corr1 < 0 || corr2 < 0 ==> w == Success(1.0)
  {
    if corr1 < 0 || corr2 < 0 then Success(1.0)
    else if corr1 >= |r| || corr2 >= |r| then Failure(Abort)
    else Success(r[corr1] * r[corr2])
  }

  /** The weight of a sample depends on its two correlated coordinates only. */
  lemma WeightReadsTwoCoordinates(corr1: int, corr2: int, r: seq<real>, s: seq<real>)
    requires 0 <= corr1 < |r| && 0 <= corr2 < |r| && |s| == |r|
    requires r[corr1] == s[corr1] && r[corr2] == s[corr2]
    ensures Weight(corr1, corr2, r) == Weight(corr1, corr2, s)
  {
    WeightInRange(corr1, corr2, r);
    WeightInRange(corr1, corr2, s);
    assert r[corr1] * r[corr2] == s[corr1] * s[corr2];
  }

  lemma WeightInRange(corr1: int, corr2: int, r: seq<real>)
    requires 0 <= corr1 < |r| && 0 <= corr2 < |r|
    ensures Weight(corr1, corr2, r) == Success(r[corr1] * r[corr2])
  {
  }

  /** The fixed reads of the exponent: r[0], r[1], r[ndims - 1] and r[ndims - 2], in size_t arithmetic. */
  function FrameReads(ndims: nat): seq<nat>
    requires ndims < SizeModulus
  {
    [0, 1, SizeSub(ndims, 1), SizeSub(ndims, 2)]
  }

  /** The reads of the exponent's loop body at d: r[d - 1], r[d], r[d + 1]. */
  function LoopReads(d: nat): seq<nat>
    requires d >= 1
  {
    [d - 1, d, d + 1]
  }

  /** Every read of the exponent factor lands inside the sample vector; the loop runs d = 1 .. ndims - 2. */
  predicate ReadsInBounds(ndims: nat)
    requires ndims < SizeModulus
  {
    (forall k :: 0 <= k < 4 ==> FrameReads(ndims)[k] < ndims)
    && (forall d: nat :: 1 <= d < SizeSub(ndims, 1) ==> forall k :: 0 <= k < 3 ==> LoopReads(d)[k] < ndims)
  }

  /** The reads are in bounds exactly when there are at least two dimensions, which nothing checks. */
  lemma ReadsInBoundsIffTwo(ndims: nat)
    requires ndims < SizeModulus
    ensures ReadsInBounds(ndims) <==> ndims >= 2
  {
    if ndims < 2 {
      assert FrameReads(ndims)[1] == 1;
    } else {
      forall d: nat | 1 <= d < SizeSub(ndims, 1)
        ensures forall k :: 0 <= k < 3 ==> LoopReads(d)[k] < ndims
      {
        assert d + 1 < ndims;
      }
    }
  }

  /** The value of every sample: its weight times the integrand factor g. */
  function SampleValues(corr1: int, corr2: int, g: seq<real> -> real, pts: seq<seq<real>>, ndims: nat): (vals: seq<real>)
    requires Shaped(pts, ndims) && (|pts| > 0 ==> !CorrOutOfRange(corr1, corr2, ndims))
    ensures |vals| == |pts|
    ensures forall n :: 0 <= n < |pts| ==> Weight(corr1, corr2, pts[n]).Success?
    ensures forall n :: 0 <= n < |pts| ==> vals[n] == Weight(corr1, corr2, pts[n]).value * g(pts[n])
  {
    seq(|pts|, n requires 0 <= n < |pts| => Weight(corr1, corr2, pts[n]).value * g(pts[n]))
  }

  /** The half buckets of every dimension after the samples. */
  function Tallies(rMin: seq<real>, rMax: seq<real>, pts: seq<seq<real>>, vals: seq<real>): (pairs: seq<Pair>)
    requires |rMin| == |rMax| && |pts| == |vals| && Shaped(pts, |rMin|)
    ensures |pairs| == |rMin|
    ensures forall d :: 0 <= d < |rMin| ==> pairs[d].n0 + pairs[d].n1 == |pts|
    ensures forall d :: 0 <= d < |rMin| ==> pairs[d].s0 + pairs[d].s1 == Sum(vals)
  {
    seq(|rMin|, d requires 0 <= d < |rMin| => Buckets(pts, vals, d, rMin[d], rMax[d]))
  }

  /** a is the average of n values summing to s: NaN when n is 0, else a times n is s. */
  predicate Averages(a: Dbl, s: real, n: nat)
  {
    (a.Num? <==> n > 0) && (a.Num? ==> a.v * (n as real) == s)
  }

  lemma AvgAverages(s: real, n: nat)
    ensures Averages(Avg(s, n), s, n)
  {
  }

  /** The result of the samples pts with values vals: their average and the first dimension with the largest gap. */
  function Summary(rMin: seq<real>, rMax: seq<real>, pts: seq<seq<real>>, vals: seq<real>): Outcome
    requires |rMin| == |rMax| && |pts| == |vals| && Shaped(pts, |rMin|)
  {
    Outcome(Avg(Sum(vals), |pts|), SplitDim(Tallies(rMin, rMax, pts, vals)))
  }

  /**
   * What the summary means: the average times the sample count is the sum of
   * the values (NaN after no samples), every dimension's buckets count every
   * sample once, and the returned dimension is the first with the largest gap
   * (0 when no dimension has hits in both halves).
   */
  lemma SummaryIsMeanAndFirstMax(rMin: seq<real>, rMax: seq<real>, pts: seq<seq<real>>, vals: seq<real>)
    requires |rMin| == |rMax| && |pts| == |vals| && Shaped(pts, |rMin|)
    ensures Averages(Summary(rMin, rMax, pts, vals).average, Sum(vals), |pts|)
    ensures forall d :: 0 <= d < |rMin| ==> Tallies(rMin, rMax, pts, vals)[d].n0 + Tallies(rMin, rMax, pts, vals)[d].n1 == |pts|
    ensures |rMin| > 0 ==> Summary(rMin, rMax, pts, vals).splitDim < |rMin|
    ensures (exists d :: 0 <= d < |rMin| && Tallies(rMin, rMax, pts, vals)[d].n0 > 0 && Tallies(rMin, rMax, pts, vals)[d].n1 > 0)
            ==> IsFirstMax(Gaps(Tallies(rMin, rMax, pts, vals)), Summary(rMin, rMax, pts, vals).splitDim)
    ensures |pts| == 0 ==> Summary(rMin, rMax, pts, vals).splitDim == 0
  {
    AvgAverages(Sum(vals), |pts|);
    var pairs := Tallies(rMin, rMax, pts, vals);
    if exists d :: 0 <= d < |rMin| && pairs[d].n0 > 0 && pairs[d].n1 > 0 {
      SplitDimIsLargestGap(pairs);
    }
  }

  /**
   * One call: samples uniform points of the box from the default-seeded
   * stream (the draws u(0), u(1), ... on every call) and summarizes their
   * weighted values. On valid distributions a sample coordinate is
   * rMin + u * (rMax - rMin), as libstdc++ computes it.
   */
  function Integrate(rMin: seq<real>, rMax: seq<real>, corr1: int, corr2: int, samples: nat,
                     g: seq<real> -> real, u: nat -> real): (r: Result<Outcome, Fault>)
    ensures r == Failure(Abort) <==>
              |rMin| != |rMax| || (DistributionsOk(rMin, rMax) && samples > 0 && CorrOutOfRange(corr1, corr2, |rMin|))
    ensures r == Failure(BadDistribution) <==> |rMin| == |rMax| && !DistributionsOk(rMin, rMax)
    ensures r == Failure(OutOfRange) <==>
              && |rMin| == |rMax| && DistributionsOk(rMin, rMax)
              && !(samples > 0 && CorrOutOfRange(corr1, corr2, |rMin|)) && samples > 0 && |rMin| < 2
    ensures r.Success? ==> |rMin| == |rMax| && DistributionsOk(rMin, rMax) && r.value == Summary(rMin, rMax, Points(rMin, rMax, u, 0, samples),
                                                                 SampleValues(corr1, corr2, g, Points(rMin, rMax, u, 0, samples), |rMin|))
    ensures r.Success? && |rMin| > 0 ==> r.value.splitDim < |rMin|
  {
    if |rMin| != |rMax| then Failure(Abort)
    else if !DistributionsOk(rMin, rMax) then Failure(BadDistribution)
    else if samples > 0 && CorrOutOfRange(corr1, corr2, |rMin|) then Failure(Abort)
    else if samples > 0 && |rMin| < 2 then Failure(OutOfRange)
    else
      var pts := Points(rMin, rMax, u, 0, samples);
      SummaryIsMeanAndFirstMax(rMin, rMax, pts, SampleValues(corr1, corr2, g, pts, |rMin|));
      Success(Summary(rMin, rMax, pts, SampleValues(corr1, corr2, g, pts, |rMin|)))
  }

  /** Every sample point of a call lies strictly inside the requested box. */
  lemma SamplesInside(rMin: seq<real>, rMax: seq<real>, samples: nat, u: nat -> real)
    requires Valid(rMin, rMax) && UnitStream(u)
    ensures forall n, i :: 0 <= n < samples && 0 <= i < |rMin| ==> rMin[i] < Points(rMin, rMax, u, 0, samples)[n][i] < rMax[i]
  {
    forall n | 0 <= n < samples
      ensures forall i :: 0 <= i < |rMin| ==> rMin[i] < Points(rMin, rMax, u, 0, samples)[n][i] < rMax[i]
    {
      PointInside(rMin, rMax, u, Draws(n, |rMin|));
    }
  }
}

=== FILE: wrappers.dfy ===
/** Failure-carrying values shared by every module of the model. */
module Wrappers {

  /** A value that may be absent. */
  datatype Option<+T> = None | Some(value: T)

  /** The outcome of an operation that either succeeds with a value or fails with an error code. */
  datatype Result<+T, +E> = Success(value: T) | Failure(error: E)
}
